=== FILE: README.md ===
# QuickSearch core in Dafny

QuickSearch is a macOS file finder. It keeps an SQLite index of file names
under a few search roots, keeps that index current from file-system events,
and answers queries typed into a small window. This project models the part
of it that decides what is found:

- **the query language** (`SearchManager`): `set_query` turns free text into
  five keyword lists, and `is_match` evaluates them against a file name;
- **the index store** (`IndexManager`'s `file_index` table): insert-or-replace,
  delete by path, and `search_name`;
- **the index maintainer**: the full `rebuild_index` walk, the dispatch of
  watchdog events to single-file updates, and the guard flags of
  `start_monitoring` and `stop_monitoring`;
- **the search worker** (`IndexSearchWorker.run`) and the window's
  `_start_search` and `trigger_rebuild` guards;
- **the live scanner** (`FileSearchThread`): the walk, `_handle`, `_flush`
  and `run`, taken as one sequential execution;
- **the hotkey parser** (`GlobalHotKey._parse_hotkey` and `_match`);
- **the settings default merge** (`ConfigManager.load_config`).

The file system is an input: a tree of `File` and `Dir` nodes (`FileTree`),
in the order a directory listing yields them. A file carries the result of
stat-ing it, and an unreadable directory lists nothing. Watchdog events are
a datatype. The stop flags of the two search threads are inputs too. A
`stopAt` count says after how many reads of the flag it is seen set.

Modules, one per source file, plus shared helpers:

| module | file | models |
|---|---|---|
| `Common`, `Strings`, `Seqs`, `Paths`, `FileTree` | common.dfy, strings.dfy, seqs.dfy, paths.dfy, file_tree.dfy | `Option`; ASCII string functions (`strip`, `split`, `lower`, `in`, `replace`); batching, stable sort by mtime, distinctness; `os.path.join`/`basename` and separator counts; the file tree |
| `QueryLanguage` | query_language.dfy | search_manager.py |
| `IndexStore`, `IndexMaintainer` | index_store.dfy, index_maintainer.dfy | index_manager.py |
| `Orchestrator` | orchestrator.dfy | main.py (worker, `_start_search`, `trigger_rebuild`) |
| `LiveScanner` | live_scanner.dfy | search_thread.py |
| `Hotkey` | hotkey.dfy | global_hotkey.py |
| `Config` | config.dfy | config_manager.py |

Behaviour of the code that the model follows, even where a reader might
expect otherwise:

- `search_name("")` returns nothing. So a query with no AND and no OR terms
  (only `!x` or `.pdf`, say) finds nothing through the index: its one coarse
  key is `""` (`Orchestrator.NoTermsNoResults`).
- The rebuild skips the files of a directory whose depth below its root is
  at least `search_depth` (100). The live scanner still lists the files of a
  directory at depth exactly `search_depth`, and cuts off only below it
  (`IndexMaintainer.DeepDirectoryContributesNothing`,
  `LiveScanner.DeepestLevelListsFiles`).
- `stop_monitoring` never clears `_observer`, so every later
  `start_monitoring` is skipped (`IndexMaintainer.RestartIsSkipped`).
- A query with all five lists empty matches every non-empty name (the
  second ensures of `QueryLanguage.IsMatch`).
- Required extensions must end the name. The query `report !draft .pdf`
  therefore does not match the name `report.pdf old`.
- The ignored-directory entry `Pictures/Photos Library.photoslibrary`
  contains a separator. It can never equal a directory entry's name, nor a
  component of a path, so it never takes effect
  (`IndexMaintainer.SlashEntryNeverMatches`).

## Model

| member | source | states |
|---|---|---|
| QueryLanguage.Normalize | search_manager.py:23 | every full-width `！` and `｜` becomes `!` and `\|`, every other character is kept in place, and no full-width mark is left |
| QueryLanguage.SetQueryIgnoresFullWidth | search_manager.py:21-23 | text with full-width marks gives exactly the query its ASCII-normalized form gives, so `！draft` parses like `!draft` |
| QueryLanguage.BlankTextGivesEmptyQuery | search_manager.py:12-19 | empty or all-whitespace text leaves all five lists empty; any other text is parsed after normalization |
| QueryLanguage.ExtractBangs | search_manager.py:26-34 | every `!`-token collected is non-empty and free of whitespace, and no `!` followed by a non-space character is left in the text |
| QueryLanguage.ExtractBangsPlain | search_manager.py:26-34 | text without `!` yields no token and is kept whole |
| QueryLanguage.ExtractBangsToken | search_manager.py:26-34 | the first `!` followed by a non-space character starts a token, which is the whole run of non-space characters after it: the token is collected, `!token` is removed, the text before it is kept, and the scan resumes after the run |
| QueryLanguage.ExtractBangsLoneBang | search_manager.py:26-34 | a `!` at the end of the text or before whitespace starts no token and stays in the text |
| QueryLanguage.BangRouting | search_manager.py:27-32 | a string is an excluded extension exactly when some `!`-token starting with `.` lowercases to it, and an exclusion keyword exactly when some other `!`-token does |
| QueryLanguage.BangsPartitioned | search_manager.py:27-32 | the two exclusion lists together hold the lowercased `!`-tokens, with none lost and none added (as multisets) |
| Strings.RemoveAllFirst | search_manager.py:39-40 | `replace` keeps the text before the first occurrence, drops that occurrence even inside a longer word, and resumes right after it |
| QueryLanguage.SetQueryWellFormed | search_manager.py:26-48 | OR and AND terms are never both present; AND terms are lowercase words without whitespace; OR terms are lowercase, stripped, non-empty and free of `\|`; exclusion keywords and excluded extensions are lowercase tokens without whitespace, split by a leading `.`; required extensions are lowercase `.`-word tokens |
| QueryLanguage.AnyContained | search_manager.py:55 | true exactly when some keyword is a substring of the name |
| QueryLanguage.AllContained | search_manager.py:72 | true exactly when every keyword is a substring of the name |
| QueryLanguage.AnySuffix | search_manager.py:56 | true exactly when the name ends with some extension |
| QueryLanguage.IsMatch | search_manager.py:50-74 | the name matches exactly when it is non-empty, its lowercase form contains no exclusion keyword and ends with no excluded extension, ends with a required extension when there are any, contains some OR term when there are any, and contains every AND term; the empty query matches every non-empty name |
| QueryLanguage.ExcludedNeverMatches | search_manager.py:55 | a name whose lowercase form contains an exclusion keyword is never matched |
| IndexStore.Lookup | index_manager.py:34-41 | the record found for a path is a row with that path, and there is none exactly when no row has that path |
| IndexStore.DeleteRow | index_manager.py:155-158 | the rows left are exactly the rows with another path |
| IndexStore.DeleteRowLookup | index_manager.py:155-158 | after a delete the path has no record and every other path reads as before |
| IndexStore.DeleteRowUnique | index_manager.py:36 | a delete keeps the primary key: no two rows share a path |
| IndexStore.Upsert | index_manager.py:148-151 | after `INSERT OR REPLACE` exactly one row holds the path, and it is the new record |
| IndexStore.UpsertOtherPaths | index_manager.py:148-151 | an upsert leaves the record of every other path as it was |
| IndexStore.UpsertUnique | index_manager.py:36 | an upsert keeps the primary key |
| IndexStore.UpsertSamePathTwice | index_manager.py:52-55 | upserting one path twice leaves one row, holding the latest values |
| IndexStore.BatchInsert | index_manager.py:46-58 | after a batch, a path reads as its last record in the batch if the batch has one, else as before; the primary key is kept |
| IndexStore.BatchInsertAppend | index_manager.py:46-58 | writing two batches in turn is writing their concatenation |
| IndexStore.WriteBatchesFlatten | index_manager.py:91-99 | however a stream of records is cut into batches, writing the batches is writing the stream |
| IndexStore.LikePrefix | index_manager.py:167 | without wildcards, `LIKE 'q%'` is an ASCII case-insensitive prefix test |
| IndexStore.LikeIsContains | index_manager.py:167-170 | without wildcards, `LIKE '%q%'` is an ASCII case-insensitive substring test |
| IndexStore.LikeOfContains | index_manager.py:167-170 | a name whose lowercased form contains the query matches `LIKE '%query%'`, with or without wildcards in the query |
| IndexStore.MatchingRows | index_manager.py:166-167 | the filtered rows are exactly the rows whose name is `LIKE` the pattern |
| IndexStore.Limit | index_manager.py:169 | `LIMIT n` keeps a prefix of at most `n` rows, and all rows when `n` is negative |
| IndexStore.SearchName | index_manager.py:160-171 | an empty query gives nothing; otherwise at most `max_results` rows of the table whose name matches, newest first, and any matching row left out is no newer than every row returned, which then number exactly `max_results` |
| IndexStore.SearchNameUnique | index_manager.py:160-171 | no path is returned twice |
| IndexStore.TopK | index_manager.py:168-169 | a prefix cut of a newest-first list holds its newest elements |
| IndexMaintainer.FileRecords | index_manager.py:82-96 | the records of one directory are exactly its files whose stat succeeds and that are visible under the hidden rule, with joined path, own name and stat values |
| IndexMaintainer.WalkSubdirsMembers | index_manager.py:73-74 | ignored subdirectories, and hidden ones unless hidden entries are shown, contribute nothing; the kept ones contribute exactly their walk |
| IndexMaintainer.WalkDirMembers | index_manager.py:71-96 | a readable directory above the depth limit yields exactly its own visible files and what its kept subdirectories yield |
| IndexMaintainer.DeepDirectoryContributesNothing | index_manager.py:76-80 | a directory at depth 100 or more below its root yields no record, its own files included |
| IndexMaintainer.DepthOfJoinAtMost | index_manager.py:77 | one more entry name adds at most one separator below the root |
| IndexMaintainer.WalkDirGood | index_manager.py:71-96 | every record of a walk has its base name as name, a visible name unless hidden entries are shown, and a path under the root at most 100 separators below it |
| IndexMaintainer.RootBatchesFlatten | index_manager.py:67-99 | the batches written for all roots, in order, are the records of every existing root's walk, in order |
| IndexMaintainer.IndexRoot | index_manager.py:70-99 | the accumulate-and-flush loop writes the records of one root in batches of 1000 and a final remainder, and the table ends as if the records were written one by one |
| IndexMaintainer.RebuildIndex | index_manager.py:60-100 | the rebuild empties the table, writes each root's records in batches of 1 to 1000, skips missing roots, and leaves the table holding exactly the walk's records with no path twice |
| IndexMaintainer.RootBatchesSized | index_manager.py:92-99 | every batch written holds between 1 and 1000 records |
| IndexMaintainer.RebuildLookup | index_manager.py:60-100 | after a rebuild a path has a record exactly when some walk found it, and the record is the last one found |
| IndexMaintainer.SlashEntryNeverMatches | index_manager.py:12 | a directory entry name never equals the ignored entry that contains a separator |
| IndexMaintainer.UpdateFile | index_manager.py:143-153 | a successful stat stores the path with its base name and stat values; a failing stat changes nothing |
| IndexMaintainer.RemoveFile | index_manager.py:155-158 | exactly the rows of that path are deleted |
| IndexMaintainer.UpdateFileOtherPaths | index_manager.py:143-153 | an update leaves every other path as it was |
| IndexMaintainer.RemoveFileOtherPaths | index_manager.py:155-158 | a delete leaves every other path as it was |
| IndexMaintainer.DispatchEffect | index_manager.py:114-126 | directory events change nothing, and a path the event does not name is never changed |
| IndexMaintainer.IgnoredPathNeverGainsRecord | index_manager.py:111-126 | an event never adds or changes the record of a path under an ignored directory; at most it removes it |
| IndexMaintainer.DispatchStores | index_manager.py:114-126 | a created or modified visible file is stored as `_update_file_async` builds it; a deleted file has no record; a moved file's new path is stored unless ignored, and its old path is gone |
| IndexMaintainer.DispatchUnique | index_manager.py:114-126 | every event keeps the primary key |
| IndexMaintainer.StartMonitoring | index_manager.py:102-141 | a start is a no-op while monitoring or while an observer is set; otherwise a successful start leaves both the observer and `_is_monitoring` set and a failed one resets both; it starts one observer exactly when neither is set and starting succeeds |
| IndexMaintainer.StopMonitoring | index_manager.py:172-176 | a stop clears only `_is_monitoring`, and only when an observer is set |
| IndexMaintainer.AtMostOneObserver | index_manager.py:102-176 | from a fresh manager, any sequence of starts and stops starts at most one observer |
| IndexMaintainer.RestartIsSkipped | index_manager.py:104-106 | start, stop, start: the second start does nothing |
| Orchestrator.KeysCover | main.py:42-50 | for a query with OR or AND terms, a name `is_match` accepts contains one of the coarse keys and matches that key's `LIKE '%key%'`: the prefilter by all OR terms, or by the first AND term alone, loses no match |
| Orchestrator.AddNew | main.py:57-60 | merging keeps the earlier candidates as a prefix and adds only items whose path is new, covering every path of both |
| Orchestrator.AddNewUnique | main.py:57-60 | the merged candidates hold each path at most once |
| Orchestrator.AddNewKeepsFirst | main.py:57-60 | an item is kept when no earlier candidate has its path |
| Orchestrator.GatherFacts | main.py:52-60 | the merged candidates come from the keys' searches, hold each path once, and cover every path any key found |
| Orchestrator.Refine | main.py:64-67 | the refined candidates are exactly those that pass `is_match` |
| Orchestrator.ResultsFacts | main.py:62-67 | every result is in the index and passes `is_match`, and no path repeats |
| Orchestrator.ResultsComplete | main.py:42-67 | for a parsed query with terms and an index with unique paths, a record that passes `is_match` matches the `LIKE` pattern of some key, and it is missing from the results only when every key whose pattern it matches returned the full 1000 rows, none older than it |
| Orchestrator.NoTermsNoResults | main.py:48-50 | a query with no OR or AND terms yields nothing |
| Orchestrator.GatherStage | main.py:52-60 | unless stopped before a key, the candidates are the merged searches of all keys |
| Orchestrator.RefineStage | main.py:62-73 | the batches emitted are a prefix of the 50-item batches of the refined candidates; nothing is emitted when already stopped, and all of them when never stopped |
| Orchestrator.RunWorker | main.py:37-73 | the worker emits a prefix of the 50-item batches of its results, in discovery order, and all of them when the stop flag stays clear |
| Orchestrator.Merge | main.py:57-60 | the merge loop with its `seen_paths` set computes the path-deduplicated merge |
| Orchestrator.StartSearch | main.py:163-180 | a current worker that still runs but is already disconnected (left so by an earlier blank search) makes `res_signal.disconnect()` raise `TypeError`, and exactly then nothing is cleared or started; otherwise the results are cleared, a running worker is disconnected and told to stop, and it stays the current worker for blank text or becomes the last retired worker otherwise (a finished worker is kept or retired unchanged); blank text gives status Ready, other text a new connected, running worker on `set_query` of the stripped text |
| Orchestrator.BlankThenSearchRaises | main.py:163-173 | a blank search while a connected worker runs succeeds, and the next search before that worker ends raises at the second disconnect |
| Orchestrator.Emit | main.py:69-73 | only a running worker thread emits, and its batch joins that worker's queue of batches the window has not handled; nothing else changes |
| Orchestrator.Deliver | main.py:182-198 | the window handles a worker's oldest queued batch: while its connection is alive `_add_res_batch` appends it and shows the new count, whatever the worker's thread is doing; a disconnected worker's batch is dropped; a worker with nothing queued changes nothing |
| Orchestrator.RetiredBatchIgnored | main.py:165-169 | a batch from a retired worker that was disconnected leaves the list and the status unchanged |
| Orchestrator.ApplyIsolates | main.py:165-169 | a search that does not raise, an emit, the end of a worker thread or a handled batch keeps every retired worker disconnected or ended |
| Orchestrator.RunIsolates | main.py:165-169 | after any sequence of searches, emits, thread ends and handled batches, up to a search that raises, every retired worker is disconnected or its thread has ended, so no retired worker emits a batch that reaches the list |
| Orchestrator.RunRetiredEvolve | main.py:165-198 | over any events, each retired worker keeps its query text and its connection, its thread can only end, and a connected one whose thread has ended only loses queued batches from the front: an older search can reach a later search's list only with batches queued before its worker was retired |
| Orchestrator.StaleBatchReachesNextSearch | main.py:165-171 | the results of two searches can mix: a search, a batch emitted, the worker thread ending, a second search, then the handling of that batch, leaves the second search's worker current and the first search's batch as the whole list |
| Orchestrator.TriggerRebuild | main.py:206-216 | a running rebuild makes the call a no-op; otherwise one rebuild starts |
| Orchestrator.RebuildsNeverOverlap | main.py:206-216 | across any sequence of triggers and finishes, starts never exceed finishes plus one |
| LiveScanner.Flush | search_thread.py:115-121 | the buffer ends empty and every handled hit counts as emitted; earlier batches stay in place; the emitted hits grow by exactly the buffered hits, as a multiset; a non-empty buffer becomes one new batch, sorted newest first; `seen` and the handled hits do not change |
| LiveScanner.Run | search_thread.py:43-61 | for one sequential run, in which every walk has returned before the final flush, `run` emits the batches in order and then `search_finished` exactly once, as its last signal |
| LiveScanner.ScanIsPrefix | search_thread.py:43-121 | the hits buffered by a scan are the new, accepted hits of a prefix of the reference listing of all roots; the whole listing when the flag stays clear |
| LiveScanner.NeverStoppedHandlesListing | search_thread.py:43-100 | when never stopped, the scan buffers exactly the new, accepted hits of the whole listing |
| LiveScanner.RunBatches | search_thread.py:102-121 | the emitted batches are the buffered hits cut at `batch_size` and each sorted newest first; no path is emitted twice, and every name passes the filter |
| LiveScanner.RunBatchShapes | search_thread.py:112-121 | every batch is non-empty, at most `batch_size` long, and sorted newest first; every batch but the last is full |
| LiveScanner.HandleKept | search_thread.py:102-113 | `_handle` keeps the seen set equal to the paths buffered, each once, all accepted, and buffers exactly the hit when it is new and accepted |
| LiveScanner.FinalFlush | search_thread.py:115-121 | the last flush completes the batches to the sorted cut of everything buffered |
| LiveScanner.DirsBeyondLimit | search_thread.py:64-65 | subdirectories of a directory at or below the depth limit list nothing |
| LiveScanner.DeepestLevelListsFiles | search_thread.py:64-95 | a directory at depth exactly the limit still lists its files |
| LiveScanner.SystemRootSkipped | search_thread.py:67-69 | a root under a system prefix is skipped entirely |
| LiveScanner.StoppedWalkFindsNothing | search_thread.py:64-65 | a walk that sees the flag set only reads it |
| Hotkey.ModifierMask | global_hotkey.py:6-13 | a modifier name maps to no bit or to exactly one of the four modifier bits |
| Hotkey.MaskWithinModifiers | global_hotkey.py:36-38 | the mask holds only modifier bits |
| Hotkey.MaskBit | global_hotkey.py:36-38 | a modifier bit is in the mask exactly when some modifier name maps to it |
| Hotkey.ParseHotkey | global_hotkey.py:25-43 | text without `+` falls back to Option+Space; otherwise the mask holds only modifier bits |
| Hotkey.ParseFormat | global_hotkey.py:25-43 | parsing `mod+…+mod+key` gives the OR of the modifiers' masks and the stripped key, with `space` as `" "` |
| Hotkey.AliasesParseAlike | global_hotkey.py:6-13 | swapping `option`/`alt` or `ctrl`/`control` gives the same hotkey |
| Hotkey.HotkeyIgnoresCase | global_hotkey.py:22 | the hotkey text is read case-insensitively |
| Hotkey.NoPlusFallsBack | global_hotkey.py:27-30 | text without `+` gives Option+Space |
| Hotkey.MatchParsed | global_hotkey.py:71-79 | an event matches exactly when its characters equal the key and it holds every modifier the hotkey names |
| Hotkey.MatchIgnoresExtraFlags | global_hotkey.py:79 | extra flags never stop a match, and a zero mask matches any flags |
| Hotkey.MatchNeedsNamedModifiers | global_hotkey.py:79 | a matching event holds every modifier named in the hotkey text |
| Hotkey.SpacedModifierIgnored | global_hotkey.py:38 | a modifier name with whitespace at either end contributes no bit |
| Hotkey.AliasMasks | global_hotkey.py:6-13 | `option` and `alt` name the Alternate bit, `ctrl` and `control` the Control bit |
| Config.SetDefaultsSpec | config_manager.py:22-23 | the setdefault loop keeps every loaded key with its value, adds each missing default key with its default value, and adds nothing else |
| Config.DefaultItemsAgree | config_manager.py:8-13 | the default items list each key of `DEFAULT_CONFIG` once, with its value |
| Config.LoadConfigSpec | config_manager.py:15-26 | a missing, unreadable or unparsable file, or one that is not a JSON object, gives the defaults; an object keeps all its keys and values and gains each missing default |
| Config.DefaultsAlwaysPresent | config_manager.py:22-23 | after loading, every default key is present |
| Config.LoadAfterSaveIsIdentity | config_manager.py:15-26 | loading settings that were loaded and saved gives them back unchanged |

## Left out

- Unicode: strings are ASCII as far as meaning goes. Lowercasing folds only `A`-`Z`; whitespace is Python's ASCII whitespace; `\w` is `[A-Za-z0-9_]`. Python's Unicode case folding and Unicode `\s`/`\w` are not modelled.
- Concurrency: locks, the thread pool of the live scanner, Qt threads and signals, and races on the stop flags. Each thread is one sequential run, and the stop flag is an input.
- LiveScanner.Run: the roots are walked one after another in list order, whereas `search_thread.py` submits them to a thread pool and then waits on the futures. The model states nothing about interleavings of different roots' batches. Two outcomes of a stopped scan are not modelled. First, once the flag is set `run` stops waiting on the futures (lines 52-54) and emits `search_finished` (lines 60-61), while pool threads past their flag check at line 88 can still buffer and flush a batch after it. Second, `stop()` shuts the pool down (line 38), so a `pool.submit` at line 49 that passed the check at line 46 raises `RuntimeError`, and `run` then emits neither the last flush nor `search_finished`.
- `should_include_file` and `search_depth` of the live scanner's manager are code outside this model. They are the `accepts` predicate and the `maxDepth` number of `LiveScanner.Scanner`.
- SQLite mechanics: the connection, the WAL pragma, commits, and swallowed write errors. The table is a sequence of rows with unique paths.
- IndexStore.SearchName: rows with equal `mtime` are returned in row order. SQLite leaves that order unspecified, so the contract states only newest-first order.
- `LIKE` is modelled with its `%` and `_` wildcards. The lemmas that turn it into a substring test assume a query free of both.
- Real file-system calls (`os.walk`, `os.scandir`, `os.stat`, `os.path.exists`): the file system is a tree given as input. Symbolic links and special files are not part of it.
- Floating point: `st_mtime` is a whole number of seconds, and the JSON numbers of the settings file are reals.
- `os.path.expanduser` and the home directory: the home directory is a parameter of `Config.DefaultConfig`, and search roots are taken as already expanded.
- The watchdog `Observer` and its scheduling, and how `start_monitoring` fails: starting either succeeds or fails, given as an input.
- macOS calls: NSEvent monitor registration, the event loop of `GlobalHotKey.run`, and `stop`. The AppKit masks are their single-bit values in a 64-bit word. `_match` takes the event's flags and characters as inputs.
- JSON reading and writing, and `save_config`: the file is given as missing, unreadable or parsed.
- The Qt user interface: the windows, `_fmt_size`, date formatting, and how `_add_res_batch` turns records into list rows and re-sorts them. `Orchestrator.Deliver` models only which batches reach the list, in arrival order.
- Orchestrator.Deliver: a batch still queued when its worker is disconnected is taken as dropped. This assumes PyQt's slot proxy ignores calls queued before the disconnect; were they delivered, a running worker's last batches could also land after the clear. Batches from different workers may be handled in any interleaving, while one worker's batches keep their order, as Qt's event queue keeps them.
- Orchestrator.RunUi: the events stop at the first search whose `disconnect()` raises, taking the application to end there as PyQt5 from version 5.5 on does for an exception escaping a slot (no excepthook is installed). An older PyQt5 would print the traceback and keep the window as it was; the model does not describe that.
- Workers share one `SearchManager` in `main.py`, so `set_query` for a new search also changes the query a still-running retired worker filters with. A retired worker that still runs is always disconnected (`Orchestrator.RunIsolates`), so this never shows. In the model each worker keeps the text it was started on.
- IndexMaintainer.RebuildIndex: `os.stat` can fail with other `OSError`s (index_manager.py:88-96), such as a path that is too long or a path component that stopped being a directory. Only `PermissionError` and `FileNotFoundError` are caught. Any other such error leaves `rebuild_index` at once, the pending partial batch is never written, and the table keeps only what was written since it was emptied (lines 63-65). A stat here either succeeds or is one of the two caught errors (`None`), so the model does not describe that outcome.
- `set_query` mutates the manager's five lists. Here it is a pure function of the text, so calling it twice on the same text gives equal lists by construction.

=== FILE: common.dfy ===
/** Small shared datatypes used across the model. */
module Common {

  /** A value that may be absent: a failed `os.stat`, a missing key, an unset handle. */
  datatype Option<+T> = None | Some(value: T)
}

=== FILE: config.dfy ===
/**
 * `ConfigManager.load_config` of config_manager.py: the settings file is
 * read as JSON and completed with the defaults, key by key, without
 * overwriting what the file holds. The file system is an input: the file
 * is missing, cannot be read or parsed, or parses to a JSON value. The
 * home directory that `~` expands to is an input too.
 */
module Config {

  /** A JSON value as `json.load` returns it; numbers are kept as reals. */
  datatype Json =
    | JNull
    | JBool(b: bool)
    | JNumber(n: real)
    | JString(s: string)
    | JArray(items: seq<Json>)
    | JObject(fields: map<string, Json>)

  /** What reading the settings file gives. */
  datatype FileState = Missing | Unreadable | Parsed(value: Json)

  /** `DEFAULT_CONFIG`. */
  function DefaultConfig(home: string): map<string, Json> {
    map[
      "hotkey" := JString("option+space"),
      "search_paths" := JArray([JString(home)]),
      "exclude_rules" := JString(""),
      "show_hidden" := JBool(false)
    ]
  }

  /** `DEFAULT_CONFIG.items()`, in their written order. */
  function DefaultItems(home: string): seq<(string, Json)> {
    [ ("hotkey", JString("option+space")),
      ("search_paths", JArray([JString(home)])),
      ("exclude_rules", JString("")),
      ("show_hidden", JBool(false)) ]
  }

  /** `cfg.setdefault(k, v)` for each default item in turn. */
  function SetDefaults(cfg: map<string, Json>, items: seq<(string, Json)>): map<string, Json>
    decreases |items|
  {
    if items == [] then cfg
    else
      var (k, v) := items[0];
      SetDefaults(if k in cfg then cfg else cfg[k := v], items[1..])
  }

  /**
   * `load_config`: a missing file, one that cannot be read or parsed, or
   * one whose JSON is not an object (where `setdefault` raises) gives the
   * defaults; an object is completed with them.
   */
  function LoadConfig(home: string, file: FileState): map<string, Json> {
    match file
    case Parsed(JObject(cfg)) => SetDefaults(cfg, DefaultItems(home))
    case _ => DefaultConfig(home)
  }

  // ---------------------------------------------------------------------------
  // The completed map
  // ---------------------------------------------------------------------------

  /** The first value a list of items gives a key. */
  function FirstValue(items: seq<(string, Json)>, k: string): Json
    requires exists i :: 0 <= i < |items| && items[i].0 == k
    decreases |items|
  {
    if items[0].0 == k then items[0].1
    else
      assert exists i :: 0 <= i < |items[1..]| && items[1..][i].0 == k by {
        var i :| 0 <= i < |items| && items[i].0 == k;
        assert items[1..][i - 1] == items[i];
      }
      FirstValue(items[1..], k)
  }

  /**
   * The setdefault loop keeps every key the map already has with its value,
   * and adds each other key of the items with the first value the items
   * give it; it adds nothing else.
   */
  lemma {:induction false} SetDefaultsSpec(cfg: map<string, Json>, items: seq<(string, Json)>)
    ensures forall k :: k in SetDefaults(cfg, items) <==> k in cfg || exists i :: 0 <= i < |items| && items[i].0 == k
    ensures forall k :: k in cfg ==> SetDefaults(cfg, items)[k] == cfg[k]
    ensures forall k :: k in SetDefaults(cfg, items) && k !in cfg ==> SetDefaults(cfg, items)[k] == FirstValue(items, k)
    decreases |items|
  {
    if items != [] {
      var (k0, v0) := items[0];
      var cfg' := if k0 in cfg then cfg else cfg[k0 := v0];
      var rest := items[1..];
      SetDefaultsSpec(cfg', rest);
      var r := SetDefaults(cfg, items);
      assert r == SetDefaults(cfg', rest);
      forall k ensures k in r <==> k in cfg || exists i :: 0 <= i < |items| && items[i].0 == k {
        if exists i :: 0 <= i < |items| && items[i].0 == k {
          var i :| 0 <= i < |items| && items[i].0 == k;
          if i > 0 { assert rest[i - 1] == items[i]; }
        }
        if exists i :: 0 <= i < |rest| && rest[i].0 == k {
          var i :| 0 <= i < |rest| && rest[i].0 == k;
          assert items[i + 1] == rest[i];
        }
      }
      forall k | k in r && k !in cfg ensures r[k] == FirstValue(items, k) {
        if k != k0 {
          assert k !in cfg';
        }
      }
    }
  }

  /** The items list the keys of `DEFAULT_CONFIG`, each once, with its value. */
  lemma DefaultItemsAgree(home: string)
    ensures forall k :: (exists i :: 0 <= i < |DefaultItems(home)| && DefaultItems(home)[i].0 == k) <==> k in DefaultConfig(home)
    ensures forall k :: k in DefaultConfig(home) ==> FirstValue(DefaultItems(home), k) == DefaultConfig(home)[k]
  {
    var items := DefaultItems(home);
    var d := DefaultConfig(home);
    forall k | k in d ensures exists i :: 0 <= i < |items| && items[i].0 == k {
      if k == "hotkey" { assert items[0].0 == k; }
      else if k == "search_paths" { assert items[1].0 == k; }
      else if k == "exclude_rules" { assert items[2].0 == k; }
      else { assert items[3].0 == k; }
    }
    forall k | exists i :: 0 <= i < |items| && items[i].0 == k ensures k in d {
      var i :| 0 <= i < |items| && items[i].0 == k;
      assert i == 0 || i == 1 || i == 2 || i == 3;
    }
    var t1 := items[1..];
    var t2 := t1[1..];
    var t3 := t2[1..];
    assert t1[0] == items[1] && t2[0] == items[2] && t3[0] == items[3];
    forall k | k in d ensures FirstValue(items, k) == d[k] {
      if k == "hotkey" {
      } else if k == "search_paths" {
        assert FirstValue(items, k) == FirstValue(t1, k);
      } else if k == "exclude_rules" {
        assert FirstValue(items, k) == FirstValue(t1, k) == FirstValue(t2, k);
      } else {
        assert FirstValue(items, k) == FirstValue(t1, k) == FirstValue(t2, k) == FirstValue(t3, k);
      }
    }
  }

  /**
   * What `load_config` returns: a copy of the defaults unless the file
   * parses to an object; for an object, every key it has, with its value,
   * and every default key it lacks, with the default value, and nothing
   * else.
   */
  lemma LoadConfigSpec(home: string, file: FileState)
    ensures var r := LoadConfig(home, file);
      && (!(file.Parsed? && file.value.JObject?) ==> r == DefaultConfig(home))
      && (file.Parsed? && file.value.JObject? ==>
            var cfg := file.value.fields;
            && r.Keys == cfg.Keys + DefaultConfig(home).Keys
            && (forall k :: k in cfg ==> r[k] == cfg[k])
            && (forall k :: k in r && k !in cfg ==> r[k] == DefaultConfig(home)[k]))
  {
    if file.Parsed? && file.value.JObject? {
      var cfg := file.value.fields;
      var items := DefaultItems(home);
      SetDefaultsSpec(cfg, items);
      DefaultItemsAgree(home);
      var r := LoadConfig(home, file);
      assert r.Keys == cfg.Keys + DefaultConfig(home).Keys;
    }
  }

  /** After loading, every default key is present. */
  lemma DefaultsAlwaysPresent(home: string, file: FileState)
    ensures DefaultConfig(home).Keys <= LoadConfig(home, file).Keys
  {
    LoadConfigSpec(home, file);
  }

  /** Saving the loaded settings and loading them again gives the same settings. */
  lemma LoadAfterSaveIsIdentity(home: string, file: FileState)
    ensures LoadConfig(home, Parsed(JObject(LoadConfig(home, file)))) == LoadConfig(home, file)
  {
    var r := LoadConfig(home, file);
    LoadConfigSpec(home, file);
    LoadConfigSpec(home, Parsed(JObject(r)));
    var r2 := LoadConfig(home, Parsed(JObject(r)));
    assert r2.Keys == r.Keys;
  }
}

=== FILE: file_tree.dfy ===
/**
 * The file system as both walkers see it: a tree given as input. A
 * directory lists its entries in the order `os.scandir` yields them, and
 * an unreadable directory lists nothing. A file carries the result of
 * stat-ing it at the moment the walk reaches it (`None` when that stat
 * raises). Symbolic links and special files are not part of the tree.
 */
module FileTree {
  import opened Common
  import opened Paths

  /** The two stat fields the index keeps. `st_mtime` is kept as a whole number of seconds. */
  datatype Stat = Stat(mtime: int, size: int)

  datatype Node =
    | File(name: string, stat: Option<Stat>)
    | Dir(name: string, readable: bool, children: seq<Node>)

  /** A search root: its path, and what exists there (`None` when `os.path.exists` is false). */
  datatype Root = Root(path: string, node: Option<Node>)

  /** Every entry below the top has a name `os.scandir` can return. */
  predicate WellNamed(n: Node)
    decreases n, 1
  {
    n.Dir? ==> AllWellNamed(n.children)
  }

  predicate AllWellNamed(cs: seq<Node>)
    decreases cs
  {
    forall i :: 0 <= i < |cs| ==> IsEntryName(cs[i].name) && WellNamed(cs[i])
  }
}

=== FILE: hotkey.dfy ===
/**
 * The hotkey string of global_hotkey.py: `_parse_hotkey` turns text such
 * as "option+space" into a modifier mask and a key character, and
 * `_match` tests a key-down event against them. The AppKit modifier masks
 * are the four distinct single bits AppKit assigns them, in a 64-bit
 * flags word.
 */
module Hotkey {
  import opened Common
  import opened Strings

  const CommandMask: bv64 := 0x10_0000
  const AlternateMask: bv64 := 0x8_0000
  const ControlMask: bv64 := 0x4_0000
  const ShiftMask: bv64 := 0x2_0000

  /** The four modifier bits together. */
  const AllModifiers: bv64 := CommandMask | AlternateMask | ControlMask | ShiftMask

  predicate IsModifierBit(bit: bv64) {
    bit == CommandMask || bit == AlternateMask || bit == ControlMask || bit == ShiftMask
  }

  /** `MODIFIER_MAP`: two spellings each for the Alternate and Control keys. */
  const ModifierMap: map<string, bv64> := map[
    "cmd" := CommandMask,
    "option" := AlternateMask,
    "alt" := AlternateMask,
    "shift" := ShiftMask,
    "ctrl" := ControlMask,
    "control" := ControlMask
  ]

  /** `MODIFIER_MAP.get(mod, 0)`: an unknown name, or a known one with spaces around it, adds no bit. */
  function ModifierMask(name: string): (m: bv64)
    ensures m == 0 || IsModifierBit(m)
  {
    if name in ModifierMap then ModifierMap[name] else 0
  }

  /** The mask of each modifier name, in order. */
  function ModifierMasks(mods: seq<string>): (r: seq<bv64>)
    ensures |r| == |mods|
    ensures forall i :: 0 <= i < |mods| ==> r[i] == ModifierMask(mods[i])
  {
    if mods == [] then [] else [ModifierMask(mods[0])] + ModifierMasks(mods[1..])
  }

  /** The bitwise OR of a sequence of masks. */
  function OrAll(ms: seq<bv64>): bv64
    decreases |ms|
  {
    if ms == [] then 0 else OrAll(ms[..|ms| - 1]) | ms[|ms| - 1]
  }

  /** The mask `_parse_hotkey` accumulates: the OR of the masks of all modifier names. */
  function MaskOf(mods: seq<string>): bv64 {
    OrAll(ModifierMasks(mods))
  }

  datatype Hotkey = Hotkey(mask: bv64, key: string)

  /** What text without a `+` parses to: Option+Space. */
  const Fallback := Hotkey(AlternateMask, " ")

  /**
   * `_parse_hotkey` on text already lowercased: split on `+`; with fewer
   * than two parts the fallback; otherwise every part but the last is a
   * modifier name, and the last, stripped, is the key, with "space" read
   * as " ".
   */
  function ParseHotkey(text: string): (h: Hotkey)
    ensures '+' !in text ==> h == Fallback
    ensures '+' in text ==> h.mask & AllModifiers == h.mask
  {
    var parts := SplitOn(text, '+');
    SplitOnPieces(text, '+');
    if |parts| < 2 then Fallback
    else
      var key := Strip(parts[|parts| - 1]);
      MaskWithinModifiers(parts[..|parts| - 1]);
      Hotkey(MaskOf(parts[..|parts| - 1]), if key == "space" then " " else key)
  }

  /** `GlobalHotKey.__init__`: the configured text is lowercased, then parsed. */
  function HotkeyOf(text: string): Hotkey {
    ParseHotkey(Lower(text))
  }

  /** The text a user writes for a hotkey: the modifier names and the key, joined by `+`. */
  function Format(mods: seq<string>, key: string): string {
    JoinWith(mods + [key], '+')
  }

  /** `_match`: every bit of the mask is set in the event's flags, and the event's characters are exactly the key (no characters read as ""). */
  function Match(h: Hotkey, flags: bv64, chars: Option<string>): bool {
    flags & h.mask == h.mask && (match chars case None => "" case Some(s) => s) == h.key
  }

  // ---------------------------------------------------------------------------
  // The mask
  // ---------------------------------------------------------------------------

  lemma {:induction false} OrAllWithin(ms: seq<bv64>)
    requires forall i :: 0 <= i < |ms| ==> ms[i] & AllModifiers == ms[i]
    ensures OrAll(ms) & AllModifiers == OrAll(ms)
    decreases |ms|
  {
    if ms != [] {
      OrAllWithin(ms[..|ms| - 1]);
    }
  }

  lemma MaskWithinModifiers(mods: seq<string>)
    ensures MaskOf(mods) & AllModifiers == MaskOf(mods)
  {
    var ms := ModifierMasks(mods);
    forall i | 0 <= i < |ms| ensures ms[i] & AllModifiers == ms[i] {
      assert ms[i] == 0 || IsModifierBit(ms[i]);
    }
    OrAllWithin(ms);
  }

  /** A single bit is in the OR of masks that are each zero or a single modifier bit exactly when one of them is that bit. */
  lemma {:induction false} OrAllBit(ms: seq<bv64>, bit: bv64)
    requires IsModifierBit(bit)
    requires forall i :: 0 <= i < |ms| ==> ms[i] == 0 || IsModifierBit(ms[i])
    ensures OrAll(ms) & bit != 0 <==> exists i :: 0 <= i < |ms| && ms[i] == bit
    decreases |ms|
  {
    if ms != [] {
      var front := ms[..|ms| - 1];
      OrAllBit(front, bit);
      if exists i :: 0 <= i < |front| && front[i] == bit {
        var i :| 0 <= i < |front| && front[i] == bit;
        assert ms[i] == front[i];
      }
      if exists i :: 0 <= i < |ms| && ms[i] == bit {
        var i :| 0 <= i < |ms| && ms[i] == bit;
        if i < |front| {
          assert front[i] == ms[i];
        }
      }
    }
  }

  /** A modifier bit is in the mask exactly when one of the names maps to it. */
  lemma MaskBit(mods: seq<string>, bit: bv64)
    requires IsModifierBit(bit)
    ensures MaskOf(mods) & bit != 0 <==> exists i :: 0 <= i < |mods| && ModifierMask(mods[i]) == bit
  {
    var ms := ModifierMasks(mods);
    OrAllBit(ms, bit);
    if exists i :: 0 <= i < |ms| && ms[i] == bit {
      var i :| 0 <= i < |ms| && ms[i] == bit;
      assert ModifierMask(mods[i]) == bit;
    }
  }

  /** Names with the same masks, such as "alt" for "option" or "control" for "ctrl", give the same mask. */
  lemma MaskOfAliases(a: seq<string>, b: seq<string>)
    requires |a| == |b|
    requires forall i :: 0 <= i < |a| ==> ModifierMask(a[i]) == ModifierMask(b[i])
    ensures MaskOf(a) == MaskOf(b)
  {
    assert ModifierMasks(a) == ModifierMasks(b);
  }

  // ---------------------------------------------------------------------------
  // Parsing
  // ---------------------------------------------------------------------------

  /** Parsing a formatted hotkey gives back the mask of its modifier names and its stripped key. */
  lemma ParseFormat(mods: seq<string>, key: string)
    requires mods != []
    requires forall i :: 0 <= i < |mods| ==> '+' !in mods[i]
    requires '+' !in key
    ensures ParseHotkey(Format(mods, key)) ==
      Hotkey(MaskOf(mods), if Strip(key) == "space" then " " else Strip(key))
  {
    var parts := mods + [key];
    forall i | 0 <= i < |parts| ensures '+' !in parts[i] {
      if i < |mods| { assert parts[i] == mods[i]; }
    }
    SplitOnJoin(parts, '+');
    assert parts[..|parts| - 1] == mods;
  }

  /** Swapping a modifier name for an alias does not change the hotkey. */
  lemma AliasesParseAlike(a: seq<string>, b: seq<string>, key: string)
    requires a != [] && |a| == |b|
    requires forall i :: 0 <= i < |a| ==> '+' !in a[i] && '+' !in b[i]
    requires forall i :: 0 <= i < |a| ==> ModifierMask(a[i]) == ModifierMask(b[i])
    requires '+' !in key
    ensures ParseHotkey(Format(a, key)) == ParseHotkey(Format(b, key))
  {
    ParseFormat(a, key);
    ParseFormat(b, key);
    MaskOfAliases(a, b);
  }

  lemma HotkeyIgnoresCase(text: string)
    ensures HotkeyOf(Lower(text)) == HotkeyOf(text)
  {
    LowerIsLower(text);
    LowerOfLower(Lower(text));
  }

  /** A hotkey text without `+` falls back to Option+Space. */
  lemma NoPlusFallsBack(text: string)
    requires '+' !in text
    ensures HotkeyOf(text) == Fallback
  {
    assert '+' !in Lower(text) by {
      forall i | 0 <= i < |text| ensures Lower(text)[i] != '+' { }
    }
  }

  // ---------------------------------------------------------------------------
  // Matching
  // ---------------------------------------------------------------------------

  /**
   * For a parsed hotkey, an event matches exactly when its characters are
   * the key and it holds every modifier the hotkey names, whatever other
   * flags it carries.
   */
  lemma MatchParsed(text: string, flags: bv64, chars: Option<string>)
    ensures var h := HotkeyOf(text);
      Match(h, flags, chars) <==>
        && (match chars case None => "" case Some(s) => s) == h.key
        && (h.mask & CommandMask != 0 ==> flags & CommandMask != 0)
        && (h.mask & AlternateMask != 0 ==> flags & AlternateMask != 0)
        && (h.mask & ControlMask != 0 ==> flags & ControlMask != 0)
        && (h.mask & ShiftMask != 0 ==> flags & ShiftMask != 0)
  {
    var h := HotkeyOf(text);
    assert h.mask & AllModifiers == h.mask;
  }

  /** Extra flags never spoil a match, and a hotkey with no modifiers matches its key under any flags. */
  lemma MatchIgnoresExtraFlags(h: Hotkey, flags: bv64, extra: bv64, chars: Option<string>)
    ensures Match(h, flags, chars) ==> Match(h, flags | extra, chars)
    ensures h.mask == 0 ==> (Match(h, flags, chars) <==> Match(h, 0, chars))
  {
  }

  /** A match needs every bit of the mask in the flags. */
  lemma MatchHasMaskBits(h: Hotkey, flags: bv64, chars: Option<string>, bit: bv64)
    requires Match(h, flags, chars) && h.mask & bit != 0
    ensures flags & bit != 0
  {
  }

  /** A match needs every modifier named in the hotkey text. */
  lemma MatchNeedsNamedModifiers(mods: seq<string>, key: string, flags: bv64, chars: Option<string>, i: int)
    requires mods != []
    requires forall j :: 0 <= j < |mods| ==> '+' !in mods[j]
    requires '+' !in key
    requires 0 <= i < |mods| && ModifierMask(mods[i]) != 0
    requires Match(ParseHotkey(Format(mods, key)), flags, chars)
    ensures flags & ModifierMask(mods[i]) != 0
  {
    var h := ParseHotkey(Format(mods, key));
    var bit := ModifierMask(mods[i]);
    ParseFormat(mods, key);
    MaskBit(mods, bit);
    MatchHasMaskBits(h, flags, chars, bit);
  }

  // ---------------------------------------------------------------------------
  // Examples
  // ---------------------------------------------------------------------------

  /** One modifier and a key, formatted. */
  lemma FormatPair(mod: string, key: string)
    ensures Format([mod], key) == mod + "+" + key
  {
    assert [mod] + [key] == [mod, key];
    assert JoinWith([mod, key], '+') == mod + ['+'] + JoinWith([key], '+');
  }

  lemma OrAllOne(x: bv64)
    ensures OrAll([x]) == x
  {
    assert [x][..0] == [];
  }

  lemma MaskOfOne(mod: string)
    ensures MaskOf([mod]) == ModifierMask(mod)
  {
    var ms := ModifierMasks([mod]);
    assert ms == [ms[0]];
    OrAllOne(ms[0]);
  }

  /** A single modifier and a key parse to that modifier's mask and the stripped key. */
  lemma ParsePair(mod: string, key: string)
    requires '+' !in mod && '+' !in key
    ensures ParseHotkey(mod + "+" + key) == Hotkey(ModifierMask(mod), if Strip(key) == "space" then " " else Strip(key))
  {
    FormatPair(mod, key);
    ParseFormat([mod], key);
    MaskOfOne(mod);
  }

  /** The modifier names are keys of `MODIFIER_MAP` only when written without surrounding spaces: "cmd " adds no bit. */
  lemma SpacedModifierIgnored(name: string)
    requires name != [] && (IsSpace(name[0]) || IsSpace(name[|name| - 1]))
    ensures ModifierMask(name) == 0
  {
    if name in ModifierMap {
      assert false;
    }
  }

  /** "alt" and "option" both name the Alternate key, "ctrl" and "control" the Control key. */
  lemma AliasMasks()
    ensures ModifierMask("alt") == ModifierMask("option") == AlternateMask
    ensures ModifierMask("ctrl") == ModifierMask("control") == ControlMask
  {
  }
}

=== FILE: index_maintainer.dfy ===
/**
 * How `IndexManager` (index_manager.py) fills and maintains the table:
 * `rebuild_index` walks each search root and writes what it finds in
 * batches of 1000, the watchdog handler turns file-system events into
 * upserts and deletes, and `start_monitoring`/`stop_monitoring` guard the
 * observer with two fields.
 *
 * The file system is the tree of `FileTree`; a file's stat result there is
 * the one `os.stat` returns when the walk reaches it, and `None` stands for
 * a stat that raises `PermissionError` or `FileNotFoundError`.
 */
module IndexMaintainer {
  import opened Common
  import opened Strings
  import opened Seqs
  import opened Paths
  import opened IndexStore
  import opened FileTree

  /** The directory names `IndexManager` never descends into, nor reacts to events under. */
  const IgnoredDirs: set<string> := {
    "Library", "node_modules", ".git", ".svn", "Containers",
    "Cache", "Caches", "Logs", "tmp", "Pictures/Photos Library.photoslibrary"
  }

  /** `search_depth`: a directory this many separators below its root is not indexed. */
  const SearchDepth: nat := 100

  /** Records are written once this many have accumulated. */
  const BatchLimit: nat := 1000

  predicate Hidden(name: string) {
    StartsWith(name, ".")
  }

  /** The `dirs[:]` filter: not an ignored name, and not hidden unless hidden entries are shown. */
  predicate KeepDir(name: string, showHidden: bool) {
    name !in IgnoredDirs && (showHidden || !Hidden(name))
  }

  /** The row a file produces: its joined path, its own name, and its stat values. */
  function RecordOf(dir: string, name: string, st: Stat): FileRecord {
    FileRecord(Join(dir, name), name, st.mtime, st.size)
  }

  /** Entry `c` of directory `dir` is a file that gets record `rec`. */
  predicate Indexes(dir: string, c: Node, showHidden: bool, rec: FileRecord) {
    && c.File?
    && (showHidden || !Hidden(c.name))
    && c.stat.Some?
    && rec == RecordOf(dir, c.name, c.stat.value)
  }

  /** The records for the files listed directly in `dir`, in listing order. */
  function FileRecords(dir: string, cs: seq<Node>, showHidden: bool): (r: seq<FileRecord>)
    ensures forall rec :: rec in r <==> exists i :: 0 <= i < |cs| && Indexes(dir, cs[i], showHidden, rec)
    ensures |r| <= |cs|
    decreases |cs|
  {
    if cs == [] then []
    else
      var c := cs[0];
      var rest := FileRecords(dir, cs[1..], showHidden);
      assert forall rec, i :: 0 <= i < |cs| - 1 ==> (Indexes(dir, cs[1..][i], showHidden, rec) <==> Indexes(dir, cs[i + 1], showHidden, rec));
      if c.File? && (showHidden || !Hidden(c.name)) && c.stat.Some? then
        assert Indexes(dir, cs[0], showHidden, RecordOf(dir, c.name, c.stat.value));
        [RecordOf(dir, c.name, c.stat.value)] + rest
      else rest
  }

  /**
   * What `rebuild_index` writes for the directory `dir` below `rootPath`,
   * in the order `os.walk` (top-down) reaches it: the directory's own
   * files, then each kept subdirectory in turn. A directory at depth
   * `SearchDepth` or more contributes nothing and is not descended.
   */
  function WalkDir(rootPath: string, dir: string, n: Node, showHidden: bool): seq<FileRecord>
    decreases n, 1
  {
    if !n.Dir? || !n.readable || Depth(rootPath, dir) >= SearchDepth then []
    else FileRecords(dir, n.children, showHidden) + WalkSubdirs(rootPath, dir, n.children, showHidden)
  }

  function WalkSubdirs(rootPath: string, dir: string, cs: seq<Node>, showHidden: bool): seq<FileRecord>
    decreases cs
  {
    if cs == [] then []
    else
      (if cs[0].Dir? && KeepDir(cs[0].name, showHidden)
       then WalkDir(rootPath, Join(dir, cs[0].name), cs[0], showHidden) else [])
      + WalkSubdirs(rootPath, dir, cs[1..], showHidden)
  }

  /** Entry `c` of `dir` is a descended subdirectory that contributes `rec`. */
  predicate DescendsTo(rootPath: string, dir: string, c: Node, showHidden: bool, rec: FileRecord) {
    c.Dir? && KeepDir(c.name, showHidden) && rec in WalkDir(rootPath, Join(dir, c.name), c, showHidden)
  }

  /** The subdirectories contribute exactly what the kept ones contribute: ignored and hidden ones add nothing. */
  lemma {:induction false} WalkSubdirsMembers(rootPath: string, dir: string, cs: seq<Node>, showHidden: bool, rec: FileRecord)
    ensures rec in WalkSubdirs(rootPath, dir, cs, showHidden)
      <==> exists i :: 0 <= i < |cs| && DescendsTo(rootPath, dir, cs[i], showHidden, rec)
    decreases |cs|
  {
    if cs != [] {
      WalkSubdirsMembers(rootPath, dir, cs[1..], showHidden, rec);
      if exists i :: 0 <= i < |cs| && DescendsTo(rootPath, dir, cs[i], showHidden, rec) {
        var i :| 0 <= i < |cs| && DescendsTo(rootPath, dir, cs[i], showHidden, rec);
        if i > 0 {
          assert cs[1..][i - 1] == cs[i];
        }
      }
      if exists i :: 0 <= i < |cs| - 1 && DescendsTo(rootPath, dir, cs[1..][i], showHidden, rec) {
        var i :| 0 <= i < |cs| - 1 && DescendsTo(rootPath, dir, cs[1..][i], showHidden, rec);
        assert cs[i + 1] == cs[1..][i];
      }
    }
  }

  /** A readable directory above the depth limit yields exactly its visible files and what its kept subdirectories yield. */
  lemma WalkDirMembers(rootPath: string, dir: string, n: Node, showHidden: bool, rec: FileRecord)
    requires n.Dir? && n.readable && Depth(rootPath, dir) < SearchDepth
    ensures rec in WalkDir(rootPath, dir, n, showHidden) <==>
      || (exists i :: 0 <= i < |n.children| && Indexes(dir, n.children[i], showHidden, rec))
      || (exists i :: 0 <= i < |n.children| && DescendsTo(rootPath, dir, n.children[i], showHidden, rec))
  {
    WalkSubdirsMembers(rootPath, dir, n.children, showHidden, rec);
  }

  /** A directory at or below the depth limit contributes nothing, files included. */
  lemma DeepDirectoryContributesNothing(rootPath: string, dir: string, n: Node, showHidden: bool)
    requires Depth(rootPath, dir) >= SearchDepth
    ensures WalkDir(rootPath, dir, n, showHidden) == []
  {
  }

  /** One more entry name adds at most one separator below the root. */
  lemma DepthOfJoinAtMost(root: string, dir: string, name: string)
    requires StartsWith(dir, root) && IsEntryName(name)
    ensures StartsWith(Join(dir, name), root)
    ensures Depth(root, Join(dir, name)) <= Depth(root, dir) + 1
  {
    var p := Join(dir, name);
    if dir == [] || dir[|dir| - 1] == Sep {
      assert p == dir + name;
      assert p[|root|..] == dir[|root|..] + name;
      CountSepAppend(dir[|root|..], name);
      CountSepOfName(name);
    } else {
      DepthOfJoin(root, dir, name);
    }
    assert p[..|root|] == dir[..|root|];
  }

  /** What a record promises: the name is the path's base name, a visible name unless hidden entries are shown, and no deeper than the limit. */
  predicate GoodRecord(rootPath: string, rec: FileRecord, showHidden: bool) {
    && rec.name == Basename(rec.path)
    && (showHidden || !Hidden(rec.name))
    && StartsWith(rec.path, rootPath)
    && Depth(rootPath, rec.path) <= SearchDepth
  }

  lemma FileRecordsGood(rootPath: string, dir: string, cs: seq<Node>, showHidden: bool)
    requires StartsWith(dir, rootPath) && Depth(rootPath, dir) < SearchDepth
    requires AllWellNamed(cs)
    ensures forall rec :: rec in FileRecords(dir, cs, showHidden) ==> GoodRecord(rootPath, rec, showHidden)
  {
    forall rec | rec in FileRecords(dir, cs, showHidden) ensures GoodRecord(rootPath, rec, showHidden) {
      var i :| 0 <= i < |cs| && Indexes(dir, cs[i], showHidden, rec);
      BasenameOfJoin(dir, cs[i].name);
      DepthOfJoinAtMost(rootPath, dir, cs[i].name);
    }
  }

  /** Every record of a walk from a root satisfies `GoodRecord`. */
  lemma {:induction false} WalkDirGood(rootPath: string, dir: string, n: Node, showHidden: bool)
    requires StartsWith(dir, rootPath)
    requires WellNamed(n)
    ensures forall rec :: rec in WalkDir(rootPath, dir, n, showHidden) ==> GoodRecord(rootPath, rec, showHidden)
    decreases n, 1
  {
    if n.Dir? && n.readable && Depth(rootPath, dir) < SearchDepth {
      FileRecordsGood(rootPath, dir, n.children, showHidden);
      WalkSubdirsGood(rootPath, dir, n.children, showHidden);
    }
  }

  lemma {:induction false} WalkSubdirsGood(rootPath: string, dir: string, cs: seq<Node>, showHidden: bool)
    requires StartsWith(dir, rootPath)
    requires AllWellNamed(cs)
    ensures forall rec :: rec in WalkSubdirs(rootPath, dir, cs, showHidden) ==> GoodRecord(rootPath, rec, showHidden)
    decreases cs
  {
    if cs != [] {
      assert AllWellNamed(cs[1..]) by {
        forall i | 0 <= i < |cs| - 1 ensures IsEntryName(cs[1..][i].name) && WellNamed(cs[1..][i]) {
          assert cs[1..][i] == cs[i + 1];
        }
      }
      WalkSubdirsGood(rootPath, dir, cs[1..], showHidden);
      if cs[0].Dir? && KeepDir(cs[0].name, showHidden) {
        DepthOfJoinAtMost(rootPath, dir, cs[0].name);
        WalkDirGood(rootPath, Join(dir, cs[0].name), cs[0], showHidden);
      }
    }
  }

  /** The records `rebuild_index` finds under one root: none when the root does not exist. */
  function RootRecords(root: Root, showHidden: bool): seq<FileRecord> {
    match root.node
    case None => []
    case Some(n) => WalkDir(root.path, root.path, n, showHidden)
  }

  function AllRecords(roots: seq<Root>, showHidden: bool): seq<FileRecord>
    decreases |roots|
  {
    if roots == [] then []
    else AllRecords(roots[..|roots| - 1], showHidden) + RootRecords(roots[|roots| - 1], showHidden)
  }

  /** The batches written for the roots in order: each root's records cut at `BatchLimit`, its remainder written before the next root starts. */
  function RootBatches(roots: seq<Root>, showHidden: bool): seq<seq<FileRecord>>
    decreases |roots|
  {
    if roots == [] then []
    else RootBatches(roots[..|roots| - 1], showHidden) + Chunks(RootRecords(roots[|roots| - 1], showHidden), BatchLimit)
  }

  lemma {:induction false} RootBatchesFlatten(roots: seq<Root>, showHidden: bool)
    ensures Flatten(RootBatches(roots, showHidden)) == AllRecords(roots, showHidden)
    decreases |roots|
  {
    if roots != [] {
      var init := roots[..|roots| - 1];
      RootBatchesFlatten(init, showHidden);
      FlattenAppend(RootBatches(init, showHidden), Chunks(RootRecords(roots[|roots| - 1], showHidden), BatchLimit));
    }
  }

  /** Writing a batch that continues the stream extends both the written batches and the table by that batch. */
  lemma FlushStep(t: Table, recs: seq<FileRecord>, flushed: nat, k: nat, batch: seq<FileRecord>)
    requires flushed == k * BatchLimit
    requires flushed + |batch| <= |recs| && batch == recs[flushed..flushed + |batch|]
    requires 0 < |batch| <= BatchLimit
    ensures Chunks(recs[..flushed], BatchLimit) + [batch] == Chunks(recs[..flushed + |batch|], BatchLimit)
    ensures BatchInsert(BatchInsert(t, recs[..flushed]), batch) == BatchInsert(t, recs[..flushed + |batch|])
  {
    ChunksAppend(recs[..flushed], batch, BatchLimit, k);
    assert recs[..flushed] + batch == recs[..flushed + |batch|];
    BatchInsertAppend(t, recs[..flushed], batch);
  }

  /** The state of the accumulate-and-flush loop after `i` records: whole batches written, the rest pending. */
  ghost predicate Progress(t: Table, recs: seq<FileRecord>, i: nat, r: Table, written: seq<seq<FileRecord>>,
                           batch: seq<FileRecord>, flushed: nat, k: nat) {
    && flushed == k * BatchLimit && flushed + |batch| == i && i <= |recs|
    && |batch| < BatchLimit
    && batch == recs[flushed..i]
    && written == Chunks(recs[..flushed], BatchLimit)
    && r == BatchInsert(t, recs[..flushed])
  }

  /** Taking one more record keeps the loop state, whether or not it completes a batch. */
  lemma ProgressStep(t: Table, recs: seq<FileRecord>, i: nat, r: Table, written: seq<seq<FileRecord>>,
                     batch: seq<FileRecord>, flushed: nat, k: nat)
    requires i < |recs| && Progress(t, recs, i, r, written, batch, flushed, k)
    ensures |batch| + 1 < BatchLimit ==> Progress(t, recs, i + 1, r, written, batch + [recs[i]], flushed, k)
    ensures |batch| + 1 == BatchLimit ==>
      Progress(t, recs, i + 1, BatchInsert(r, batch + [recs[i]]), written + [batch + [recs[i]]], [], i + 1, k + 1)
  {
    var b := batch + [recs[i]];
    assert b == recs[flushed..i + 1];
    if |b| == BatchLimit {
      FlushStep(t, recs, flushed, k, b);
    }
  }

  /**
   * The accumulate-and-flush loop for one root's records: a record is
   * appended, the batch is written when it reaches `BatchLimit`, and the
   * remainder is written at the end (`_batch_insert` skips an empty one).
   */
  method IndexRoot(t: Table, recs: seq<FileRecord>) returns (r: Table, written: seq<seq<FileRecord>>)
    ensures written == Chunks(recs, BatchLimit)
    ensures r == BatchInsert(t, recs)
  {
    r := t;
    written := [];
    var batch: seq<FileRecord> := [];
    var flushed: nat := 0;
    var k: nat := 0;
    for i := 0 to |recs|
      invariant Progress(t, recs, i, r, written, batch, flushed, k)
    {
      ProgressStep(t, recs, i, r, written, batch, flushed, k);
      batch := batch + [recs[i]];
      if |batch| >= BatchLimit {
        r := BatchInsert(r, batch);
        written := written + [batch];
        flushed := i + 1;
        k := k + 1;
        batch := [];
      }
    }
    assert recs[..|recs|] == recs;
    if batch != [] {
      FlushStep(t, recs, flushed, k, batch);
      r := BatchInsert(r, batch);
      written := written + [batch];
    }
  }

  /**
   * `rebuild_index`: empty the table, then index each existing root in
   * turn. The result is the records of all roots written in order into an
   * empty table, whatever the table held before.
   */
  method RebuildIndex(before: Table, roots: seq<Root>, showHidden: bool) returns (t: Table, written: seq<seq<FileRecord>>)
    ensures written == RootBatches(roots, showHidden)
    ensures forall i :: 0 <= i < |written| ==> 0 < |written[i]| <= BatchLimit
    ensures t == BatchInsert([], AllRecords(roots, showHidden))
    ensures UniquePaths(t)
  {
    t := [];
    written := [];
    for j := 0 to |roots|
      invariant written == RootBatches(roots[..j], showHidden)
      invariant t == BatchInsert([], AllRecords(roots[..j], showHidden))
    {
      assert roots[..j + 1][..j] == roots[..j];
      var recs := RootRecords(roots[j], showHidden);
      var t', w := IndexRoot(t, recs);
      BatchInsertAppend([], AllRecords(roots[..j], showHidden), recs);
      t, written := t', written + w;
    }
    assert roots[..|roots|] == roots;
    RootBatchesSized(roots, showHidden);
  }

  lemma {:induction false} RootBatchesSized(roots: seq<Root>, showHidden: bool)
    ensures forall i :: 0 <= i < |RootBatches(roots, showHidden)| ==> 0 < |RootBatches(roots, showHidden)[i]| <= BatchLimit
    decreases |roots|
  {
    if roots != [] {
      RootBatchesSized(roots[..|roots| - 1], showHidden);
    }
  }

  /** After a rebuild, a path has a record exactly when some root's walk found it, and the record is the last one found. */
  lemma RebuildLookup(roots: seq<Root>, showHidden: bool, p: string)
    ensures Lookup(BatchInsert([], AllRecords(roots, showHidden)), p) == Lookup(AllRecords(roots, showHidden), p)
  {
  }

  /** The index entry named `Pictures/Photos Library.photoslibrary` can never equal a directory entry name, which holds no separator. */
  lemma SlashEntryNeverMatches(name: string)
    requires IsEntryName(name)
    ensures name != "Pictures/Photos Library.photoslibrary"
  {
    assert "Pictures/Photos Library.photoslibrary"[8] == Sep;
  }

  // ---------------------------------------------------------------------------
  // The watchdog handler
  // ---------------------------------------------------------------------------

  /** `_is_ignored`: some component of the path is an ignored directory name. */
  predicate IsIgnored(path: string) {
    exists i :: 0 <= i < |Components(path)| && Components(path)[i] in IgnoredDirs
  }

  /** A watchdog event; `isDir` is `event.is_directory`. */
  datatype Event =
    | Created(src: string, isDir: bool)
    | Modified(src: string, isDir: bool)
    | Deleted(src: string, isDir: bool)
    | Moved(src: string, dest: string, isDir: bool)

  /**
   * `_update_file_async(path)`: upsert the file with its base name and the
   * stat values read now; a failing stat (`st == None`) changes nothing.
   */
  function UpdateFile(t: Table, path: string, st: Option<Stat>): (r: Table)
    ensures st.Some? ==> Lookup(r, path) == Some(FileRecord(path, Basename(path), st.value.mtime, st.value.size))
    ensures st.None? ==> r == t
  {
    match st
    case None => t
    case Some(s) => Upsert(t, FileRecord(path, Basename(path), s.mtime, s.size))
  }

  /** `remove_file(path)`. */
  function RemoveFile(t: Table, path: string): (r: Table)
    ensures Lookup(r, path) == None
    ensures forall x :: x in r <==> x in t && x.path != path
  {
    DeleteRow(t, path)
  }

  /** An incremental update leaves every other path as it was. */
  lemma UpdateFileOtherPaths(t: Table, path: string, st: Option<Stat>, q: string)
    requires q != path
    ensures Lookup(UpdateFile(t, path, st), q) == Lookup(t, q)
  {
    if st.Some? {
      UpsertOtherPaths(t, FileRecord(path, Basename(path), st.value.mtime, st.value.size), q);
    }
  }

  /** A delete leaves every other path as it was. */
  lemma RemoveFileOtherPaths(t: Table, path: string, q: string)
    requires q != path
    ensures Lookup(RemoveFile(t, path), q) == Lookup(t, q)
  {
    DeleteRowLookup(t, path, q);
  }

  /**
   * `FileChangeHandler`: directory events do nothing; created and modified
   * files are upserted unless ignored; a deleted file is removed even under
   * an ignored directory; a moved file is removed at its old path and
   * upserted at its new one unless that is ignored. `st` is the stat read
   * for the path being upserted.
   */
  function Dispatch(t: Table, e: Event, st: Option<Stat>): Table {
    if e.isDir then t
    else
      match e
      case Created(p, _) => if IsIgnored(p) then t else UpdateFile(t, p, st)
      case Modified(p, _) => if IsIgnored(p) then t else UpdateFile(t, p, st)
      case Deleted(p, _) => RemoveFile(t, p)
      case Moved(p, q, _) =>
        var t' := RemoveFile(t, p);
        if IsIgnored(q) then t' else UpdateFile(t', q, st)
  }

  /** The paths an event may touch: its source, and a move's destination. */
  predicate Touches(e: Event, q: string) {
    q == e.src || (e.Moved? && q == e.dest)
  }

  /** What a dispatched event does to each path: directory events change nothing, and paths the event does not name are never changed. */
  lemma DispatchEffect(t: Table, e: Event, st: Option<Stat>, q: string)
    ensures e.isDir ==> Dispatch(t, e, st) == t
    ensures !Touches(e, q) ==> Lookup(Dispatch(t, e, st), q) == Lookup(t, q)
  {
    if !e.isDir && !Touches(e, q) {
      match e
      case Created(p, _) => UpdateFileOtherPaths(t, p, st, q);
      case Modified(p, _) => UpdateFileOtherPaths(t, p, st, q);
      case Deleted(p, _) => RemoveFileOtherPaths(t, p, q);
      case Moved(p, d, _) =>
        RemoveFileOtherPaths(t, p, q);
        UpdateFileOtherPaths(RemoveFile(t, p), d, st, q);
    }
  }

  /** A file event on a path under an ignored directory never adds or changes that path's record; a delete or move still removes it. */
  lemma IgnoredPathNeverGainsRecord(t: Table, e: Event, st: Option<Stat>, q: string)
    requires IsIgnored(q)
    ensures Lookup(Dispatch(t, e, st), q) in {Lookup(t, q), None}
  {
    if !e.isDir && e.Moved? && q != e.src {
      RemoveFileOtherPaths(t, e.src, q);
    }
    if !e.isDir && !Touches(e, q) {
      DispatchEffect(t, e, st, q);
    }
  }

  /** A visible file event stores exactly the record `_update_file_async` builds, and a deleted or moved-away file has no record. */
  lemma DispatchStores(t: Table, e: Event, st: Option<Stat>)
    requires !e.isDir
    ensures (e.Created? || e.Modified?) && !IsIgnored(e.src) && st.Some? ==>
      Lookup(Dispatch(t, e, st), e.src) == Some(FileRecord(e.src, Basename(e.src), st.value.mtime, st.value.size))
    ensures e.Deleted? ==> Lookup(Dispatch(t, e, st), e.src) == None
    ensures e.Moved? && !IsIgnored(e.dest) && st.Some? ==>
      Lookup(Dispatch(t, e, st), e.dest) == Some(FileRecord(e.dest, Basename(e.dest), st.value.mtime, st.value.size))
    ensures e.Moved? && (e.src != e.dest || IsIgnored(e.dest) || st.None?) ==> Lookup(Dispatch(t, e, st), e.src) == None
  {
    if e.Moved? && !IsIgnored(e.dest) && e.src != e.dest {
      UpdateFileOtherPaths(RemoveFile(t, e.src), e.dest, st, e.src);
    }
  }

  /** Every handled event keeps the primary-key constraint. */
  lemma DispatchUnique(t: Table, e: Event, st: Option<Stat>)
    requires UniquePaths(t)
    ensures UniquePaths(Dispatch(t, e, st))
  {
    if !e.isDir {
      match e
      case Created(p, _) => UpdateFileUnique(t, p, st);
      case Modified(p, _) => UpdateFileUnique(t, p, st);
      case Deleted(p, _) => DeleteRowUnique(t, p);
      case Moved(p, d, _) =>
        DeleteRowUnique(t, p);
        UpdateFileUnique(RemoveFile(t, p), d, st);
    }
  }

  lemma UpdateFileUnique(t: Table, path: string, st: Option<Stat>)
    requires UniquePaths(t)
    ensures UniquePaths(UpdateFile(t, path, st))
  {
    if st.Some? {
      UpsertUnique(t, FileRecord(path, Basename(path), st.value.mtime, st.value.size));
    }
  }

  // ---------------------------------------------------------------------------
  // start_monitoring / stop_monitoring
  // ---------------------------------------------------------------------------

  /** The two guard fields: `_is_monitoring`, and whether `_observer` is set. */
  datatype Monitor = Monitor(isMonitoring: bool, hasObserver: bool)

  const Idle := Monitor(false, false)

  /**
   * `start_monitoring`: skipped while either field is set; otherwise an
   * observer is created and started, and `started` says whether that
   * succeeded (on an exception both fields are reset). The second result
   * counts the observers left running (0 or 1).
   */
  function StartMonitoring(m: Monitor, started: bool): (r: (Monitor, nat))
    ensures m.isMonitoring || m.hasObserver ==> r == (m, 0)
    ensures !m.isMonitoring && !m.hasObserver ==> r.0 == (if started then Monitor(true, true) else Idle)
    ensures r.1 == 1 <==> !m.isMonitoring && !m.hasObserver && started
    ensures Reachable(m) ==> Reachable(r.0)
  {
    if m.isMonitoring || m.hasObserver then (m, 0)
    else if started then (Monitor(true, true), 1)
    else (Idle, 0)
  }

  /** `stop_monitoring`: stops a set observer and clears only `_is_monitoring`. */
  function StopMonitoring(m: Monitor): (r: Monitor)
    ensures !r.isMonitoring || (r == m && !m.hasObserver)
    ensures r.hasObserver == m.hasObserver
  {
    if m.hasObserver then Monitor(false, m.hasObserver) else m
  }

  datatype MonitorOp = Start(started: bool) | Stop

  /** Applies a sequence of calls; the count is the number of observers started along the way. */
  function RunMonitor(m: Monitor, ops: seq<MonitorOp>): (Monitor, nat)
    decreases |ops|
  {
    if ops == [] then (m, 0)
    else
      var (m', n) := match ops[0]
        case Start(ok) => StartMonitoring(m, ok)
        case Stop => (StopMonitoring(m), 0);
      var (m'', rest) := RunMonitor(m', ops[1..]);
      (m'', n + rest)
  }

  /** The states reachable from `Idle`: monitoring is only ever on while an observer is set. */
  predicate Reachable(m: Monitor) {
    m.isMonitoring ==> m.hasObserver
  }

  /** Once an observer is set no call starts another, and the guard state stays reachable. */
  lemma {:induction false} ObserverSetStartsNothing(m: Monitor, ops: seq<MonitorOp>)
    requires m.hasObserver
    ensures RunMonitor(m, ops).1 == 0
    ensures RunMonitor(m, ops).0.hasObserver
    decreases |ops|
  {
    if ops != [] {
      var m' := match ops[0] case Start(ok) => StartMonitoring(m, ok).0 case Stop => StopMonitoring(m);
      ObserverSetStartsNothing(m', ops[1..]);
    }
  }

  /** From a fresh manager, any sequence of starts and stops starts at most one observer, ever: after a stop the observer field stays set and every later start is skipped. */
  lemma {:induction false} AtMostOneObserver(m: Monitor, ops: seq<MonitorOp>)
    requires !m.hasObserver && Reachable(m)
    ensures RunMonitor(m, ops).1 <= 1
    decreases |ops|
  {
    if ops != [] {
      match ops[0]
      case Start(ok) =>
        var (m', n) := StartMonitoring(m, ok);
        if m'.hasObserver {
          ObserverSetStartsNothing(m', ops[1..]);
        } else {
          AtMostOneObserver(m', ops[1..]);
        }
      case Stop =>
        AtMostOneObserver(StopMonitoring(m), ops[1..]);
    }
  }

  /** Start, stop, start: the second start is skipped because `_observer` was never reset. */
  lemma RestartIsSkipped()
    ensures var (m1, n1) := StartMonitoring(Idle, true);
            var m2 := StopMonitoring(m1);
            var (m3, n3) := StartMonitoring(m2, true);
            n1 == 1 && !m2.isMonitoring && n3 == 0 && !m3.isMonitoring
  {
  }
}

=== FILE: index_store.dfy ===
/**
 * The `file_index` table of `IndexManager` (index_manager.py): rows
 * `(path, name, mtime, size)` keyed by `path`, written with
 * `INSERT OR REPLACE`, deleted by path, and read by `search_name`, a
 * `name LIKE '%query%'` filter ordered by `mtime` descending and cut at a
 * limit.
 *
 * The table is kept as its rows in row order. `INSERT OR REPLACE` deletes
 * the row holding the same primary key and appends the new one, so a table
 * built only through `Upsert` never holds two rows for one path, and
 * `Lookup` reads it as the map `path -> record` it stands for.
 */
module IndexStore {
  import opened Common
  import opened Strings
  import opened Seqs

  /** One row of `file_index`. `mtime` is the stat time, kept here as a whole number of seconds. */
  datatype FileRecord = FileRecord(path: string, name: string, mtime: int, size: int)

  function MTime(r: FileRecord): int {
    r.mtime
  }

  function PathOf(r: FileRecord): string {
    r.path
  }

  /** The rows of `file_index`, oldest row first. */
  type Table = seq<FileRecord>

  /** The primary-key constraint: no two rows share a path. */
  ghost predicate UniquePaths(t: seq<FileRecord>) {
    DistinctBy(t, PathOf)
  }

  /** The record stored for `p` (the latest row with that path), if any. */
  function Lookup(t: seq<FileRecord>, p: string): (r: Option<FileRecord>)
    ensures r.Some? ==> r.value in t && r.value.path == p
    ensures r.None? <==> forall i :: 0 <= i < |t| ==> t[i].path != p
  {
    if t == [] then None
    else if t[|t| - 1].path == p then Some(t[|t| - 1])
    else Lookup(t[..|t| - 1], p)
  }

  /** How many rows hold path `p`. */
  function RowsWithPath(t: seq<FileRecord>, p: string): nat {
    if t == [] then 0
    else RowsWithPath(t[..|t| - 1], p) + (if t[|t| - 1].path == p then 1 else 0)
  }

  lemma {:induction false} NoRowsWithPath(t: seq<FileRecord>, p: string)
    requires forall i :: 0 <= i < |t| ==> t[i].path != p
    ensures RowsWithPath(t, p) == 0
    decreases |t|
  {
    if t != [] {
      NoRowsWithPath(t[..|t| - 1], p);
    }
  }

  /** `DELETE FROM file_index WHERE path = ?`: drops the rows with path `p` and keeps every other row in order. */
  function DeleteRow(t: Table, p: string): (r: Table)
    ensures forall x :: x in r <==> x in t && x.path != p
    ensures |r| <= |t|
    decreases |t|
  {
    if t == [] then []
    else
      var rest := DeleteRow(t[..|t| - 1], p);
      assert t == t[..|t| - 1] + [t[|t| - 1]];
      if t[|t| - 1].path == p then rest else rest + [t[|t| - 1]]
  }

  /** After a delete, the path has no record and every other path reads as before. */
  lemma {:induction false} DeleteRowLookup(t: Table, p: string, q: string)
    ensures Lookup(DeleteRow(t, p), q) == if q == p then None else Lookup(t, q)
    decreases |t|
  {
    if t != [] {
      var rest := DeleteRow(t[..|t| - 1], p);
      DeleteRowLookup(t[..|t| - 1], p, q);
      if t[|t| - 1].path != p {
        var r := rest + [t[|t| - 1]];
        assert r[..|r| - 1] == rest;
      }
    }
  }

  /** Deleting rows keeps the primary-key constraint. */
  lemma {:induction false} DeleteRowUnique(t: Table, p: string)
    requires UniquePaths(t)
    ensures UniquePaths(DeleteRow(t, p))
    decreases |t|
  {
    if t != [] {
      var init := t[..|t| - 1];
      var last := t[|t| - 1];
      var rest := DeleteRow(init, p);
      assert UniquePaths(init) by {
        assert forall i :: 0 <= i < |init| ==> init[i] == t[i];
      }
      DeleteRowUnique(init, p);
      if last.path != p {
        var r := rest + [last];
        forall i, j | 0 <= i < j < |r| ensures PathOf(r[i]) != PathOf(r[j]) {
          if j == |r| - 1 {
            assert r[i] == rest[i] && rest[i] in init;
            var k :| 0 <= k < |init| && init[k] == rest[i];
            assert t[k] == rest[i] && t[|t| - 1] == last;
          } else {
            assert r[i] == rest[i] && r[j] == rest[j];
          }
        }
      }
    }
  }

  /** `INSERT OR REPLACE` of one record: afterwards exactly one row holds its path, and it is this record. */
  function Upsert(t: Table, rec: FileRecord): (r: Table)
    ensures Lookup(r, rec.path) == Some(rec)
    ensures RowsWithPath(r, rec.path) == 1
  {
    var rest := DeleteRow(t, rec.path);
    var r := rest + [rec];
    assert r[..|r| - 1] == rest;
    assert forall i :: 0 <= i < |rest| ==> rest[i] in t && rest[i].path != rec.path;
    NoRowsWithPath(rest, rec.path);
    r
  }

  /** An upsert leaves the record of every other path as it was. */
  lemma UpsertOtherPaths(t: Table, rec: FileRecord, q: string)
    requires q != rec.path
    ensures Lookup(Upsert(t, rec), q) == Lookup(t, q)
  {
    var rest := DeleteRow(t, rec.path);
    var r := rest + [rec];
    assert r[..|r| - 1] == rest;
    DeleteRowLookup(t, rec.path, q);
  }

  /** An upsert keeps the primary-key constraint. */
  lemma UpsertUnique(t: Table, rec: FileRecord)
    requires UniquePaths(t)
    ensures UniquePaths(Upsert(t, rec))
  {
    var rest := DeleteRow(t, rec.path);
    DeleteRowUnique(t, rec.path);
    var r := rest + [rec];
    forall i, j | 0 <= i < j < |r| ensures PathOf(r[i]) != PathOf(r[j]) {
      assert r[i] == rest[i] && rest[i] in t;
      if j < |rest| {
        assert r[j] == rest[j];
      }
    }
  }

  /** Upserting the same path twice leaves one row, holding the second record. */
  lemma UpsertSamePathTwice(t: Table, a: FileRecord, b: FileRecord)
    requires a.path == b.path
    ensures Lookup(Upsert(Upsert(t, a), b), a.path) == Some(b)
    ensures RowsWithPath(Upsert(Upsert(t, a), b), a.path) == 1
  {
  }

  /**
   * `_batch_insert(batch)`: `executemany` of `INSERT OR REPLACE` in batch
   * order (an empty batch writes nothing). A path the batch mentions ends
   * up with the batch's last record for it; every other path is untouched.
   */
  function BatchInsert(t: Table, batch: seq<FileRecord>): (r: Table)
    ensures forall p :: Lookup(r, p) == (if Lookup(batch, p).Some? then Lookup(batch, p) else Lookup(t, p))
    ensures UniquePaths(t) ==> UniquePaths(r)
    decreases |batch|
  {
    if batch == [] then t
    else
      var init := batch[..|batch| - 1];
      var last := batch[|batch| - 1];
      var prev := BatchInsert(t, init);
      var r := Upsert(prev, last);
      LookupLast(batch);
      forall p | p != last.path ensures Lookup(r, p) == Lookup(prev, p) {
        UpsertOtherPaths(prev, last, p);
      }
      assert UniquePaths(t) ==> UniquePaths(r) by {
        if UniquePaths(t) {
          UpsertUnique(prev, last);
        }
      }
      r
  }

  /** The last row of a sequence decides the lookup of its path; other paths look past it. */
  lemma LookupLast(s: seq<FileRecord>)
    requires s != []
    ensures Lookup(s, s[|s| - 1].path) == Some(s[|s| - 1])
    ensures forall p :: p != s[|s| - 1].path ==> Lookup(s, p) == Lookup(s[..|s| - 1], p)
  {
  }

  /** Writing two batches one after the other is writing their concatenation. */
  lemma {:induction false} BatchInsertAppend(t: Table, a: seq<FileRecord>, b: seq<FileRecord>)
    ensures BatchInsert(BatchInsert(t, a), b) == BatchInsert(t, a + b)
    decreases |b|
  {
    if b == [] {
      assert a + b == a;
    } else {
      var init := b[..|b| - 1];
      assert (a + b)[..|a + b| - 1] == a + init;
      assert (a + b)[|a + b| - 1] == b[|b| - 1];
      BatchInsertAppend(t, a, init);
    }
  }

  /** Writing a list of batches in order. */
  function WriteBatches(t: Table, batches: seq<seq<FileRecord>>): Table
    decreases |batches|
  {
    if batches == [] then t else WriteBatches(BatchInsert(t, batches[0]), batches[1..])
  }

  /** However a stream of records is cut into batches, writing the batches is writing the stream. */
  lemma {:induction false} WriteBatchesFlatten(t: Table, batches: seq<seq<FileRecord>>)
    ensures WriteBatches(t, batches) == BatchInsert(t, Flatten(batches))
    decreases |batches|
  {
    if batches != [] {
      WriteBatchesFlatten(BatchInsert(t, batches[0]), batches[1..]);
      BatchInsertAppend(t, batches[0], Flatten(batches[1..]));
    }
  }

  // ---------------------------------------------------------------------------
  // search_name
  // ---------------------------------------------------------------------------

  /**
   * SQLite's `LIKE` with no ESCAPE clause: `%` matches any run of
   * characters, `_` any single character, and ASCII letters match
   * regardless of case.
   */
  function Like(s: string, pat: string): bool
    decreases |s| + |pat|
  {
    if pat == [] then s == []
    else if pat[0] == '%' then Like(s, pat[1..]) || (s != [] && Like(s[1..], pat))
    else s != [] && (pat[0] == '_' || LowerChar(pat[0]) == LowerChar(s[0])) && Like(s[1..], pat[1..])
  }

  /** The pattern `search_name` binds: `f'%{query}%'`. */
  function LikePattern(query: string): string {
    "%" + query + "%"
  }

  predicate NoWildcard(q: string) {
    '%' !in q && '_' !in q
  }

  lemma {:induction false} LikeAnything(s: string)
    ensures Like(s, "%")
    decreases |s|
  {
    assert "%"[1..] == [];
    if s != [] {
      LikeAnything(s[1..]);
    }
  }

  /** Without wildcards, `q%` is an ASCII case-insensitive prefix test. */
  lemma {:induction false} LikePrefix(s: string, q: string)
    requires NoWildcard(q)
    ensures Like(s, q + "%") <==> StartsWith(Lower(s), Lower(q))
    decreases |q|
  {
    if q == [] {
      assert q + "%" == "%";
      LikeAnything(s);
    } else {
      assert (q + "%")[0] == q[0];
      assert (q + "%")[1..] == q[1..] + "%";
      assert NoWildcard(q[1..]) by { assert forall c :: c in q[1..] ==> c in q; }
      if s != [] {
        LikePrefix(s[1..], q[1..]);
        assert Lower(s) == [LowerChar(s[0])] + Lower(s[1..]);
        assert Lower(q) == [LowerChar(q[0])] + Lower(q[1..]);
      }
    }
  }

  /**
   * Without wildcards in the query, `name LIKE '%q%'` holds exactly when
   * the lowercased query is a substring of the lowercased name.
   */
  lemma {:induction false} LikeIsContains(s: string, q: string)
    requires NoWildcard(q)
    ensures Like(s, LikePattern(q)) <==> Contains(Lower(s), Lower(q))
    decreases |s|
  {
    var pat := LikePattern(q);
    assert pat[0] == '%';
    assert pat[1..] == q + "%";
    LikePrefix(s, q);
    if s != [] {
      LikeIsContains(s[1..], q);
      assert Lower(s)[1..] == Lower(s[1..]);
    }
  }

  /**
   * A name whose lowercased form starts with `q` matches `q%`, whatever
   * wildcards `q` holds: `%` and `_` also match themselves.
   */
  lemma {:induction false} LikeOfPrefix(s: string, q: string)
    requires StartsWith(Lower(s), q)
    ensures Like(s, q + "%")
    decreases |q|
  {
    if q == [] {
      assert q + "%" == "%";
      LikeAnything(s);
    } else {
      var pat := q + "%";
      assert pat[0] == q[0] && pat[1..] == q[1..] + "%";
      assert Lower(s)[0] == q[0];
      assert StartsWith(Lower(s[1..]), q[1..]) by {
        assert Lower(s[1..]) == Lower(s)[1..];
      }
      LikeOfPrefix(s[1..], q[1..]);
      if q[0] == '%' {
        assert Like(s[1..], pat);
      }
    }
  }

  /**
   * A name whose lowercased form contains the query matches `%q%`: the
   * index search never misses a name that holds the keyword.
   */
  lemma {:induction false} LikeOfContains(s: string, q: string)
    requires Contains(Lower(s), q)
    ensures Like(s, LikePattern(q))
    decreases |s|
  {
    var pat := LikePattern(q);
    assert pat[0] == '%' && pat[1..] == q + "%";
    var i :| OccursAt(Lower(s), q, i);
    if i == 0 {
      LikeOfPrefix(s, q);
    } else {
      OccursInTail(s, q, i);
      LikeOfContains(s[1..], q);
      assert s != [] && Like(s[1..], pat);
    }
  }

  lemma OccursInTail(s: string, q: string, i: int)
    requires i > 0 && OccursAt(Lower(s), q, i)
    ensures s != [] && Contains(Lower(s[1..]), q)
  {
    assert Lower(s[1..]) == Lower(s)[1..];
    assert OccursAt(Lower(s[1..]), q, i - 1);
  }

  /** The rows whose name matches the pattern, in row order. */
  function MatchingRows(t: Table, pat: string): (r: seq<FileRecord>)
    ensures forall x :: x in r <==> x in t && Like(x.name, pat)
    decreases |t|
  {
    if t == [] then []
    else
      var rest := MatchingRows(t[1..], pat);
      assert t == [t[0]] + t[1..];
      if Like(t[0].name, pat) then [t[0]] + rest else rest
  }

  /** Filtering keeps the primary-key constraint. */
  lemma {:induction false} MatchingRowsUnique(t: Table, pat: string)
    requires UniquePaths(t)
    ensures UniquePaths(MatchingRows(t, pat))
    decreases |t|
  {
    if t != [] {
      var tail := t[1..];
      var rest := MatchingRows(tail, pat);
      assert UniquePaths(tail) by {
        assert forall i :: 0 <= i < |tail| ==> tail[i] == t[i + 1];
      }
      MatchingRowsUnique(tail, pat);
      if Like(t[0].name, pat) {
        var r := [t[0]] + rest;
        forall i, j | 0 <= i < j < |r| ensures PathOf(r[i]) != PathOf(r[j]) {
          if i == 0 {
            assert r[j] == rest[j - 1] && rest[j - 1] in tail;
            var k :| 0 <= k < |tail| && tail[k] == rest[j - 1];
            assert t[k + 1] == r[j];
          } else {
            assert r[i] == rest[i - 1] && r[j] == rest[j - 1];
          }
        }
      }
    }
  }

  /** SQLite's `LIMIT n`: a negative limit means no limit. */
  function Limit(s: seq<FileRecord>, n: int): (r: seq<FileRecord>)
    ensures n >= 0 ==> |r| <= n
    ensures |r| <= |s| && r == s[..|r|]
    ensures |r| < |s| ==> n >= 0 && |r| == n
  {
    if n < 0 || n >= |s| then s else s[..n]
  }

  /**
   * `IndexManager.search_name`: an empty query returns nothing; otherwise
   * the matching rows, most recently modified first, cut at `maxResults`.
   * Rows with equal `mtime` come in row order here; SQLite leaves that
   * order to the engine, and the contract says nothing about it.
   */
  function SearchName(t: Table, query: string, maxResults: int): (r: seq<FileRecord>)
    ensures query == [] ==> r == []
    ensures maxResults >= 0 ==> |r| <= maxResults
    ensures forall x :: x in r ==> x in t && Like(x.name, LikePattern(query))
    ensures SortedDesc(r, MTime)
    ensures query != [] ==>
      forall x :: x in t && Like(x.name, LikePattern(query)) && x !in r ==>
        && maxResults >= 0 && |r| == maxResults
        && forall y :: y in r ==> y.mtime >= x.mtime
  {
    if query == [] then []
    else
      var m := MatchingRows(t, LikePattern(query));
      var sorted := SortDesc(m, MTime);
      var r := Limit(sorted, maxResults);
      SameElements(m, sorted);
      TopK(sorted, r, maxResults);
      r
  }

  lemma SameElements(a: seq<FileRecord>, b: seq<FileRecord>)
    requires multiset(a) == multiset(b)
    ensures forall x :: x in a <==> x in b
  {
    assert forall x :: x in a <==> x in multiset(a);
    assert forall x :: x in b <==> x in multiset(b);
  }

  /** The search keeps the primary-key constraint: a path is listed at most once. */
  lemma SearchNameUnique(t: Table, query: string, maxResults: int)
    requires UniquePaths(t)
    ensures UniquePaths(SearchName(t, query, maxResults))
  {
    if query != [] {
      var m := MatchingRows(t, LikePattern(query));
      var sorted := SortDesc(m, MTime);
      MatchingRowsUnique(t, LikePattern(query));
      PermutationKeepsDistinct(m, sorted, PathOf);
      var r := Limit(sorted, maxResults);
      assert forall i :: 0 <= i < |r| ==> r[i] == sorted[i];
    }
  }

  /** The prefix of a descending sequence holds its largest elements. */
  lemma TopK(sorted: seq<FileRecord>, r: seq<FileRecord>, n: int)
    requires SortedDesc(sorted, MTime)
    requires |r| <= |sorted| && r == sorted[..|r|]
    requires |r| < |sorted| ==> n >= 0 && |r| == n
    ensures forall x :: x in sorted && x !in r ==>
      && n >= 0 && |r| == n
      && forall y :: y in r ==> y.mtime >= x.mtime
  {
    forall x | x in sorted && x !in r
      ensures n >= 0 && |r| == n && forall y :: y in r ==> y.mtime >= x.mtime
    {
      var k :| 0 <= k < |sorted| && sorted[k] == x;
      assert forall i :: 0 <= i < |r| ==> r[i] == sorted[i];
      assert k >= |r|;
      forall y | y in r ensures y.mtime >= x.mtime {
        var i :| 0 <= i < |r| && r[i] == y;
        assert MTime(sorted[i]) >= MTime(sorted[k]);
      }
    }
  }
}

=== FILE: live_scanner.dfy ===
/**
 * The live scan of search_thread.py (`FileSearchThread`), run
 * sequentially: each existing root is walked in turn, files are handed to
 * `_handle`, which keeps a path only the first time and only when the
 * manager's filter accepts the name, and the buffer is emitted, sorted by
 * mtime with the newest first, whenever it reaches `batch_size` and once
 * more at the end, followed by `search_finished`.
 *
 * The manager's `should_include_file` and `search_depth` belong to code
 * outside this model; they are the `accepts` and `maxDepth` fields of
 * `Scanner`. The stop flag is an input: with `stopAt == Some(n)` the
 * first `n` reads of the flag see it clear and every later read sees it
 * set; `None` means it is never set.
 */
module LiveScanner {
  import opened Common
  import opened Strings
  import opened Seqs
  import opened Paths
  import opened FileTree

  /** The directory names the scanner never enters. */
  const ScanIgnoredDirs: set<string> := {
    "node_modules", ".git", ".svn", ".hg", "venv", ".venv",
    "__pycache__", ".idea", ".vscode", "Library", "tmp"
  }

  /** Roots starting with one of these strings are skipped. */
  const SystemExcludePaths: seq<string> := ["/System", "/private", "/dev", "/net", "/Volumes", "/cores", "/var", "/tmp"]

  /** The constructor's default `batch_size`. */
  const DefaultBatchSize: int := 50

  /** One found file, as `_handle` buffers it. */
  datatype Hit = Hit(name: string, path: string, mtime: int)

  function HitMTime(h: Hit): int {
    h.mtime
  }

  function HitPath(h: Hit): string {
    h.path
  }

  /** What the thread emits: `results_batch_found(batch)` or `search_finished()`. */
  datatype Signal = Batch(hits: seq<Hit>) | Finished

  /** The outside inputs of one scan. */
  datatype Scanner = Scanner(accepts: string -> bool, maxDepth: int, batchSize: int, stopAt: Option<nat>)

  /**
   * What `_handle` and `_flush` maintain: the `seen` paths, the `buffer`,
   * the batches emitted so far, and, for the statement of the contracts,
   * every hit ever buffered.
   */
  datatype Found = Found(
    seen: set<string>,
    buffer: seq<Hit>,
    batches: seq<seq<Hit>>,
    handled: seq<Hit>)

  /** The thread's state: what was found, and how often the stop flag has been read. */
  datatype Scan = Scan(found: Found, flagReads: nat)

  const NoneFound := Found({}, [], [], [])

  const Start := Scan(NoneFound, 0)

  /** The buffer length at which `_handle` flushes: `batch_size`, and 1 when that is not positive. */
  function Threshold(c: Scanner): nat {
    if c.batchSize < 1 then 1 else c.batchSize
  }

  /** Whether the read of the stop flag that follows `s.flagReads` earlier reads sees it set. */
  predicate StopSeen(c: Scanner, s: Scan) {
    c.stopAt.Some? && s.flagReads >= c.stopAt.value
  }

  function Read(s: Scan): Scan {
    s.(flagReads := s.flagReads + 1)
  }

  predicate SystemExcluded(path: string) {
    exists i :: 0 <= i < |SystemExcludePaths| && StartsWith(path, SystemExcludePaths[i])
  }

  /** A subdirectory is entered unless its name is ignored or starts with a dot; there is no hidden-entries setting here. */
  predicate KeepScanDir(name: string) {
    name !in ScanIgnoredDirs && !StartsWith(name, ".")
  }

  /** `_flush`: emit the buffer sorted newest first and empty it; nothing when it is empty. */
  function Flush(f: Found): (r: Found)
    ensures r.handled == f.handled && r.seen == f.seen
    ensures r.buffer == [] && Emitted(r) == f.handled
    ensures |f.batches| <= |r.batches| <= |f.batches| + 1 && r.batches[..|f.batches|] == f.batches
    ensures multiset(Flatten(r.batches)) == multiset(Flatten(f.batches)) + multiset(f.buffer)
    ensures f.buffer != [] ==> |r.batches| == |f.batches| + 1 && SortedDesc(r.batches[|f.batches|], HitMTime)
  {
    if f.buffer == [] then
      assert f.batches[..|f.batches|] == f.batches;
      f
    else
      var b := SortDesc(f.buffer, HitMTime);
      FlattenAppend(f.batches, [b]);
      assert Flatten([b]) == b + Flatten([]);
      assert (f.batches + [b])[..|f.batches|] == f.batches;
      f.(batches := f.batches + [b], buffer := [])
  }

  /** A hit added to the buffer and to `seen`. */
  function Buffered(f: Found, h: Hit): Found {
    f.(seen := f.seen + {h.path}, buffer := f.buffer + [h], handled := f.handled + [h])
  }

  /** `_handle`: a name the filter rejects or a path already seen is dropped; otherwise it is buffered, and a full buffer is flushed. */
  function Handle(c: Scanner, f: Found, h: Hit): Found {
    if !c.accepts(h.name) || h.path in f.seen then f
    else
      var f' := Buffered(f, h);
      if |f'.buffer| >= c.batchSize then Flush(f') else f'
  }

  /** Hands the hits to `_handle` one after another. */
  function HandleAll(c: Scanner, f: Found, hs: seq<Hit>): Found
    decreases |hs|
  {
    if hs == [] then f else HandleAll(c, Handle(c, f, hs[0]), hs[1..])
  }

  // ---------------------------------------------------------------------------
  // The walk
  // ---------------------------------------------------------------------------

  /**
   * `_walk(path, depth)`: return at once when the flag is set or the depth
   * is beyond `maxDepth`, or for a root under a system prefix; a directory
   * that cannot be listed contributes nothing. Otherwise the files are
   * handled in listing order, then the kept subdirectories are walked one
   * level deeper.
   */
  function Walk(c: Scanner, s: Scan, path: string, n: Node, depth: nat): Scan
    decreases n, 2
  {
    var s1 := Read(s);
    if StopSeen(c, s) || depth > c.maxDepth then s1
    else if depth == 0 && SystemExcluded(path) then s1
    else if !n.Dir? || !n.readable then s1
    else
      var (s2, ok) := HandleFiles(c, s1, path, n.children);
      if ok then WalkDirs(c, s2, path, n.children, depth) else s2
  }

  /**
   * The file loop of `_walk`: the flag is read before each file, and a set
   * flag ends the whole walk of this directory; a failing stat raises,
   * which ends it too (the exception is swallowed by `_walk`). The flag
   * says whether the walk goes on to the subdirectories.
   */
  function HandleFiles(c: Scanner, s: Scan, dir: string, cs: seq<Node>): (Scan, bool)
    decreases cs
  {
    if cs == [] then (s, true)
    else if !cs[0].File? then HandleFiles(c, s, dir, cs[1..])
    else if StopSeen(c, s) || cs[0].stat.None? then (Read(s), false)
    else
      var h := Hit(cs[0].name, Join(dir, cs[0].name), cs[0].stat.value.mtime);
      HandleFiles(c, Scan(Handle(c, s.found, h), s.flagReads + 1), dir, cs[1..])
  }

  /** The directory loop of `_walk`: the flag is read before each kept subdirectory, and a set flag ends the walk. */
  function WalkDirs(c: Scanner, s: Scan, dir: string, cs: seq<Node>, depth: nat): Scan
    decreases cs
  {
    if cs == [] then s
    else if !(cs[0].Dir? && KeepScanDir(cs[0].name)) then WalkDirs(c, s, dir, cs[1..], depth)
    else if StopSeen(c, s) then Read(s)
    else WalkDirs(c, Walk(c, Read(s), Join(dir, cs[0].name), cs[0], depth + 1), dir, cs[1..], depth)
  }

  /** One root of `run`: walked when it exists. */
  function WalkRoot(c: Scanner, s: Scan, root: Root): Scan {
    match root.node
    case None => s
    case Some(n) => Walk(c, s, root.path, n, 0)
  }

  /** The root loop of `run`: read the flag before each root and stop when it is set. */
  function RunRoots(c: Scanner, s: Scan, roots: seq<Root>): Scan
    decreases |roots|
  {
    if roots == [] then s
    else if StopSeen(c, s) then Read(s)
    else RunRoots(c, WalkRoot(c, Read(s), roots[0]), roots[1..])
  }

  /** What was found at the end of `run`: all roots walked, then a last flush. */
  function RunScan(c: Scanner, roots: seq<Root>): Found {
    Flush(RunRoots(c, Start, roots).found)
  }

  function BatchSignals(bs: seq<seq<Hit>>): (r: seq<Signal>)
    ensures |r| == |bs|
    ensures forall i :: 0 <= i < |bs| ==> r[i] == Batch(bs[i])
  {
    if bs == [] then [] else [Batch(bs[0])] + BatchSignals(bs[1..])
  }

  /**
   * `FileSearchThread.run` as one sequential run: the emitted batches, then
   * `search_finished`, where every walk has returned before the last flush.
   */
  function Run(c: Scanner, roots: seq<Root>): (r: seq<Signal>)
    ensures var bs := RunScan(c, roots).batches;
      |r| == |bs| + 1 && r[|bs|] == Finished && forall i :: 0 <= i < |bs| ==> r[i] == Batch(bs[i])
  {
    BatchSignals(RunScan(c, roots).batches) + [Finished]
  }

  // ---------------------------------------------------------------------------
  // The reference listing: what the walk visits when the flag stays clear
  // ---------------------------------------------------------------------------

  /** The files of one directory up to the first failing stat, and whether none failed. */
  function FileHits(dir: string, cs: seq<Node>): (seq<Hit>, bool)
    decreases cs
  {
    if cs == [] then ([], true)
    else if !cs[0].File? then FileHits(dir, cs[1..])
    else if cs[0].stat.None? then ([], false)
    else
      var (hs, ok) := FileHits(dir, cs[1..]);
      ([Hit(cs[0].name, Join(dir, cs[0].name), cs[0].stat.value.mtime)] + hs, ok)
  }

  /** Every file the walk reaches, in the order it reaches them, before filtering and dedup. */
  function Listing(maxDepth: int, path: string, n: Node, depth: nat): seq<Hit>
    decreases n, 2
  {
    if depth > maxDepth || (depth == 0 && SystemExcluded(path)) || !n.Dir? || !n.readable then []
    else
      var (hs, ok) := FileHits(path, n.children);
      if ok then hs + DirsListing(maxDepth, path, n.children, depth) else hs
  }

  function DirsListing(maxDepth: int, dir: string, cs: seq<Node>, depth: nat): seq<Hit>
    decreases cs
  {
    if cs == [] then []
    else
      (if cs[0].Dir? && KeepScanDir(cs[0].name) then Listing(maxDepth, Join(dir, cs[0].name), cs[0], depth + 1) else [])
      + DirsListing(maxDepth, dir, cs[1..], depth)
  }

  function RootListing(maxDepth: int, root: Root): seq<Hit> {
    match root.node
    case None => []
    case Some(n) => Listing(maxDepth, root.path, n, 0)
  }

  function RootsListing(maxDepth: int, roots: seq<Root>): seq<Hit>
    decreases |roots|
  {
    if roots == [] then [] else RootListing(maxDepth, roots[0]) + RootsListing(maxDepth, roots[1..])
  }

  /** The hits `_handle` keeps: accepted by the filter, and the first with their path, given the paths already seen. */
  function NewHits(c: Scanner, seen: set<string>, hs: seq<Hit>): seq<Hit>
    decreases |hs|
  {
    if hs == [] then []
    else if c.accepts(hs[0].name) && hs[0].path !in seen then [hs[0]] + NewHits(c, seen + {hs[0].path}, hs[1..])
    else NewHits(c, seen, hs[1..])
  }

  // ---------------------------------------------------------------------------
  // The invariant of what was found
  // ---------------------------------------------------------------------------

  function PathsOf(hs: seq<Hit>): set<string> {
    set h | h in hs :: h.path
  }

  /** The hits already emitted: everything handled except the pending buffer. */
  function Emitted(f: Found): seq<Hit>
    requires |f.buffer| <= |f.handled|
  {
    f.handled[..|f.handled| - |f.buffer|]
  }

  /** `bs` is `d` cut into whole batches of `n`, each sorted newest first. */
  ghost predicate SortedBatches(bs: seq<seq<Hit>>, d: seq<Hit>, n: nat)
    decreases |bs|
  {
    if bs == [] then d == []
    else
      && |d| >= n
      && bs[|bs| - 1] == SortDesc(d[|d| - n..], HitMTime)
      && SortedBatches(bs[..|bs| - 1], d[..|d| - n], n)
  }

  /** The buffer is the tail of the handled hits and shorter than a batch; the batches are the rest. */
  ghost predicate Cut(f: Found, n: nat) {
    && |f.buffer| < n
    && |f.buffer| <= |f.handled|
    && Emitted(f) + f.buffer == f.handled
    && SortedBatches(f.batches, Emitted(f), n)
  }

  /** No path was handled twice, `seen` is exactly the handled paths, and the filter accepted every handled name. */
  ghost predicate Kept(c: Scanner, f: Found) {
    && DistinctBy(f.handled, HitPath)
    && f.seen == PathsOf(f.handled)
    && (forall i :: 0 <= i < |f.handled| ==> c.accepts(f.handled[i].name))
  }

  ghost predicate Inv(c: Scanner, f: Found) {
    Cut(f, Threshold(c)) && Kept(c, f)
  }

  lemma StartInv(c: Scanner)
    ensures Inv(c, NoneFound)
  {
    assert Chunks(Emitted(NoneFound), Threshold(c)) == [];
  }

  /** Emitting a whole batch after `k` whole batches appends it, sorted, to the batches. */
  lemma BatchesGrow(d: seq<Hit>, b: seq<Hit>, n: nat, k: nat)
    requires n >= 1 && |d| == k * n && |b| == n
    ensures SortEach(Chunks(d + b, n), HitMTime) == SortEach(Chunks(d, n), HitMTime) + [SortDesc(b, HitMTime)]
  {
    ChunksAppend(d, b, n, k);
    assert Chunks(b, n) == [b];
    SortEachAppend(Chunks(d, n), [b], HitMTime);
    assert SortEach([b], HitMTime) == [SortDesc(b, HitMTime)];
  }

  /** Whole sorted batches hold a whole number of batches' worth of hits. */
  lemma SortedBatchesLength(bs: seq<seq<Hit>>, d: seq<Hit>, n: nat)
    requires SortedBatches(bs, d, n)
    ensures |d| == |bs| * n
  {
    SortedBatchesArePieces(bs, d, n);
    PiecesLength(bs, d, n);
  }

  /** `d` ends in `|bs|` pieces of `n` hits each, peeled off from the back. */
  ghost predicate Pieces(bs: seq<seq<Hit>>, d: seq<Hit>, n: nat)
    decreases |bs|
  {
    if bs == [] then d == []
    else |d| >= n && Pieces(bs[..|bs| - 1], d[..|d| - n], n)
  }

  lemma {:induction false} SortedBatchesArePieces(bs: seq<seq<Hit>>, d: seq<Hit>, n: nat)
    requires SortedBatches(bs, d, n)
    ensures Pieces(bs, d, n)
    decreases |bs|
  {
    if bs != [] {
      SortedBatchesArePieces(bs[..|bs| - 1], d[..|d| - n], n);
    }
  }

  lemma {:induction false} PiecesLength(bs: seq<seq<Hit>>, d: seq<Hit>, n: nat)
    requires Pieces(bs, d, n)
    ensures |d| == |bs| * n
    decreases |bs|
  {
    if bs != [] {
      var m := |bs| - 1;
      PiecesLength(bs[..m], d[..|d| - n], n);
      LengthStep(|d|, m, n);
    }
  }

  lemma LengthStep(len: int, m: nat, n: nat)
    requires len - n == m * n
    ensures len == (m + 1) * n
  {
  }

  /** A sequence is its front and its last `n` elements. */
  lemma DSplit(d: seq<Hit>, n: nat)
    requires n <= |d|
    ensures d == d[..|d| - n] + d[|d| - n..]
  {
  }

  /** A non-empty sequence is its front and its last element. */
  lemma BSplit(bs: seq<seq<Hit>>)
    requires bs != []
    ensures bs == bs[..|bs| - 1] + [bs[|bs| - 1]]
  {
  }

  /** Whole sorted batches are what `SortEach` and `Chunks` make of the hits they hold. */
  lemma {:induction false} SortedBatchesAreChunks(bs: seq<seq<Hit>>, d: seq<Hit>, n: nat)
    requires n >= 1 && SortedBatches(bs, d, n)
    ensures bs == SortEach(Chunks(d, n), HitMTime)
    decreases |bs|
  {
    if bs != [] {
      var bs', d' := bs[..|bs| - 1], d[..|d| - n];
      var b := d[|d| - n..];
      SortedBatchesAreChunks(bs', d', n);
      SortedBatchesLength(bs', d', n);
      DSplit(d, n);
      BatchesGrow(d', b, n, |bs'|);
      BSplit(bs);
    }
  }

  /** Buffering one more hit keeps the cut while the buffer stays short of a batch. */
  lemma CutBuffered(f: Found, h: Hit, n: nat)
    requires Cut(f, n)
    requires |f.buffer| + 1 < n
    ensures Cut(Buffered(f, h), n)
  {
    var f' := Buffered(f, h);
    assert Emitted(f) + f'.buffer == (Emitted(f) + f.buffer) + [h];
    assert Emitted(f') == Emitted(f);
  }

  /** Buffering the hit that completes a batch and flushing keeps the cut. */
  lemma CutFlushed(f: Found, h: Hit, n: nat)
    requires Cut(f, n)
    requires |f.buffer| + 1 == n
    ensures Cut(Flush(Buffered(f, h)), n)
  {
    var d := Emitted(f);
    var b := f.buffer + [h];
    var f' := Buffered(f, h);
    assert f'.buffer == b && f'.batches == f.batches;
    assert f'.handled == d + b by {
      assert d + b == (d + f.buffer) + [h];
    }
    var r := Flush(f');
    assert r.batches == f.batches + [SortDesc(b, HitMTime)];
    SortedBatchesSnoc(f.batches, d, b, n);
    assert Emitted(r) == d + b;
  }

  /** One more whole batch, sorted, extends the cut by its hits. */
  lemma SortedBatchesSnoc(bs: seq<seq<Hit>>, d: seq<Hit>, b: seq<Hit>, n: nat)
    requires SortedBatches(bs, d, n) && |b| == n
    ensures SortedBatches(bs + [SortDesc(b, HitMTime)], d + b, n)
  {
    var bs' := bs + [SortDesc(b, HitMTime)];
    assert bs'[..|bs'| - 1] == bs;
    assert (d + b)[..|d + b| - n] == d;
    assert (d + b)[|d + b| - n..] == b;
  }

  /** `_handle` keeps the cut. */
  lemma HandleCut(c: Scanner, f: Found, h: Hit)
    requires Cut(f, Threshold(c))
    ensures Cut(Handle(c, f, h), Threshold(c))
  {
    var n := Threshold(c);
    if c.accepts(h.name) && h.path !in f.seen {
      var f' := Buffered(f, h);
      assert |f'.buffer| == |f.buffer| + 1;
      if |f.buffer| + 1 < n {
        assert Handle(c, f, h) == f';
        CutBuffered(f, h, n);
      } else {
        assert Handle(c, f, h) == Flush(f');
        CutFlushed(f, h, n);
      }
    }
  }

  /** Keeping a hit accepted by the filter with a new path keeps the bookkeeping right. */
  lemma KeptBuffered(c: Scanner, f: Found, h: Hit)
    requires Kept(c, f) && c.accepts(h.name) && h.path !in f.seen
    ensures Kept(c, Buffered(f, h))
  {
    var hs := Buffered(f, h).handled;
    forall i, j | 0 <= i < j < |hs| ensures HitPath(hs[i]) != HitPath(hs[j]) {
      assert hs[i] == f.handled[i] && f.handled[i] in f.handled;
      if j < |f.handled| {
        assert hs[j] == f.handled[j];
      }
    }
    assert PathsOf(hs) == PathsOf(f.handled) + {h.path};
  }

  /** `_handle` keeps the bookkeeping, and adds exactly the hit `NewHits` keeps. */
  lemma HandleKept(c: Scanner, f: Found, h: Hit)
    requires Kept(c, f)
    ensures Kept(c, Handle(c, f, h))
    ensures Handle(c, f, h).handled == f.handled + NewHits(c, f.seen, [h])
  {
    assert [h][1..] == [];
    if c.accepts(h.name) && h.path !in f.seen {
      KeptBuffered(c, f, h);
      assert NewHits(c, f.seen, [h]) == [h];
    } else {
      assert NewHits(c, f.seen, [h]) == [];
    }
  }

  /** Handling a sequence of hits keeps the bookkeeping, and adds exactly the hits `NewHits` keeps. */
  lemma {:induction false} HandleAllKept(c: Scanner, f: Found, hs: seq<Hit>)
    requires Kept(c, f)
    ensures Kept(c, HandleAll(c, f, hs))
    ensures HandleAll(c, f, hs).handled == f.handled + NewHits(c, f.seen, hs)
    decreases |hs|
  {
    if hs != [] {
      var h := hs[0];
      var f' := Handle(c, f, h);
      HandleKept(c, f, h);
      HandleAllKept(c, f', hs[1..]);
      if c.accepts(h.name) && h.path !in f.seen {
        assert f'.seen == f.seen + {h.path};
        assert NewHits(c, f.seen, hs) == [h] + NewHits(c, f'.seen, hs[1..]);
      } else {
        assert f'.seen == f.seen;
        assert NewHits(c, f.seen, hs) == NewHits(c, f'.seen, hs[1..]);
      }
    }
  }

  lemma {:induction false} HandleAllAppend(c: Scanner, f: Found, a: seq<Hit>, b: seq<Hit>)
    ensures HandleAll(c, f, a + b) == HandleAll(c, HandleAll(c, f, a), b)
    decreases |a|
  {
    if a != [] {
      assert (a + b)[0] == a[0];
      assert (a + b)[1..] == a[1..] + b;
      HandleAllAppend(c, Handle(c, f, a[0]), a[1..], b);
    } else {
      assert a + b == b;
    }
  }

  /** Handling a sequence of hits keeps the cut. */
  lemma {:induction false} HandleAllCut(c: Scanner, f: Found, hs: seq<Hit>)
    requires Cut(f, Threshold(c))
    ensures Cut(HandleAll(c, f, hs), Threshold(c))
    decreases |hs|
  {
    if hs != [] {
      HandleCut(c, f, hs[0]);
      HandleAllCut(c, Handle(c, f, hs[0]), hs[1..]);
    }
  }

  lemma HandleAllInv(c: Scanner, f: Found, hs: seq<Hit>)
    requires Inv(c, f)
    ensures Inv(c, HandleAll(c, f, hs))
  {
    HandleAllCut(c, f, hs);
    HandleAllKept(c, f, hs);
  }

  lemma HandleAllPrefix(c: Scanner, f: Found, a: seq<Hit>, b: seq<Hit>, k: nat)
    requires k <= |b|
    ensures HandleAll(c, HandleAll(c, f, a), b[..k]) == HandleAll(c, f, (a + b)[..|a| + k])
  {
    assert (a + b)[..|a| + k] == a + b[..k];
    HandleAllAppend(c, f, a, b[..k]);
  }

  // ---------------------------------------------------------------------------
  // Whatever the flag does, the walk handles a prefix of the listing
  // ---------------------------------------------------------------------------

  /**
   * The file loop handles the first `k` listed files. It goes on to the
   * subdirectories exactly when it handled them all and no stat failed;
   * it stops short of the listing only once the flag is seen set, and a
   * flag already set lets it handle nothing.
   */
  lemma {:induction false} HandleFilesPrefix(c: Scanner, s: Scan, dir: string, cs: seq<Node>) returns (k: nat)
    ensures k <= |FileHits(dir, cs).0|
    ensures HandleFiles(c, s, dir, cs).0.found == HandleAll(c, s.found, FileHits(dir, cs).0[..k])
    ensures HandleFiles(c, s, dir, cs).1 ==> k == |FileHits(dir, cs).0| && FileHits(dir, cs).1
    ensures !HandleFiles(c, s, dir, cs).1 ==>
      StopSeen(c, HandleFiles(c, s, dir, cs).0) || (k == |FileHits(dir, cs).0| && !FileHits(dir, cs).1)
    ensures StopSeen(c, s) ==> k == 0 && StopSeen(c, HandleFiles(c, s, dir, cs).0)
    decreases cs
  {
    if cs == [] {
      k := 0;
    } else if !cs[0].File? {
      k := HandleFilesPrefix(c, s, dir, cs[1..]);
    } else if StopSeen(c, s) || cs[0].stat.None? {
      k := 0;
    } else {
      var h := Hit(cs[0].name, Join(dir, cs[0].name), cs[0].stat.value.mtime);
      var s' := Scan(Handle(c, s.found, h), s.flagReads + 1);
      var k' := HandleFilesPrefix(c, s', dir, cs[1..]);
      var hs := FileHits(dir, cs[1..]).0;
      k := k' + 1;
      assert FileHits(dir, cs).0 == [h] + hs;
      assert ([h] + hs)[..k] == [h] + hs[..k'];
      assert ([h] + hs[..k'])[1..] == hs[..k'];
    }
  }

  /**
   * `_walk` handles the first `k` hits of the listing, all of them unless
   * it sees the flag set, and none when the flag is already set.
   */
  lemma {:induction false} WalkPrefix(c: Scanner, s: Scan, path: string, n: Node, depth: nat) returns (k: nat)
    ensures k <= |Listing(c.maxDepth, path, n, depth)|
    ensures Walk(c, s, path, n, depth).found == HandleAll(c, s.found, Listing(c.maxDepth, path, n, depth)[..k])
    ensures k < |Listing(c.maxDepth, path, n, depth)| ==> StopSeen(c, Walk(c, s, path, n, depth))
    ensures StopSeen(c, s) ==> k == 0 && StopSeen(c, Walk(c, s, path, n, depth))
    decreases n, 2
  {
    k := 0;
    assert Listing(c.maxDepth, path, n, depth)[..0] == [];
    if !StopSeen(c, s) && !(depth > c.maxDepth || (depth == 0 && SystemExcluded(path)) || !n.Dir? || !n.readable) {
      var (s2, ok) := HandleFiles(c, Read(s), path, n.children);
      var hs := FileHits(path, n.children).0;
      var k1 := HandleFilesPrefix(c, Read(s), path, n.children);
      if ok {
        var d := DirsListing(c.maxDepth, path, n.children, depth);
        var k2 := WalkDirsPrefix(c, s2, path, n.children, depth);
        assert hs[..k1] == hs;
        HandleAllPrefix(c, s.found, hs, d, k2);
        k := k1 + k2;
      } else {
        var d := DirsListing(c.maxDepth, path, n.children, depth);
        PrefixOfAppend(hs, d, k1);
        k := k1;
      }
    }
  }

  lemma PrefixOfAppend(a: seq<Hit>, b: seq<Hit>, k: nat)
    requires k <= |a|
    ensures (a + b)[..k] == a[..k]
  {
  }

  /** A walk that stopped inside `l` handles nothing of `rest`; one that finished `l` continues into `rest`. */
  lemma ComposePrefixes(c: Scanner, f: Found, l: seq<Hit>, rest: seq<Hit>, k1: nat, k2: nat) returns (k: nat)
    requires k1 <= |l| && k2 <= |rest|
    requires k1 < |l| ==> k2 == 0
    ensures k <= |l + rest|
    ensures HandleAll(c, HandleAll(c, f, l[..k1]), rest[..k2]) == HandleAll(c, f, (l + rest)[..k])
    ensures k < |l + rest| ==> k1 < |l| || k2 < |rest|
  {
    if k1 < |l| {
      assert (l + rest)[..k1] == l[..k1];
      assert rest[..k2] == [];
      k := k1;
    } else {
      assert l[..k1] == l;
      HandleAllPrefix(c, f, l, rest, k2);
      k := k1 + k2;
    }
  }

  lemma {:induction false} WalkDirsPrefix(c: Scanner, s: Scan, dir: string, cs: seq<Node>, depth: nat) returns (k: nat)
    ensures k <= |DirsListing(c.maxDepth, dir, cs, depth)|
    ensures WalkDirs(c, s, dir, cs, depth).found == HandleAll(c, s.found, DirsListing(c.maxDepth, dir, cs, depth)[..k])
    ensures k < |DirsListing(c.maxDepth, dir, cs, depth)| ==> StopSeen(c, WalkDirs(c, s, dir, cs, depth))
    ensures StopSeen(c, s) ==> k == 0 && StopSeen(c, WalkDirs(c, s, dir, cs, depth))
    decreases cs
  {
    k := 0;
    if cs != [] {
      var rest := DirsListing(c.maxDepth, dir, cs[1..], depth);
      if !(cs[0].Dir? && KeepScanDir(cs[0].name)) {
        assert DirsListing(c.maxDepth, dir, cs, depth) == rest;
        k := WalkDirsPrefix(c, s, dir, cs[1..], depth);
      } else if !StopSeen(c, s) {
        var p := Join(dir, cs[0].name);
        var l := Listing(c.maxDepth, p, cs[0], depth + 1);
        var w := Walk(c, Read(s), p, cs[0], depth + 1);
        assert DirsListing(c.maxDepth, dir, cs, depth) == l + rest;
        var k1 := WalkPrefix(c, Read(s), p, cs[0], depth + 1);
        var k2 := WalkDirsPrefix(c, w, dir, cs[1..], depth);
        k := ComposePrefixes(c, s.found, l, rest, k1, k2);
      }
    }
  }

  lemma {:induction false} RunRootsPrefix(c: Scanner, s: Scan, roots: seq<Root>) returns (k: nat)
    ensures k <= |RootsListing(c.maxDepth, roots)|
    ensures RunRoots(c, s, roots).found == HandleAll(c, s.found, RootsListing(c.maxDepth, roots)[..k])
    ensures k < |RootsListing(c.maxDepth, roots)| ==> StopSeen(c, RunRoots(c, s, roots))
    ensures StopSeen(c, s) ==> k == 0
    decreases |roots|
  {
    k := 0;
    if roots != [] && !StopSeen(c, s) {
      var l := RootListing(c.maxDepth, roots[0]);
      var rest := RootsListing(c.maxDepth, roots[1..]);
      var w := WalkRoot(c, Read(s), roots[0]);
      var k1 := 0;
      if roots[0].node.Some? {
        k1 := WalkPrefix(c, Read(s), roots[0].path, roots[0].node.value, 0);
      }
      var k2 := RunRootsPrefix(c, w, roots[1..]);
      k := ComposePrefixes(c, s.found, l, rest, k1, k2);
    }
  }

  /**
   * Whatever the stop flag does, the scan handles the hits `_handle` keeps
   * from a prefix of the listing of the existing roots: the files the
   * filter accepts, each path the first time it is listed, in listing
   * order; with the flag never set, the prefix is the whole listing.
   */
  lemma ScanIsPrefix(c: Scanner, roots: seq<Root>) returns (k: nat)
    ensures k <= |RootsListing(c.maxDepth, roots)|
    ensures RunRoots(c, Start, roots).found == HandleAll(c, NoneFound, RootsListing(c.maxDepth, roots)[..k])
    ensures RunScan(c, roots).handled == NewHits(c, {}, RootsListing(c.maxDepth, roots)[..k])
    ensures c.stopAt.None? ==> k == |RootsListing(c.maxDepth, roots)|
  {
    k := RunRootsPrefix(c, Start, roots);
    StartInv(c);
    HandleAllKept(c, NoneFound, RootsListing(c.maxDepth, roots)[..k]);
  }

  /** With the flag never set, the scan handles the whole listing. */
  lemma NeverStoppedHandlesListing(c: Scanner, roots: seq<Root>)
    requires c.stopAt.None?
    ensures RunScan(c, roots).handled == NewHits(c, {}, RootsListing(c.maxDepth, roots))
  {
    var k := ScanIsPrefix(c, roots);
    assert RootsListing(c.maxDepth, roots)[..k] == RootsListing(c.maxDepth, roots);
  }

  /**
   * Whatever the stop flag does, the emitted batches are the handled hits
   * cut into batches of `Threshold` (the last one possibly shorter, none
   * empty), each sorted newest first; no path is emitted twice, and every
   * emitted name passed the filter.
   */
  lemma RunBatches(c: Scanner, roots: seq<Root>)
    ensures RunScan(c, roots).batches == SortEach(Chunks(RunScan(c, roots).handled, Threshold(c)), HitMTime)
    ensures DistinctBy(Flatten(RunScan(c, roots).batches), HitPath)
    ensures forall h :: h in Flatten(RunScan(c, roots).batches) ==> c.accepts(h.name)
  {
    var k := ScanIsPrefix(c, roots);
    StartInv(c);
    HandleAllInv(c, NoneFound, RootsListing(c.maxDepth, roots)[..k]);
    var f := RunRoots(c, Start, roots).found;
    FinalFlush(f, Threshold(c));
    FinalKept(c, f, Flush(f).batches);
  }

  /** The last flush leaves the batches as all handled hits cut into batches. */
  lemma FinalFlush(f: Found, n: nat)
    requires n >= 1 && Cut(f, n)
    ensures Flush(f).batches == SortEach(Chunks(f.handled, n), HitMTime)
  {
    var d := Emitted(f);
    SortedBatchesAreChunks(f.batches, d, n);
    SortedBatchesLength(f.batches, d, n);
    if f.buffer != [] {
      FlushTail(d, f.buffer, n, |f.batches|);
    } else {
      assert d == f.handled;
    }
  }

  /** Whole batches of `d` followed by the short tail `buf` are the batches of `d + buf`. */
  lemma FlushTail(d: seq<Hit>, buf: seq<Hit>, n: nat, m: nat)
    requires n >= 1 && 0 < |buf| < n && |d| == m * n
    ensures SortEach(Chunks(d + buf, n), HitMTime) == SortEach(Chunks(d, n), HitMTime) + [SortDesc(buf, HitMTime)]
  {
    ChunksAppend(d, buf, n, m);
    assert Chunks(buf, n) == [buf];
    SortEachAppend(Chunks(d, n), [buf], HitMTime);
    assert SortEach([buf], HitMTime) == [SortDesc(buf, HitMTime)];
  }

  /** Batches that hold the handled hits, rearranged, inherit their distinct paths and accepted names. */
  lemma FinalKept(c: Scanner, f: Found, bs: seq<seq<Hit>>)
    requires Kept(c, f)
    requires bs == SortEach(Chunks(f.handled, Threshold(c)), HitMTime)
    ensures DistinctBy(Flatten(bs), HitPath)
    ensures forall h :: h in Flatten(bs) ==> c.accepts(h.name)
  {
    SortEachPermutes(Chunks(f.handled, Threshold(c)), HitMTime);
    assert multiset(Flatten(bs)) == multiset(f.handled);
    PermutationKeepsDistinct(f.handled, Flatten(bs), HitPath);
    forall h | h in Flatten(bs) ensures c.accepts(h.name) {
      assert h in multiset(f.handled);
    }
  }

  /** A batch that is not the last one is full; none is empty; each is sorted newest first. */
  lemma RunBatchShapes(c: Scanner, roots: seq<Root>)
    ensures forall i :: 0 <= i < |RunScan(c, roots).batches| ==>
      && 0 < |RunScan(c, roots).batches[i]| <= Threshold(c)
      && SortedDesc(RunScan(c, roots).batches[i], HitMTime)
    ensures forall i :: 0 <= i < |RunScan(c, roots).batches| - 1 ==> |RunScan(c, roots).batches[i]| == Threshold(c)
  {
    RunBatches(c, roots);
  }

  /** Subdirectories of a directory at the depth limit contribute nothing. */
  lemma {:induction false} DirsBeyondLimit(maxDepth: int, dir: string, cs: seq<Node>, depth: nat)
    requires depth >= maxDepth
    ensures DirsListing(maxDepth, dir, cs, depth) == []
    decreases cs
  {
    if cs != [] {
      DirsBeyondLimit(maxDepth, dir, cs[1..], depth);
    }
  }

  /**
   * A directory exactly at the depth limit still has its files listed,
   * and only they: the cut-off is `depth > maxDepth`, one level deeper
   * than the rebuild's `depth >= 100`.
   */
  lemma DeepestLevelListsFiles(maxDepth: nat, path: string, n: Node)
    requires maxDepth >= 1 && n.Dir? && n.readable
    ensures Listing(maxDepth, path, n, maxDepth) == FileHits(path, n.children).0
  {
    DirsBeyondLimit(maxDepth, path, n.children, maxDepth);
  }

  /** A root under a system prefix is not walked at all. */
  lemma SystemRootSkipped(c: Scanner, s: Scan, path: string, n: Node)
    requires SystemExcluded(path)
    ensures Walk(c, s, path, n, 0).found == s.found
    ensures Listing(c.maxDepth, path, n, 0) == []
  {
  }

  /** Once the flag is seen set, the walk reads it once and finds nothing more. */
  lemma StoppedWalkFindsNothing(c: Scanner, s: Scan, path: string, n: Node, depth: nat)
    requires StopSeen(c, s)
    ensures Walk(c, s, path, n, depth) == Read(s)
  {
  }
}

=== FILE: orchestrator.dfy ===
/**
 * The two-stage search of main.py: `IndexSearchWorker.run` asks the index
 * for coarse candidates by a few keys, merges them without repeating a
 * path, refines them with `is_match` and emits the survivors in batches of
 * 50; `_start_search` and `trigger_rebuild` guard the worker threads.
 *
 * The worker runs against a fixed table. Its stop flag, set from another
 * thread, is an input: `stopAt` is the number of reads of the flag that
 * still see it clear; every later read sees it set.
 */
module Orchestrator {
  import opened Common
  import opened Strings
  import opened Seqs
  import opened QueryLanguage
  import opened IndexStore

  /** `search_name(kw, max_results=1000)` per key. */
  const CandidatesPerKey: int := 1000

  /** Results are emitted this many at a time. */
  const EmitBatch: nat := 50

  /** The coarse keys: every OR term, else the first AND term, else the empty string. */
  function Keys(q: Query): (r: seq<string>)
    ensures |r| >= 1
    ensures q.orKws != [] ==> r == q.orKws
    ensures q.orKws == [] && q.andKws != [] ==> r == [q.andKws[0]]
    ensures q.orKws == [] && q.andKws == [] ==> r == [""]
  {
    if q.orKws != [] then q.orKws
    else if q.andKws != [] then [q.andKws[0]]
    else [""]
  }

  function PathSet(s: seq<FileRecord>): set<string> {
    set x | x in s :: x.path
  }

  /** Appends, in order, the items whose path is not yet present: the first occurrence of a path wins. */
  function AddNew(acc: seq<FileRecord>, items: seq<FileRecord>): (r: seq<FileRecord>)
    ensures |acc| <= |r| && r[..|acc|] == acc
    ensures forall x :: x in r ==> x in acc || x in items
    ensures PathSet(r) == PathSet(acc) + PathSet(items)
    decreases |items|
  {
    if items == [] then acc
    else
      var next := if items[0].path in PathSet(acc) then acc else acc + [items[0]];
      assert next[..|acc|] == acc;
      var r := AddNew(next, items[1..]);
      assert items == [items[0]] + items[1..];
      assert PathSet(items) == {items[0].path} + PathSet(items[1..]);
      assert PathSet(next) == PathSet(acc) + {items[0].path};
      assert r[..|acc|] == r[..|next|][..|acc|];
      r
  }

  /** Merging keeps every path at most once. */
  lemma {:induction false} AddNewUnique(acc: seq<FileRecord>, items: seq<FileRecord>)
    requires UniquePaths(acc)
    ensures UniquePaths(AddNew(acc, items))
    decreases |items|
  {
    if items != [] {
      if items[0].path !in PathSet(acc) {
        var next := acc + [items[0]];
        forall i, j | 0 <= i < j < |next| ensures PathOf(next[i]) != PathOf(next[j]) {
          if j == |acc| {
            assert next[i] == acc[i] && acc[i].path in PathSet(acc);
          } else {
            assert next[i] == acc[i] && next[j] == acc[j];
          }
        }
        AddNewUnique(next, items[1..]);
      } else {
        AddNewUnique(acc, items[1..]);
      }
    }
  }

  /** An item is kept exactly when no earlier item, already merged or in this list, has its path. */
  lemma {:induction false} AddNewKeepsFirst(acc: seq<FileRecord>, items: seq<FileRecord>, j: nat)
    requires j < |items|
    requires items[j].path !in PathSet(acc)
    requires forall l :: 0 <= l < j ==> items[l].path != items[j].path
    ensures items[j] in AddNew(acc, items)
    decreases j
  {
    var next := if items[0].path in PathSet(acc) then acc else acc + [items[0]];
    if j == 0 {
      assert items[0] in next;
      assert AddNew(next, items[1..])[..|next|] == next;
    } else {
      var rest := items[1..];
      assert rest[j - 1] == items[j];
      assert items[0].path != items[j].path;
      if items[0].path !in PathSet(acc) {
        PathSetSnoc(acc, items[0]);
      }
      assert items[j].path !in PathSet(next);
      forall l | 0 <= l < j - 1 ensures rest[l].path != rest[j - 1].path {
        assert rest[l] == items[l + 1];
      }
      AddNewKeepsFirst(next, rest, j - 1);
    }
  }

  /** The merged candidates of the first keys, in key order. */
  function Gather(t: Table, keys: seq<string>): seq<FileRecord>
    decreases |keys|
  {
    if keys == [] then []
    else AddNew(Gather(t, keys[..|keys| - 1]), SearchName(t, keys[|keys| - 1], CandidatesPerKey))
  }

  /** The merged candidates come from the keys' searches, hold each path once, and cover every path any key found. */
  lemma {:induction false} GatherFacts(t: Table, keys: seq<string>)
    ensures UniquePaths(Gather(t, keys))
    ensures forall x :: x in Gather(t, keys) ==>
      exists i :: 0 <= i < |keys| && x in SearchName(t, keys[i], CandidatesPerKey)
    ensures forall i, x :: 0 <= i < |keys| && x in SearchName(t, keys[i], CandidatesPerKey) ==>
      x.path in PathSet(Gather(t, keys))
    decreases |keys|
  {
    if keys != [] {
      var init := keys[..|keys| - 1];
      var last := keys[|keys| - 1];
      GatherFacts(t, init);
      AddNewUnique(Gather(t, init), SearchName(t, last, CandidatesPerKey));
      forall x | x in Gather(t, keys)
        ensures exists i :: 0 <= i < |keys| && x in SearchName(t, keys[i], CandidatesPerKey)
      {
        if x in Gather(t, init) {
          var i :| 0 <= i < |init| && x in SearchName(t, init[i], CandidatesPerKey);
          assert keys[i] == init[i];
        } else {
          assert x in SearchName(t, keys[|keys| - 1], CandidatesPerKey);
        }
      }
      forall i, x | 0 <= i < |keys| && x in SearchName(t, keys[i], CandidatesPerKey)
        ensures x.path in PathSet(Gather(t, keys))
      {
        if i < |keys| - 1 {
          assert keys[i] == init[i];
        }
      }
    }
  }

  /** The candidates that pass `is_match`, in candidate order. */
  function Refine(q: Query, s: seq<FileRecord>): (r: seq<FileRecord>)
    ensures forall x :: x in r <==> x in s && IsMatch(q, x.name)
    ensures |r| <= |s|
    decreases |s|
  {
    if s == [] then []
    else
      var init := s[..|s| - 1];
      assert s == init + [s[|s| - 1]];
      Refine(q, init) + (if IsMatch(q, s[|s| - 1].name) then [s[|s| - 1]] else [])
  }

  lemma {:induction false} RefineAppend(q: Query, a: seq<FileRecord>, b: seq<FileRecord>)
    ensures Refine(q, a + b) == Refine(q, a) + Refine(q, b)
    decreases |b|
  {
    if b == [] {
      assert a + b == a;
    } else {
      var init := b[..|b| - 1];
      assert (a + b)[..|a + b| - 1] == a + init;
      RefineAppend(q, a, init);
    }
  }

  /** Refining keeps every path at most once. */
  lemma {:induction false} RefineUnique(q: Query, s: seq<FileRecord>)
    requires UniquePaths(s)
    ensures UniquePaths(Refine(q, s))
    decreases |s|
  {
    if s != [] {
      var init := s[..|s| - 1];
      assert UniquePaths(init) by {
        assert forall i :: 0 <= i < |init| ==> init[i] == s[i];
      }
      RefineUnique(q, init);
      var r0 := Refine(q, init);
      var r := Refine(q, s);
      forall i, j | 0 <= i < j < |r| ensures PathOf(r[i]) != PathOf(r[j]) {
        assert r[i] == r0[i] && r0[i] in init;
        if j < |r0| {
          assert r[j] == r0[j];
        } else {
          var k :| 0 <= k < |init| && init[k] == r0[i];
          assert s[k] == r0[i];
        }
      }
    }
  }

  /** What the worker would emit if never stopped: the refined candidates of its keys. */
  function Results(t: Table, q: Query): seq<FileRecord> {
    Refine(q, Gather(t, Keys(q)))
  }

  /** Every result passes `is_match`, was found by one of the keys, and no path repeats. */
  lemma ResultsFacts(t: Table, q: Query)
    ensures UniquePaths(Results(t, q))
    ensures forall x :: x in Results(t, q) ==> x in t && IsMatch(q, x.name)
  {
    var keys := Keys(q);
    GatherFacts(t, keys);
    RefineUnique(q, Gather(t, keys));
    forall x | x in Results(t, q) ensures x in t {
      var i :| 0 <= i < |keys| && x in SearchName(t, keys[i], CandidatesPerKey);
    }
  }

  /**
   * The coarse keys lose no match: a name `is_match` accepts holds one of
   * the keys, so the index search by that key (`LIKE '%key%'`) sees it.
   * The first AND term is enough because every AND term must be present.
   */
  lemma KeysCover(q: Query, name: string)
    requires q.orKws != [] || q.andKws != []
    requires IsMatch(q, name)
    ensures exists k :: k in Keys(q) && Contains(Lower(name), k) && Like(name, LikePattern(k))
  {
    var k: string;
    if q.orKws != [] {
      k :| k in q.orKws && Contains(Lower(name), k);
    } else {
      k := q.andKws[0];
    }
    LikeOfContains(name, k);
    assert k in Keys(q);
  }

  /**
   * The results lose a matching record only when the index searches were
   * cut off: a record of the index that `is_match` accepts is a result,
   * unless every key whose `LIKE` pattern it matches returned a full
   * `CandidatesPerKey` rows, none older than it.
   */
  lemma ResultsComplete(t: Table, q: Query, x: FileRecord)
    requires UniquePaths(t) && WellFormed(q)
    requires q.orKws != [] || q.andKws != []
    requires x in t && IsMatch(q, x.name)
    ensures exists k :: k in Keys(q) && Like(x.name, LikePattern(k))
    ensures x !in Results(t, q) ==>
      forall k :: k in Keys(q) && Like(x.name, LikePattern(k)) ==>
        && |SearchName(t, k, CandidatesPerKey)| == CandidatesPerKey
        && forall y :: y in SearchName(t, k, CandidatesPerKey) ==> y.mtime >= x.mtime
  {
    KeysCover(q, x.name);
    forall k | k in Keys(q) && Like(x.name, LikePattern(k)) && x !in Results(t, q)
      ensures x !in SearchName(t, k, CandidatesPerKey) && k != []
    {
      var i :| 0 <= i < |Keys(q)| && Keys(q)[i] == k;
      KeyNonEmpty(q, i);
      if x in SearchName(t, k, CandidatesPerKey) {
        FoundIsResult(t, q, x, i);
      }
    }
  }

  /** A matching record that one key's search returned is a result: the merge kept it, being the only record with its path. */
  lemma FoundIsResult(t: Table, q: Query, x: FileRecord, i: nat)
    requires UniquePaths(t) && x in t && IsMatch(q, x.name)
    requires i < |Keys(q)| && x in SearchName(t, Keys(q)[i], CandidatesPerKey)
    ensures x in Results(t, q)
  {
    var keys := Keys(q);
    var g := Gather(t, keys);
    GatherFacts(t, keys);
    assert x.path in PathSet(g);
    var y :| y in g && y.path == x.path;
    var j :| 0 <= j < |keys| && y in SearchName(t, keys[j], CandidatesPerKey);
    SamePathSameRecord(t, x, y);
  }

  /** The keys of a parsed query are never empty. */
  lemma KeyNonEmpty(q: Query, i: nat)
    requires WellFormed(q) && (q.orKws != [] || q.andKws != []) && i < |Keys(q)|
    ensures Keys(q)[i] != []
  {
    if q.orKws != [] {
      assert OrKwShape(q.orKws[i]);
    } else {
      assert AndKwShape(q.andKws[0]);
    }
  }

  lemma SamePathSameRecord(t: Table, x: FileRecord, y: FileRecord)
    requires UniquePaths(t) && x in t && y in t && x.path == y.path
    ensures x == y
  {
    var i :| 0 <= i < |t| && t[i] == x;
    var j :| 0 <= j < |t| && t[j] == y;
    assert PathOf(t[i]) == PathOf(t[j]);
  }

  /** A query with neither AND nor OR terms yields nothing: its only key is `""`, for which the index search returns nothing. */
  lemma NoTermsNoResults(t: Table, q: Query)
    requires q.orKws == [] && q.andKws == []
    ensures Results(t, q) == []
  {
    var keys := Keys(q);
    assert keys == [""] && keys[..0] == [];
    assert SearchName(t, "", CandidatesPerKey) == [];
    assert Gather(t, keys) == AddNew([], []);
  }

  /** The refine loop's state after `i` candidates: whole batches emitted, the rest pending. */
  ghost predicate RefineProgress(q: Query, cands: seq<FileRecord>, i: nat, emitted: seq<seq<FileRecord>>,
                                 batch: seq<FileRecord>, done: seq<FileRecord>, k: nat) {
    && i <= |cands|
    && done + batch == Refine(q, cands[..i])
    && |done| == k * EmitBatch
    && |batch| < EmitBatch
    && emitted == Chunks(done, EmitBatch)
  }

  /** One more candidate adds itself to the refined list exactly when it matches. */
  lemma RefineSnoc(q: Query, s: seq<FileRecord>, i: nat)
    requires i < |s|
    ensures Refine(q, s[..i + 1]) == Refine(q, s[..i]) + (if IsMatch(q, s[i].name) then [s[i]] else [])
  {
    assert s[..i + 1][..i] == s[..i];
  }

  lemma RefineStep(q: Query, cands: seq<FileRecord>, i: nat, emitted: seq<seq<FileRecord>>,
                   batch: seq<FileRecord>, done: seq<FileRecord>, k: nat)
    requires i < |cands| && RefineProgress(q, cands, i, emitted, batch, done, k)
    ensures !IsMatch(q, cands[i].name) ==> RefineProgress(q, cands, i + 1, emitted, batch, done, k)
    ensures IsMatch(q, cands[i].name) && |batch| + 1 < EmitBatch ==>
      RefineProgress(q, cands, i + 1, emitted, batch + [cands[i]], done, k)
    ensures IsMatch(q, cands[i].name) && |batch| + 1 == EmitBatch ==>
      RefineProgress(q, cands, i + 1, emitted + [batch + [cands[i]]], [], done + (batch + [cands[i]]), k + 1)
  {
    RefineSnoc(q, cands, i);
    if IsMatch(q, cands[i].name) {
      var b := batch + [cands[i]];
      assert done + b == (done + batch) + [cands[i]];
      if |b| == EmitBatch {
        BatchStep(done, b, k);
        assert done + b + [] == done + b;
      }
    }
  }

  /** A full batch after whole batches is one more batch. */
  lemma BatchStep(done: seq<FileRecord>, b: seq<FileRecord>, k: nat)
    requires |done| == k * EmitBatch && |b| == EmitBatch
    ensures Chunks(done + b, EmitBatch) == Chunks(done, EmitBatch) + [b]
    ensures |done + b| == (k + 1) * EmitBatch
  {
    ChunksAppend(done, b, EmitBatch, k);
  }

  /** The batches of a stream are its whole batches followed by the pending rest, if any. */
  lemma BatchesOfAll(out: seq<FileRecord>, done: seq<FileRecord>, batch: seq<FileRecord>, k: nat)
    requires out == done + batch && |done| == k * EmitBatch && |batch| < EmitBatch
    ensures Chunks(out, EmitBatch) == Chunks(done, EmitBatch) + (if batch == [] then [] else [batch])
  {
    ChunksAppend(done, batch, EmitBatch, k);
  }

  /** Batches emitted from a prefix of whole batches are a prefix of the batches of the whole. */
  lemma ChunksOfPrefix(out: seq<FileRecord>, done: seq<FileRecord>, k: nat)
    requires |done| == k * EmitBatch && |done| <= |out| && out[..|done|] == done
    ensures |Chunks(done, EmitBatch)| <= |Chunks(out, EmitBatch)|
    ensures Chunks(out, EmitBatch)[..|Chunks(done, EmitBatch)|] == Chunks(done, EmitBatch)
  {
    assert out == done + out[|done|..];
    ChunksAppend(done, out[|done|..], EmitBatch, k);
  }

  /**
   * `IndexSearchWorker.run`. The flag is read once per key before its
   * search, once per candidate before its check, and once at the end when
   * a partial batch is pending. What is emitted is always a prefix of the
   * batches of `Results`, and all of them when the flag is never seen set.
   */
  method RunWorker(t: Table, q: Query, stopAt: nat) returns (emitted: seq<seq<FileRecord>>)
    ensures |emitted| <= |Chunks(Results(t, q), EmitBatch)|
    ensures emitted == Chunks(Results(t, q), EmitBatch)[..|emitted|]
    ensures stopAt > |Keys(q)| + |Gather(t, Keys(q))| ==> emitted == Chunks(Results(t, q), EmitBatch)
  {
    var raw, flagReads, stopped := GatherStage(t, Keys(q), stopAt);
    emitted := RefineStage(q, raw, flagReads, stopAt);
  }

  /** Steps 1 and 2 of the worker: the keys' searches merged by path, unless the flag is seen set before a key. */
  method GatherStage(t: Table, keys: seq<string>, stopAt: nat) returns (raw: seq<FileRecord>, flagReads: nat, stopped: bool)
    ensures !stopped ==> raw == Gather(t, keys) && flagReads == |keys|
    ensures stopped ==> flagReads > stopAt
    ensures flagReads <= |keys|
  {
    flagReads := 0;
    raw := [];
    var seen: set<string> := {};
    var g := 0;
    stopped := false;
    while g < |keys| && !stopped
      invariant 0 <= g <= |keys|
      invariant raw == Gather(t, keys[..g]) && seen == PathSet(raw)
      invariant !stopped ==> flagReads == g
      invariant stopped ==> flagReads > stopAt && flagReads == g + 1 && g < |keys|
      decreases |keys| - g, !stopped
    {
      if flagReads >= stopAt {
        stopped := true;
      } else {
        var res := SearchName(t, keys[g], CandidatesPerKey);
        GatherStep(t, keys, g);
        raw, seen := Merge(raw, seen, res);
        g := g + 1;
      }
      flagReads := flagReads + 1;
    }
    if !stopped {
      assert keys[..g] == keys;
    }
  }

  /**
   * Step 3 of the worker: each candidate that passes `is_match` joins the
   * batch, a batch of `EmitBatch` is emitted at once, and a partial batch
   * is emitted at the end unless the flag is seen set. `flagReads0` reads
   * of the flag came before.
   */
  method RefineStage(q: Query, raw: seq<FileRecord>, flagReads0: nat, stopAt: nat) returns (emitted: seq<seq<FileRecord>>)
    ensures |emitted| <= |Chunks(Refine(q, raw), EmitBatch)|
    ensures emitted == Chunks(Refine(q, raw), EmitBatch)[..|emitted|]
    ensures flagReads0 >= stopAt ==> emitted == []
    ensures stopAt > flagReads0 + |raw| ==> emitted == Chunks(Refine(q, raw), EmitBatch)
  {
    var batch, i, stopped, flagReads;
    ghost var done, k;
    emitted, batch, done, k, i, stopped, flagReads := RefineLoop(q, raw, flagReads0, stopAt);
    ghost var out := Refine(q, raw);
    assert raw == raw[..i] + raw[i..];
    RefineAppend(q, raw[..i], raw[i..]);
    assert out[..|done|] == done;
    ChunksOfPrefix(out, done, k);
    if batch != [] {
      if flagReads < stopAt {
        assert raw[..i] == raw;
        BatchesOfAll(out, done, batch, k);
        emitted := emitted + [batch];
      }
    } else if !stopped {
      assert raw[..i] == raw;
      BatchesOfAll(out, done, batch, k);
    }
  }

  /** The candidate loop of step 3, up to the point where the flag is seen set or the candidates run out. */
  method RefineLoop(q: Query, raw: seq<FileRecord>, flagReads0: nat, stopAt: nat)
    returns (emitted: seq<seq<FileRecord>>, batch: seq<FileRecord>, ghost done: seq<FileRecord>, ghost k: nat,
             i: nat, stopped: bool, flagReads: nat)
    ensures RefineProgress(q, raw, i, emitted, batch, done, k)
    ensures flagReads == flagReads0 + i + (if stopped then 1 else 0)
    ensures stopped ==> flagReads0 + i >= stopAt
    ensures i > 0 ==> flagReads0 + i <= stopAt
    ensures !stopped ==> i == |raw|
  {
    flagReads := flagReads0;
    emitted := [];
    batch := [];
    done := [];
    k := 0;
    i := 0;
    stopped := false;
    assert raw[..0] == [];
    while i < |raw| && !stopped
      invariant RefineProgress(q, raw, i, emitted, batch, done, k)
      invariant flagReads == flagReads0 + i + (if stopped then 1 else 0)
      invariant stopped ==> flagReads0 + i >= stopAt
      invariant i > 0 ==> flagReads0 + i <= stopAt
      decreases |raw| - i, !stopped
    {
      if flagReads >= stopAt {
        stopped := true;
        flagReads := flagReads + 1;
      } else {
        emitted, batch, done, k := Consume(q, raw, i, emitted, batch, done, k);
        i := i + 1;
        flagReads := flagReads + 1;
      }
    }
  }

  /** One candidate of step 3: appended to the batch if it matches, and the batch emitted once full. */
  method Consume(q: Query, raw: seq<FileRecord>, i: nat, emitted: seq<seq<FileRecord>>, batch: seq<FileRecord>,
                 ghost done: seq<FileRecord>, ghost k: nat)
    returns (emitted': seq<seq<FileRecord>>, batch': seq<FileRecord>, ghost done': seq<FileRecord>, ghost k': nat)
    requires i < |raw| && RefineProgress(q, raw, i, emitted, batch, done, k)
    ensures RefineProgress(q, raw, i + 1, emitted', batch', done', k')
  {
    RefineStep(q, raw, i, emitted, batch, done, k);
    emitted', batch', done', k' := emitted, batch, done, k;
    if IsMatch(q, raw[i].name) {
      batch' := batch + [raw[i]];
      if |batch'| >= EmitBatch {
        emitted' := emitted + [batch'];
        done' := done + batch';
        k' := k + 1;
        batch' := [];
      }
    }
  }

  /** The merge loop of the gather stage: skip a path already seen, else append the item and remember its path. */
  method Merge(raw: seq<FileRecord>, seen: set<string>, res: seq<FileRecord>) returns (raw': seq<FileRecord>, seen': set<string>)
    requires seen == PathSet(raw)
    ensures raw' == AddNew(raw, res) && seen' == PathSet(raw')
  {
    raw', seen' := raw, seen;
    for j := 0 to |res|
      invariant seen' == PathSet(raw')
      invariant AddNew(raw', res[j..]) == AddNew(raw, res)
    {
      AddNewStep(raw', res, j);
      if res[j].path !in seen' {
        PathSetSnoc(raw', res[j]);
        raw' := raw' + [res[j]];
        seen' := seen' + {res[j].path};
      }
    }
    assert res[|res|..] == [];
  }

  /** One step of the merge: the item at `j` is appended unless its path is present, and merging goes on with the rest. */
  lemma AddNewStep(acc: seq<FileRecord>, res: seq<FileRecord>, j: nat)
    requires j < |res|
    ensures AddNew(acc, res[j..]) ==
      AddNew(if res[j].path in PathSet(acc) then acc else acc + [res[j]], res[j + 1..])
  {
    assert res[j..][0] == res[j];
    assert res[j..][1..] == res[j + 1..];
  }

  lemma PathSetSnoc(s: seq<FileRecord>, x: FileRecord)
    ensures PathSet(s + [x]) == PathSet(s) + {x.path}
  {
    assert forall y :: y in s + [x] <==> y in s || y == x;
  }

  /** The merged candidates of one more key. */
  lemma GatherStep(t: Table, keys: seq<string>, g: nat)
    requires g < |keys|
    ensures Gather(t, keys[..g + 1]) == AddNew(Gather(t, keys[..g]), SearchName(t, keys[g], CandidatesPerKey))
  {
    assert keys[..g + 1][..g] == keys[..g];
    assert keys[..g + 1][g] == keys[g];
  }

  // ---------------------------------------------------------------------------
  // _start_search and trigger_rebuild
  // ---------------------------------------------------------------------------

  /**
   * A search worker: the stripped text it was started on (it filters with
   * `SetQuery(text)`), whether its thread runs, whether its `res_signal`
   * is still connected to the window, whether it was told to stop, and the
   * batches it emitted that the window has not handled yet (a signal sent
   * across threads is queued).
   */
  datatype Worker = Worker(text: string, running: bool, connected: bool, stopRequested: bool, queued: seq<seq<FileRecord>>)

  /** The status label: `Ready`, the searching text, or the result count `_add_res_batch` shows. */
  datatype Status = Ready | Searching | Found(count: nat)

  /**
   * The part of the window `_start_search` and `_add_res_batch` touch.
   * `retired` lists, in order, the workers later searches replaced: their
   * threads live on until they notice the stop request, and their queued
   * batches stay queued.
   */
  datatype SearchUi = SearchUi(worker: Option<Worker>, retired: seq<Worker>, results: seq<FileRecord>, status: Status)

  const IdleUi := SearchUi(None, [], [], Ready)

  /** The retired workers, then the current one. */
  function Workers(ui: SearchUi): seq<Worker> {
    ui.retired + (if ui.worker.Some? then [ui.worker.value] else [])
  }

  /**
   * What `_start_search` leaves: the window, or the `TypeError` PyQt raises
   * from `res_signal.disconnect()` on a signal with no connection left.
   */
  datatype SearchStep = Searched(ui: SearchUi) | DisconnectRaised

  /**
   * The current worker still runs but an earlier blank search already
   * disconnected it: disconnecting it again raises.
   */
  predicate DisconnectFails(ui: SearchUi) {
    ui.worker.Some? && ui.worker.value.running && !ui.worker.value.connected
  }

  /**
   * `_start_search(text)`: a running worker is disconnected and told to
   * stop (which raises if it is disconnected already); the results are
   * cleared; blank text ends there with status Ready, otherwise a new
   * worker starts on the parsed query and the old one is retired.
   */
  function StartSearch(ui: SearchUi, text: string): (r: SearchStep)
    ensures r.DisconnectRaised? <==> DisconnectFails(ui)
    ensures r.Searched? ==> r.ui.results == []
    ensures r.Searched? && Strip(text) == [] ==> r.ui.status == Ready && r.ui.retired == ui.retired
    ensures r.Searched? && Strip(text) != [] ==> r.ui.status == Searching && r.ui.worker == Some(Launch(Strip(text)))
    ensures r.Searched? && ui.worker.Some? && ui.worker.value.running && Strip(text) == [] ==> r.ui.worker == Some(Stopped(ui.worker.value))
    ensures r.Searched? && ui.worker.Some? && ui.worker.value.running && Strip(text) != [] ==> r.ui.retired == ui.retired + [Stopped(ui.worker.value)]
    ensures r.Searched? && ui.worker.Some? && !ui.worker.value.running && Strip(text) == [] ==> r.ui.worker == ui.worker
    ensures r.Searched? && ui.worker.Some? && !ui.worker.value.running && Strip(text) != [] ==> r.ui.retired == ui.retired + [ui.worker.value]
    ensures r.Searched? && ui.worker.None? ==> r.ui.retired == ui.retired
    ensures r.Searched? && ui.worker.None? && Strip(text) == [] ==> r.ui.worker.None?
  {
    StartStripped(ui, Strip(text))
  }

  /** `_start_search` once the text is stripped, stated for the stripped text. */
  function StartStripped(ui: SearchUi, query: string): (r: SearchStep)
    ensures r.DisconnectRaised? <==> DisconnectFails(ui)
    ensures r.Searched? ==> r.ui.results == []
    ensures r.Searched? && query == [] ==> r.ui.status == Ready && r.ui.retired == ui.retired
    ensures r.Searched? && query != [] ==> r.ui.status == Searching && r.ui.worker == Some(Launch(query))
    ensures r.Searched? && ui.worker.Some? && ui.worker.value.running && query == [] ==> r.ui.worker == Some(Stopped(ui.worker.value))
    ensures r.Searched? && ui.worker.Some? && ui.worker.value.running && query != [] ==> r.ui.retired == ui.retired + [Stopped(ui.worker.value)]
    ensures r.Searched? && ui.worker.Some? && !ui.worker.value.running && query == [] ==> r.ui.worker == ui.worker
    ensures r.Searched? && ui.worker.Some? && !ui.worker.value.running && query != [] ==> r.ui.retired == ui.retired + [ui.worker.value]
    ensures r.Searched? && ui.worker.None? ==> r.ui.retired == ui.retired
    ensures r.Searched? && ui.worker.None? && query == [] ==> r.ui.worker.None?
  {
    if DisconnectFails(ui) then DisconnectRaised
    else
      var prev := if ui.worker.Some? && ui.worker.value.running then Some(Stopped(ui.worker.value)) else ui.worker;
      if query == [] then Searched(SearchUi(prev, ui.retired, [], Ready))
      else
        var replaced := if prev.Some? then [prev.value] else [];
        Searched(SearchUi(Some(Launch(query)), ui.retired + replaced, [], Searching))
  }

  /**
   * A blank search while a worker runs, then any search before that worker
   * ends: the second `_start_search` raises and leaves the list uncleared
   * and no new worker started.
   */
  lemma BlankThenSearchRaises(ui: SearchUi, text: string)
    requires ui.worker.Some? && ui.worker.value.running && ui.worker.value.connected
    ensures StartSearch(ui, "").Searched?
    ensures StartSearch(StartSearch(ui, "").ui, text) == DisconnectRaised
  {
  }

  /** `set_query(query)` then a new connected, started worker filtering with it. */
  function Launch(query: string): (w: Worker)
    ensures w.text == query && w.running && w.connected && !w.stopRequested && w.queued == []
  {
    Worker(query, true, true, false, [])
  }

  /** `res_signal.disconnect()` then `stop()`: the worker is cut off from the list and asked to end. */
  function Stopped(w: Worker): (r: Worker)
    ensures !r.connected && r.stopRequested
    ensures r.text == w.text && r.running == w.running && r.queued == w.queued
  {
    w.(connected := false, stopRequested := true)
  }

  /** The window with the `i`-th worker of `Workers(ui)` replaced. */
  function SetWorker(ui: SearchUi, i: nat, w: Worker): (r: SearchUi)
    requires i < |Workers(ui)|
    ensures r.results == ui.results && r.status == ui.status
    ensures |r.retired| == |ui.retired| && r.worker.Some? == ui.worker.Some?
    ensures Workers(r) == Workers(ui)[i := w]
  {
    if i < |ui.retired| then ui.(retired := ui.retired[i := w]) else ui.(worker := Some(w))
  }

  /** The thread of the `i`-th worker ends: it emits nothing more, and what it queued stays queued. */
  function FinishWorker(ui: SearchUi, i: nat): (r: SearchUi)
    ensures r.results == ui.results && r.status == ui.status
    ensures i < |Workers(ui)| ==> Workers(r) == Workers(ui)[i := Workers(ui)[i].(running := false)]
    ensures i >= |Workers(ui)| ==> r == ui
  {
    if i < |Workers(ui)| then SetWorker(ui, i, Workers(ui)[i].(running := false)) else ui
  }

  /** The `i`-th worker emits `res_signal(items)`: only a running thread emits, and the batch joins its queue. */
  function Emit(ui: SearchUi, i: nat, items: seq<FileRecord>): (r: SearchUi)
    ensures r.results == ui.results && r.status == ui.status
    ensures i < |Workers(ui)| && Workers(ui)[i].running ==>
      Workers(r) == Workers(ui)[i := Workers(ui)[i].(queued := Workers(ui)[i].queued + [items])]
    ensures !(i < |Workers(ui)| && Workers(ui)[i].running) ==> r == ui
  {
    if i < |Workers(ui)| && Workers(ui)[i].running then
      SetWorker(ui, i, Workers(ui)[i].(queued := Workers(ui)[i].queued + [items]))
    else ui
  }

  /**
   * The window handles the oldest batch the `i`-th worker queued: if the
   * connection is still alive, `_add_res_batch` appends it and shows the
   * count; a disconnected batch is dropped.
   */
  function Deliver(ui: SearchUi, i: nat): (r: SearchUi)
    ensures !(i < |Workers(ui)| && Workers(ui)[i].queued != []) ==> r == ui
    ensures i < |Workers(ui)| && Workers(ui)[i].queued != [] ==>
      var w := Workers(ui)[i];
      && |Workers(r)| == |Workers(ui)| && |r.retired| == |ui.retired|
      && Workers(r) == Workers(ui)[i := w.(queued := w.queued[1..])]
      && (w.connected ==> r.results == ui.results + w.queued[0] && r.status == Found(|r.results|))
      && (!w.connected ==> r.results == ui.results && r.status == ui.status)
  {
    if i < |Workers(ui)| && Workers(ui)[i].queued != [] then
      var w := Workers(ui)[i];
      var u := SetWorker(ui, i, w.(queued := w.queued[1..]));
      if w.connected then u.(results := u.results + w.queued[0], status := Found(|u.results + w.queued[0]|)) else u
    else ui
  }

  /**
   * What `_start_search` does keep: every retired worker is disconnected
   * or its thread has ended, so no retired worker emits a batch that
   * reaches the list.
   */
  ghost predicate Isolated(ui: SearchUi) {
    forall w :: w in ui.retired ==> !w.connected || !w.running
  }

  datatype UiEvent = Search(text: string) | Emitted(from: nat, items: seq<FileRecord>) | ThreadEnded(index: nat) | Handled(from: nat)

  /** One event, or `None` when its slot raised: an uncaught exception in a slot ends the application. */
  function Apply(ui: SearchUi, e: UiEvent): Option<SearchUi> {
    match e
    case Search(text) =>
      (match StartSearch(ui, text)
       case Searched(u) => Some(u)
       case DisconnectRaised => None)
    case Emitted(i, items) => Some(Emit(ui, i, items))
    case ThreadEnded(i) => Some(FinishWorker(ui, i))
    case Handled(i) => Some(Deliver(ui, i))
  }

  /** The events in order, up to the first one whose slot raised. */
  function RunUi(ui: SearchUi, es: seq<UiEvent>): SearchUi
    decreases |es|
  {
    if es == [] then ui
    else match Apply(ui, es[0])
      case None => ui
      case Some(u) => RunUi(u, es[1..])
  }

  /** A search that does not raise keeps every retired worker disconnected or ended. */
  lemma SearchIsolates(ui: SearchUi, query: string)
    requires Isolated(ui)
    ensures StartStripped(ui, query).Searched? ==> Isolated(StartStripped(ui, query).ui)
  {
    var r := StartStripped(ui, query);
    if r.Searched? {
      forall w | w in r.ui.retired ensures !w.connected || !w.running {
        if w !in ui.retired {
          assert ui.worker.Some? && w == (if ui.worker.value.running then Stopped(ui.worker.value) else ui.worker.value);
        }
      }
    }
  }

  /** Replacing a worker by one that is disconnected or ended, or by a current one, keeps the retired workers so. */
  lemma SetWorkerIsolates(ui: SearchUi, i: nat, w: Worker)
    requires Isolated(ui) && i < |Workers(ui)|
    requires i < |ui.retired| ==> !w.connected || !w.running
    ensures Isolated(SetWorker(ui, i, w))
  {
    var r := SetWorker(ui, i, w);
    forall v | v in r.retired ensures !v.connected || !v.running {
      var j :| 0 <= j < |r.retired| && r.retired[j] == v;
      assert Workers(r)[j] == v;
      if j != i {
        assert Workers(ui)[j] == ui.retired[j] && ui.retired[j] in ui.retired;
      }
    }
  }

  /** Every event keeps the retired workers disconnected or ended. */
  lemma ApplyIsolates(ui: SearchUi, e: UiEvent)
    requires Isolated(ui)
    ensures Apply(ui, e).Some? ==> Isolated(Apply(ui, e).value)
  {
    match e
    case Search(text) =>
      assert StartSearch(ui, text) == StartStripped(ui, Strip(text));
      SearchIsolates(ui, Strip(text));
    case Emitted(i, items) =>
      if i < |Workers(ui)| && Workers(ui)[i].running {
        var w := Workers(ui)[i];
        if i < |ui.retired| {
          assert w == ui.retired[i] && ui.retired[i] in ui.retired;
        }
        SetWorkerIsolates(ui, i, w.(queued := w.queued + [items]));
      }
    case ThreadEnded(i) =>
      if i < |Workers(ui)| {
        SetWorkerIsolates(ui, i, Workers(ui)[i].(running := false));
      }
    case Handled(i) =>
      if i < |Workers(ui)| && Workers(ui)[i].queued != [] {
        var w := Workers(ui)[i];
        if i < |ui.retired| {
          assert w == ui.retired[i] && ui.retired[i] in ui.retired;
        }
        SetWorkerIsolates(ui, i, w.(queued := w.queued[1..]));
      }
  }

  /**
   * Whatever searches, emits, thread ends and deliveries happen, every
   * retired worker stays disconnected or ended.
   */
  lemma {:induction false} RunIsolates(ui: SearchUi, es: seq<UiEvent>)
    requires Isolated(ui)
    ensures Isolated(RunUi(ui, es))
    decreases |es|
  {
    if es != [] {
      ApplyIsolates(ui, es[0]);
      if Apply(ui, es[0]).Some? {
        RunIsolates(Apply(ui, es[0]).value, es[1..]);
      }
    }
  }

  /** `a` is a suffix of `b`. */
  ghost predicate IsSuffix<T>(a: seq<T>, b: seq<T>) {
    |a| <= |b| && a == b[|b| - |a|..]
  }

  /**
   * How a retired worker can change: its query text and connection stay, its
   * thread can only end, and once it is connected and ended its queue can
   * only lose batches from the front.
   */
  ghost predicate Evolves(a: Worker, b: Worker) {
    && b.text == a.text && b.connected == a.connected
    && (b.running ==> a.running)
    && (a.connected && !a.running ==> IsSuffix(b.queued, a.queued))
  }

  /** Every worker retired in `ui` evolves into the one at its place in `r`. */
  ghost predicate RetiredEvolve(ui: SearchUi, r: SearchUi) {
    |ui.retired| <= |r.retired| && forall j :: 0 <= j < |ui.retired| ==> Evolves(ui.retired[j], r.retired[j])
  }

  lemma EvolvesTrans(a: Worker, b: Worker, c: Worker)
    requires Evolves(a, b) && Evolves(b, c)
    ensures Evolves(a, c)
  {
    if a.connected && !a.running {
      var qa, qb, qc := a.queued, b.queued, c.queued;
      assert qb == qa[|qa| - |qb|..] && qc == qb[|qb| - |qc|..];
      assert qc == qa[|qa| - |qc|..];
    }
  }

  lemma RetiredEvolveTrans(a: SearchUi, b: SearchUi, c: SearchUi)
    requires RetiredEvolve(a, b) && RetiredEvolve(b, c)
    ensures RetiredEvolve(a, c)
  {
    forall j | 0 <= j < |a.retired| ensures Evolves(a.retired[j], c.retired[j]) {
      EvolvesTrans(a.retired[j], b.retired[j], c.retired[j]);
    }
  }

  /** Replacing the `i`-th worker by a successor of it lets every retired worker evolve. */
  lemma SetWorkerEvolves(ui: SearchUi, i: nat, w: Worker)
    requires i < |Workers(ui)| && Evolves(Workers(ui)[i], w)
    ensures RetiredEvolve(ui, SetWorker(ui, i, w))
  {
    var r := SetWorker(ui, i, w);
    forall j | 0 <= j < |ui.retired| ensures Evolves(ui.retired[j], r.retired[j]) {
      assert Workers(r)[j] == r.retired[j] && Workers(ui)[j] == ui.retired[j];
    }
  }

  /** A search keeps the retired workers and appends at most one. */
  lemma SearchEvolves(ui: SearchUi, query: string)
    ensures StartStripped(ui, query).Searched? ==> RetiredEvolve(ui, StartStripped(ui, query).ui)
  {
    var r := StartStripped(ui, query);
    if r.Searched? {
      assert r.ui.retired[..|ui.retired|] == ui.retired;
      forall j | 0 <= j < |ui.retired| ensures Evolves(ui.retired[j], r.ui.retired[j]) {
        assert r.ui.retired[j] == r.ui.retired[..|ui.retired|][j];
      }
    }
  }

  /** One event lets every retired worker evolve. */
  lemma ApplyEvolves(ui: SearchUi, e: UiEvent)
    ensures Apply(ui, e).Some? ==> RetiredEvolve(ui, Apply(ui, e).value)
  {
    match e
    case Search(text) =>
      assert StartSearch(ui, text) == StartStripped(ui, Strip(text));
      SearchEvolves(ui, Strip(text));
    case Emitted(i, items) =>
      if i < |Workers(ui)| && Workers(ui)[i].running {
        var w := Workers(ui)[i];
        SetWorkerEvolves(ui, i, w.(queued := w.queued + [items]));
      } else {
        assert Emit(ui, i, items) == ui;
      }
    case ThreadEnded(i) =>
      if i < |Workers(ui)| {
        var w := Workers(ui)[i];
        assert IsSuffix(w.queued, w.queued);
        SetWorkerEvolves(ui, i, w.(running := false));
      }
    case Handled(i) =>
      if i < |Workers(ui)| && Workers(ui)[i].queued != [] {
        var w := Workers(ui)[i];
        assert IsSuffix(w.queued[1..], w.queued);
        SetWorkerEvolves(ui, i, w.(queued := w.queued[1..]));
      }
  }

  /**
   * Over any events, a retired worker keeps its query text and its connection,
   * and a connected one whose thread has ended only loses queued batches:
   * the only batches of an older search that can reach the list of a later
   * one are those its worker queued before it ended and was retired.
   */
  lemma {:induction false} RunRetiredEvolve(ui: SearchUi, es: seq<UiEvent>)
    ensures RetiredEvolve(ui, RunUi(ui, es))
    decreases |es|
  {
    if es == [] {
      forall j | 0 <= j < |ui.retired| ensures Evolves(ui.retired[j], ui.retired[j]) {
        assert IsSuffix(ui.retired[j].queued, ui.retired[j].queued);
      }
    } else {
      ApplyEvolves(ui, es[0]);
      if Apply(ui, es[0]).Some? {
        var u := Apply(ui, es[0]).value;
        RunRetiredEvolve(u, es[1..]);
        RetiredEvolveTrans(ui, u, RunUi(u, es[1..]));
      } else {
        forall j | 0 <= j < |ui.retired| ensures Evolves(ui.retired[j], ui.retired[j]) {
          assert IsSuffix(ui.retired[j].queued, ui.retired[j].queued);
        }
      }
    }
  }

  /** A batch from a disconnected retired worker is dropped: the list and the status stay as they were. */
  lemma RetiredBatchIgnored(ui: SearchUi, i: nat)
    requires i < |ui.retired| && !ui.retired[i].connected
    ensures Deliver(ui, i).results == ui.results && Deliver(ui, i).status == ui.status
  {
    assert Workers(ui)[i] == ui.retired[i];
  }

  /**
   * The disconnect in `_start_search` only covers a running worker. A
   * worker that emitted a batch and ended before the window handled it is
   * retired still connected, so after the next search has cleared the
   * list, that older batch lands in it.
   */
  lemma StaleBatchReachesNextSearch(first: string, second: string, items: seq<FileRecord>)
    requires Strip(first) != [] && Strip(second) != []
    ensures var ui := RunUi(IdleUi, [Search(first), Emitted(0, items), ThreadEnded(0), Search(second), Handled(0)]);
      ui.worker == Some(Launch(Strip(second))) && ui.results == items
  {
    var es := [Search(first), Emitted(0, items), ThreadEnded(0), Search(second), Handled(0)];
    var w := Launch(Strip(first));
    var w2 := w.(queued := [items]);
    var w3 := w2.(running := false);
    var u1 := SearchUi(Some(w), [], [], Searching);
    var u2 := SearchUi(Some(w2), [], [], Searching);
    var u3 := SearchUi(Some(w3), [], [], Searching);
    var u4 := SearchUi(Some(Launch(Strip(second))), [w3], [], Searching);
    var u5 := u4.(retired := [w3.(queued := [])], results := items, status := Found(|items|));
    assert RunUi(IdleUi, es) == RunUi(u1, es[1..]) by {
      StrippedFromIdle(Strip(first));
      assert StartSearch(IdleUi, first) == StartStripped(IdleUi, Strip(first));
      RunUiStep(IdleUi, Search(first), es, u1);
    }
    assert RunUi(u1, es[1..]) == RunUi(u2, es[1..][1..]) by {
      EmitToCurrent(w, items);
      assert w.queued + [items] == [items];
      RunUiStep(u1, Emitted(0, items), es[1..], u2);
    }
    assert RunUi(u2, es[1..][1..]) == RunUi(u3, es[1..][1..][1..]) by {
      EndCurrent(w2);
      RunUiStep(u2, ThreadEnded(0), es[1..][1..], u3);
    }
    assert RunUi(u3, es[1..][1..][1..]) == RunUi(u4, es[1..][1..][1..][1..]) by {
      SearchAfterEnded(w3, second);
      RunUiStep(u3, Search(second), es[1..][1..][1..], u4);
    }
    assert RunUi(u4, es[1..][1..][1..][1..]) == u5 by {
      HandleRetired(w3, u4);
      assert w3.queued[1..] == [];
      RunUiStep(u4, Handled(0), es[1..][1..][1..][1..], u5);
      assert |es[1..][1..][1..][1..][1..]| == 0;
    }
  }

  /** A search from the idle window, once stripped. */
  lemma StrippedFromIdle(query: string)
    requires query != []
    ensures StartStripped(IdleUi, query) == Searched(SearchUi(Some(Launch(query)), [], [], Searching))
  {
  }

  /** A running current worker, alone in the window, emits a batch. */
  lemma EmitToCurrent(w: Worker, items: seq<FileRecord>)
    requires w.running
    ensures Apply(SearchUi(Some(w), [], [], Searching), Emitted(0, items)) == Some(SearchUi(Some(w.(queued := w.queued + [items])), [], [], Searching))
  {
    assert Workers(SearchUi(Some(w), [], [], Searching)) == [w];
  }

  /** The thread of the current worker, alone in the window, ends. */
  lemma EndCurrent(w: Worker)
    ensures Apply(SearchUi(Some(w), [], [], Searching), ThreadEnded(0)) == Some(SearchUi(Some(w.(running := false)), [], [], Searching))
  {
    assert Workers(SearchUi(Some(w), [], [], Searching)) == [w];
  }

  /** The window handles the first queued batch of its one retired worker, which is still connected. */
  lemma HandleRetired(w: Worker, ui: SearchUi)
    requires w.connected && w.queued != [] && ui.retired == [w] && ui.worker.Some? && ui.results == []
    ensures Apply(ui, Handled(0)) == Some(ui.(retired := [w.(queued := w.queued[1..])], results := w.queued[0], status := Found(|w.queued[0]|)))
  {
    assert Workers(ui)[0] == w && |Workers(ui)| == 2;
    assert ui.retired[0 := w.(queued := w.queued[1..])] == [w.(queued := w.queued[1..])];
    assert [] + w.queued[0] == w.queued[0];
  }

  /** A run starting with an event that does not raise is the rest of the run from its result. */
  lemma RunUiStep(ui: SearchUi, e: UiEvent, es: seq<UiEvent>, u: SearchUi)
    requires es != [] && es[0] == e && Apply(ui, e) == Some(u)
    ensures RunUi(ui, es) == RunUi(u, es[1..])
  {
  }

  /** A search that does not raise is applied as `StartSearch` computes it. */
  lemma SearchApplies(ui: SearchUi, text: string)
    requires StartSearch(ui, text).Searched?
    ensures Apply(ui, Search(text)) == Some(StartSearch(ui, text).ui)
  {
  }

  /** A search while the current worker has ended, once stripped: the worker is retired as it is. */
  lemma StrippedAfterEnded(w: Worker, query: string)
    requires query != [] && !w.running
    ensures StartStripped(SearchUi(Some(w), [], [], Searching), query) == Searched(SearchUi(Some(Launch(query)), [w], [], Searching))
  {
  }

  lemma SearchAfterEnded(w: Worker, text: string)
    requires Strip(text) != [] && !w.running
    ensures Apply(SearchUi(Some(w), [], [], Searching), Search(text)) == Some(SearchUi(Some(Launch(Strip(text))), [w], [], Searching))
  {
    var ui := SearchUi(Some(w), [], [], Searching);
    assert StartSearch(ui, text) == StartStripped(ui, Strip(text));
    StrippedAfterEnded(w, Strip(text));
    SearchApplies(ui, text);
  }

  /** The rebuild thread: whether one exists and still runs, and how many rebuilds were started. */
  datatype Rebuilder = Rebuilder(running: bool, started: nat)

  /** `trigger_rebuild`: nothing while a rebuild runs, else start one. */
  function TriggerRebuild(s: Rebuilder): (r: Rebuilder)
    ensures r.running
    ensures s.running ==> r == s
    ensures !s.running ==> r.started == s.started + 1
  {
    if s.running then s else Rebuilder(true, s.started + 1)
  }

  datatype RebuildOp = Trigger | Finished

  function RunRebuilds(s: Rebuilder, ops: seq<RebuildOp>): Rebuilder
    decreases |ops|
  {
    if ops == [] then s
    else
      var s' := match ops[0] case Trigger => TriggerRebuild(s) case Finished => s.(running := false);
      RunRebuilds(s', ops[1..])
  }

  function CountFinished(ops: seq<RebuildOp>): nat {
    if ops == [] then 0 else (if ops[0] == Finished then 1 else 0) + CountFinished(ops[1..])
  }

  /** Rebuilds never overlap: each start after the first needs a finish before it, so starts are bounded by finishes plus one. */
  lemma {:induction false} RebuildsNeverOverlap(s: Rebuilder, ops: seq<RebuildOp>)
    ensures RunRebuilds(s, ops).started <= s.started + CountFinished(ops) + (if s.running then 0 else 1)
    decreases |ops|
  {
    if ops != [] {
      match ops[0]
      case Trigger => RebuildsNeverOverlap(TriggerRebuild(s), ops[1..]);
      case Finished => RebuildsNeverOverlap(s.(running := false), ops[1..]);
    }
  }
}

=== FILE: paths.dfy ===
/**
 * POSIX path strings as the index maintainer and the live scanner build and
 * read them: `os.path.join`, `os.path.basename`, `pathlib.Path(p).parts`
 * and the separator count used for depth.
 */
module Paths {
  import opened Strings

  const Sep: char := '/'

  /** `os.path.join(dir, name)` (posixpath): an absolute `name` replaces `dir`; no doubled separator. */
  function Join(dir: string, name: string): (r: string)
    ensures Sep !in name && dir != [] && dir[|dir| - 1] != Sep ==> r == dir + [Sep] + name
  {
    if name != [] && name[0] == Sep then name
    else if dir == [] || dir[|dir| - 1] == Sep then dir + name
    else dir + [Sep] + name
  }

  /** `os.path.basename(p)`: everything after the last separator. */
  function Basename(p: string): (r: string)
    ensures Sep !in r
    ensures |r| <= |p| && r == p[|p| - |r|..]
    ensures |r| < |p| ==> p[|p| - |r| - 1] == Sep
  {
    if p == [] then []
    else if p[|p| - 1] == Sep then []
    else Basename(p[..|p| - 1]) + [p[|p| - 1]]
  }

  /** A name that `os.listdir` can return: non-empty and free of separators. */
  predicate IsEntryName(name: string) {
    name != [] && Sep !in name
  }

  /** The base name of a joined path is the entry name it was joined with. */
  lemma BasenameOfJoin(dir: string, name: string)
    requires IsEntryName(name)
    ensures Basename(Join(dir, name)) == name
  {
    var p := Join(dir, name);
    assert p[|p| - |name|..] == name;
    BasenameOfSuffix(p, name);
  }

  lemma {:induction false} BasenameOfSuffix(p: string, name: string)
    requires Sep !in name
    requires |name| <= |p| && p[|p| - |name|..] == name
    requires |name| == |p| || p[|p| - |name| - 1] == Sep
    ensures Basename(p) == name
    decreases |name|
  {
    if name != [] {
      var q := p[..|p| - 1];
      var n := name[..|name| - 1];
      assert name == n + [name[|name| - 1]];
      assert p[|p| - 1] == name[|name| - 1];
      assert q[|q| - |n|..] == n;
      if |n| < |q| {
        assert q[|q| - |n| - 1] == p[|p| - |name| - 1];
      }
      BasenameOfSuffix(q, n);
    }
  }

  /** The pieces of a path between separators, with the empty and `.` pieces `pathlib` drops. */
  function Components(p: string): seq<string> {
    KeepNamed(SplitOn(p, Sep))
  }

  function KeepNamed(pieces: seq<string>): (r: seq<string>)
    ensures forall i :: 0 <= i < |r| ==> r[i] in pieces
  {
    if pieces == [] then []
    else (if pieces[0] != [] && pieces[0] != "." then [pieces[0]] else []) + KeepNamed(pieces[1..])
  }

  /** The number of separators in `s`. */
  function CountSep(s: string): nat {
    if s == [] then 0 else (if s[0] == Sep then 1 else 0) + CountSep(s[1..])
  }

  lemma {:induction false} CountSepAppend(a: string, b: string)
    ensures CountSep(a + b) == CountSep(a) + CountSep(b)
    decreases |a|
  {
    if a == [] {
      assert a + b == b;
    } else {
      assert (a + b)[1..] == a[1..] + b;
      CountSepAppend(a[1..], b);
    }
  }

  lemma CountSepOfName(name: string)
    requires Sep !in name
    ensures CountSep(name) == 0
  {
    if name != [] {
      assert Sep !in name[1..];
      CountSepOfName(name[1..]);
    }
  }

  /**
   * The depth `rebuild_index` computes: the separators in the part of `dir`
   * after the root's own characters (`dir[len(root):].count(os.sep)`; an
   * over-long slice is empty in Python).
   */
  function Depth(root: string, dir: string): nat {
    if |root| <= |dir| then CountSep(dir[|root|..]) else 0
  }

  /** Going one entry deeper adds exactly one to the depth, when the directory does not end in a separator. */
  lemma DepthOfJoin(root: string, dir: string, name: string)
    requires |root| <= |dir| && dir != [] && dir[|dir| - 1] != Sep
    requires IsEntryName(name)
    ensures Depth(root, Join(dir, name)) == Depth(root, dir) + 1
  {
    var p := Join(dir, name);
    assert p[|root|..] == dir[|root|..] + ([Sep] + name);
    CountSepAppend(dir[|root|..], [Sep] + name);
    assert ([Sep] + name)[1..] == name;
    CountSepOfName(name);
  }
}

=== FILE: query_language.dfy ===
/**
 * The query language of `SearchManager` (search_manager.py): `SetQuery`
 * turns free text into five keyword lists and `IsMatch` evaluates them
 * against a file name.
 *
 * Parsing, in the order `set_query` applies it to the text:
 *   1. full-width `！`/`｜` become `!`/`|`;
 *   2. every `!token` (a `!` followed by a run of non-space characters) is
 *      lowercased into `notExts` if it starts with `.`, else into `notKws`,
 *      and removed from the text;
 *   3. every whole whitespace-delimited token of the form `.\w+` is
 *      lowercased into `exactExts`, and each such token is then removed
 *      everywhere in the text (Python's `str.replace`, so also from inside
 *      other words);
 *   4. if a `|` remains, the stripped, lowercased, non-empty `|`-pieces are
 *      `orKws`; otherwise the lowercased whitespace-split words are `andKws`.
 */
module QueryLanguage {
  import opened Strings

  /** The five keyword lists a `SearchManager` holds. */
  datatype Query = Query(
    andKws: seq<string>,
    orKws: seq<string>,
    notKws: seq<string>,
    notExts: seq<string>,
    exactExts: seq<string>)

  /** The state `set_query` starts from, and the result for blank text. */
  const EmptyQuery := Query([], [], [], [], [])

  const FullWidthBang: char := '\U{FF01}'
  const FullWidthBar: char := '\U{FF5C}'

  function NormalizeChar(c: char): char {
    if c == FullWidthBang then '!' else if c == FullWidthBar then '|' else c
  }

  /** `text.replace('！', '!').replace('｜', '|')`. */
  function Normalize(s: string): (r: string)
    ensures |r| == |s|
    ensures forall i :: 0 <= i < |s| ==> r[i] == NormalizeChar(s[i])
    ensures FullWidthBang !in r && FullWidthBar !in r
  {
    seq(|s|, i requires 0 <= i < |s| => NormalizeChar(s[i]))
  }

  /** No `!` in `s` is directly followed by a non-space character: no `!\S+` match is left. */
  predicate NoBangToken(s: string) {
    forall i :: 0 <= i < |s| - 1 && s[i] == '!' ==> IsSpace(s[i + 1])
  }

  /**
   * `re.findall(r'!(\S+)', s)` paired with `re.sub(r'!\S+', '', s)`: one
   * left-to-right scan that collects each token after a `!` and drops the
   * `!token` from the text.
   */
  function ExtractBangs(s: string): (r: (seq<string>, string))
    ensures forall i :: 0 <= i < |r.0| ==> r.0[i] != [] && NoSpace(r.0[i])
    ensures NoBangToken(r.1)
    ensures s != [] && IsSpace(s[0]) ==> r.1 != [] && r.1[0] == s[0]
    ensures |r.1| <= |s|
    decreases |s|
  {
    if s == [] then ([], [])
    else if s[0] == '!' && |s| > 1 && !IsSpace(s[1]) then
      var n := RunLength(s[1..]);
      var tok := s[1..1 + n];
      assert tok == s[1..][..n];
      assert n >= 1;
      var r := ExtractBangs(s[1 + n..]);
      assert forall i :: 1 <= i < |[tok] + r.0| ==> ([tok] + r.0)[i] == r.0[i - 1];
      ([tok] + r.0, r.1)
    else
      var r := ExtractBangs(s[1..]);
      assert forall i :: 1 <= i < |[s[0]] + r.1| ==> ([s[0]] + r.1)[i] == r.1[i - 1];
      (r.0, [s[0]] + r.1)
  }

  /** Text without `!` holds no `!`-token and is kept whole. */
  lemma {:induction false} ExtractBangsPlain(a: string)
    requires '!' !in a
    ensures ExtractBangs(a) == ([], a)
    decreases |a|
  {
    if a != [] {
      assert '!' !in a[1..] by { assert forall c :: c in a[1..] ==> c in a; }
      ExtractBangsPlain(a[1..]);
      assert a == [a[0]] + a[1..];
    }
  }

  /**
   * The first `!` that is followed by a non-space starts a token: the
   * whole run of non-space characters after it. The token is collected,
   * `!token` is dropped, the text before it is kept, and the scan goes on
   * after the run.
   */
  lemma {:induction false} ExtractBangsToken(a: string, tok: string, b: string)
    requires '!' !in a && tok != [] && NoSpace(tok) && (b == [] || IsSpace(b[0]))
    ensures ExtractBangs(a + "!" + tok + b) == ([tok] + ExtractBangs(b).0, a + ExtractBangs(b).1)
    decreases |a|
  {
    if a == [] {
      assert a + "!" + tok + b == "!" + tok + b;
      ExtractBangsAtToken(tok, b);
      assert a + ExtractBangs(b).1 == ExtractBangs(b).1;
    } else {
      var rest := a[1..] + "!" + tok + b;
      assert a + "!" + tok + b == [a[0]] + rest;
      assert '!' !in a[1..] by { assert forall c :: c in a[1..] ==> c in a; }
      ExtractBangsKeeps(a[0], rest);
      ExtractBangsToken(a[1..], tok, b);
      assert [a[0]] + (a[1..] + ExtractBangs(b).1) == a + ExtractBangs(b).1;
    }
  }

  lemma ExtractBangsAtToken(tok: string, b: string)
    requires tok != [] && NoSpace(tok) && (b == [] || IsSpace(b[0]))
    ensures ExtractBangs("!" + tok + b) == ([tok] + ExtractBangs(b).0, ExtractBangs(b).1)
  {
    var s := "!" + tok + b;
    assert s[1..] == tok + b;
    RunLengthOfToken(tok, b);
    assert s[1..1 + |tok|] == tok && s[1 + |tok|..] == b;
    assert s[0] == '!' && s[1] == tok[0] && !IsSpace(s[1]);
  }

  /** A character other than `!` is kept, and the scan goes on after it. */
  lemma ExtractBangsKeeps(c: char, rest: string)
    requires c != '!'
    ensures ExtractBangs([c] + rest) == (ExtractBangs(rest).0, [c] + ExtractBangs(rest).1)
  {
    assert ([c] + rest)[0] == c && ([c] + rest)[1..] == rest;
  }

  /** A `!` at the end of the text or before whitespace starts no token and is kept. */
  lemma {:induction false} ExtractBangsLoneBang(a: string, b: string)
    requires '!' !in a && (b == [] || IsSpace(b[0]))
    ensures ExtractBangs(a + "!" + b) == (ExtractBangs(b).0, a + "!" + ExtractBangs(b).1)
    decreases |a|
  {
    var s := a + "!" + b;
    if a == [] {
      assert s == "!" + b && s[1..] == b;
    } else {
      assert s[0] == a[0] && s[1..] == a[1..] + "!" + b;
      assert '!' !in a[1..] by { assert forall c :: c in a[1..] ==> c in a; }
      ExtractBangsLoneBang(a[1..], b);
      assert [a[0]] + (a[1..] + "!" + ExtractBangs(b).1) == a + "!" + ExtractBangs(b).1;
    }
  }

  lemma {:induction false} RunLengthOfToken(tok: string, b: string)
    requires NoSpace(tok) && (b == [] || IsSpace(b[0]))
    ensures RunLength(tok + b) == |tok|
    decreases |tok|
  {
    if tok == [] {
      assert tok + b == b;
    } else {
      assert (tok + b)[1..] == tok[1..] + b;
      RunLengthOfToken(tok[1..], b);
    }
  }

  /** A whole token of the form `\.\w+`: what `(?<!\S)\.\w+(?!\S)` matches. */
  predicate IsExtToken(t: string) {
    |t| >= 2 && t[0] == '.' && forall i :: 1 <= i < |t| ==> IsWordChar(t[i])
  }

  function ExtTokensOf(ws: seq<string>): (r: seq<string>)
    ensures forall i :: 0 <= i < |r| ==> IsExtToken(r[i])
  {
    if ws == [] then []
    else (if IsExtToken(ws[0]) then [ws[0]] else []) + ExtTokensOf(ws[1..])
  }

  /**
   * `re.findall(r'(?<!\S)\.\w+(?!\S)', s)`. The look-behind and look-ahead
   * pin a match to a whole whitespace-delimited token, so the matches are
   * the tokens of `s.split()` that have the `\.\w+` shape, in order.
   */
  function ExtTokens(s: string): seq<string> {
    ExtTokensOf(SplitWs(s))
  }

  /** `for ext in exts: text = text.replace(ext, "")`. */
  function RemoveEach(s: string, exts: seq<string>): (r: string)
    ensures |r| <= |s|
    decreases |exts|
  {
    if exts == [] then s else RemoveEach(RemoveAll(s, exts[0]), exts[1..])
  }

  function LowerAll(ws: seq<string>): (r: seq<string>)
    ensures |r| == |ws|
    ensures forall i :: 0 <= i < |ws| ==> r[i] == Lower(ws[i])
  {
    seq(|ws|, i requires 0 <= i < |ws| => Lower(ws[i]))
  }

  /** A token that starts with `.`; lowercasing does not change this. */
  predicate DotLed(t: string) {
    t != [] && t[0] == '.'
  }

  /** The lowercased `!`-tokens that start with `.`, in order. */
  function NotExtsOf(ts: seq<string>): (r: seq<string>)
  {
    if ts == [] then []
    else (if DotLed(ts[0]) then [Lower(ts[0])] else []) + NotExtsOf(ts[1..])
  }

  /** The lowercased `!`-tokens that do not start with `.`, in order. */
  function NotKwsOf(ts: seq<string>): (r: seq<string>)
  {
    if ts == [] then []
    else (if DotLed(ts[0]) then [] else [Lower(ts[0])]) + NotKwsOf(ts[1..])
  }

  /** `[p.strip().lower() for p in parts if p.strip()]`. */
  function OrTermsOf(parts: seq<string>): (r: seq<string>)
  {
    if parts == [] then []
    else
      var p := Strip(parts[0]);
      (if p != [] then [Lower(p)] else []) + OrTermsOf(parts[1..])
  }

  /** An AND term: a lowercase word with no whitespace. */
  predicate AndKwShape(t: string) {
    t != [] && NoSpace(t) && IsLower(t)
  }

  /** An OR term: lowercase, no `|`, and no whitespace at either end. */
  predicate OrKwShape(t: string) {
    t != [] && '|' !in t && IsLower(t) && !IsSpace(t[0]) && !IsSpace(t[|t| - 1])
  }

  /** An exclusion keyword: a lowercase space-free token that does not start with `.`. */
  predicate NotKwShape(t: string) {
    t != [] && t[0] != '.' && NoSpace(t) && IsLower(t)
  }

  /** An excluded extension: a lowercase space-free token that starts with `.`. */
  predicate NotExtShape(t: string) {
    t != [] && t[0] == '.' && NoSpace(t) && IsLower(t)
  }

  /** A required extension: a lowercase `\.\w+` token. */
  predicate ExactExtShape(t: string) {
    IsExtToken(t) && IsLower(t)
  }

  /** What a parsed query looks like: OR and AND never both hold terms, and every term has its shape. */
  ghost predicate WellFormed(q: Query) {
    && (q.andKws == [] || q.orKws == [])
    && (forall i :: 0 <= i < |q.andKws| ==> AndKwShape(q.andKws[i]))
    && (forall i :: 0 <= i < |q.orKws| ==> OrKwShape(q.orKws[i]))
    && (forall i :: 0 <= i < |q.notKws| ==> NotKwShape(q.notKws[i]))
    && (forall i :: 0 <= i < |q.notExts| ==> NotExtShape(q.notExts[i]))
    && (forall i :: 0 <= i < |q.exactExts| ==> ExactExtShape(q.exactExts[i]))
  }

  /** The `!`-tokens of the normalized text. */
  function Bangs(t: string): seq<string> {
    ExtractBangs(t).0
  }

  /** The required-extension tokens, found once the `!`-tokens are gone. */
  function Exts(t: string): seq<string> {
    ExtTokens(ExtractBangs(t).1)
  }

  /** The text left for the OR/AND step. */
  function Remainder(t: string): string {
    RemoveEach(ExtractBangs(t).1, Exts(t))
  }

  /** Step 4, OR branch: the stripped, lowercased, non-empty `|`-pieces. */
  function OrKwsOf(rest: string): seq<string> {
    if '|' in rest then OrTermsOf(SplitOn(rest, '|')) else []
  }

  /** Step 4, AND branch: the lowercased words, only when no `|` is left. */
  function AndKwsOf(rest: string): seq<string> {
    if '|' in rest then [] else LowerAll(SplitWs(rest))
  }

  /** Steps 2-4 on already normalized text. */
  function Parse(t: string): Query {
    var rest := Remainder(t);
    Query(AndKwsOf(rest), OrKwsOf(rest), NotKwsOf(Bangs(t)), NotExtsOf(Bangs(t)), LowerAll(Exts(t)))
  }

  /** `SearchManager.set_query`: reset all five lists, then, unless the text is blank, parse it. */
  function SetQuery(text: string): Query {
    if Strip(text) == [] then EmptyQuery else Parse(Normalize(text))
  }

  // ---------------------------------------------------------------------------
  // Properties of the parser
  // ---------------------------------------------------------------------------

  /** Every parsed query is well formed: OR and AND never both hold terms, and every term is lowercase. */
  lemma SetQueryWellFormed(text: string)
    ensures WellFormed(SetQuery(text))
  {
    if Strip(text) != [] {
      ParseWellFormed(Normalize(text));
    }
  }

  lemma ParseWellFormed(t: string)
    ensures WellFormed(Parse(t))
  {
    var q := Parse(t);
    var rest := Remainder(t);
    assert q.andKws == AndKwsOf(rest) && q.orKws == OrKwsOf(rest);
    assert q.notKws == NotKwsOf(Bangs(t)) && q.notExts == NotExtsOf(Bangs(t));
    assert q.exactExts == LowerAll(Exts(t));
    NotKwsShape(Bangs(t));
    NotExtsShape(Bangs(t));
    ExtsLower(Exts(t));
    OrKwsShape(rest);
    AndKwsShape(rest);
  }

  /** Lowercasing maps spaces to spaces and non-spaces to non-spaces. */
  lemma LowerKeepsSpaces(s: string)
    ensures forall i :: 0 <= i < |s| ==> (IsSpace(Lower(s)[i]) <==> IsSpace(s[i]))
  {
  }

  lemma ExtsLower(exts: seq<string>)
    requires forall i :: 0 <= i < |exts| ==> IsExtToken(exts[i])
    ensures forall i :: 0 <= i < |exts| ==> ExactExtShape(LowerAll(exts)[i])
  {
    forall i | 0 <= i < |exts| ensures ExactExtShape(LowerAll(exts)[i]) {
      LowerIsLower(exts[i]);
    }
  }

  lemma {:induction false} NotKwsShape(ts: seq<string>)
    requires forall i :: 0 <= i < |ts| ==> ts[i] != [] && NoSpace(ts[i])
    ensures forall i :: 0 <= i < |NotKwsOf(ts)| ==> NotKwShape(NotKwsOf(ts)[i])
  {
    if ts != [] {
      NotKwsShape(ts[1..]);
      LowerIsLower(ts[0]);
      LowerKeepsSpaces(ts[0]);
      var head: seq<string> := if ts[0][0] == '.' then [] else [Lower(ts[0])];
      var tail := NotKwsOf(ts[1..]);
      assert NotKwsOf(ts) == head + tail;
      forall i | 0 <= i < |head + tail| ensures NotKwShape((head + tail)[i]) {
        if i >= |head| {
          assert (head + tail)[i] == tail[i - |head|];
        }
      }
    }
  }

  lemma {:induction false} NotExtsShape(ts: seq<string>)
    requires forall i :: 0 <= i < |ts| ==> ts[i] != [] && NoSpace(ts[i])
    ensures forall i :: 0 <= i < |NotExtsOf(ts)| ==> NotExtShape(NotExtsOf(ts)[i])
  {
    if ts != [] {
      NotExtsShape(ts[1..]);
      LowerIsLower(ts[0]);
      LowerKeepsSpaces(ts[0]);
      var head: seq<string> := if ts[0][0] == '.' then [Lower(ts[0])] else [];
      var tail := NotExtsOf(ts[1..]);
      assert NotExtsOf(ts) == head + tail;
      forall i | 0 <= i < |head + tail| ensures NotExtShape((head + tail)[i]) {
        if i >= |head| {
          assert (head + tail)[i] == tail[i - |head|];
        }
      }
    }
  }

  lemma StripKeepsChars(s: string)
    ensures forall c :: c in Strip(s) ==> c in s
  {
    var l := LStrip(s);
    assert forall c :: c in Strip(s) ==> c in l;
    assert forall c :: c in l ==> c in s;
  }

  lemma OrTermShape(p: string)
    requires '|' !in p
    requires Strip(p) != []
    ensures OrKwShape(Lower(Strip(p)))
  {
    var t := Strip(p);
    StripKeepsChars(p);
    LowerIsLower(t);
    LowerKeepsSpaces(t);
    assert !IsSpace(t[0]) by { assert t[0] == LStrip(p)[0]; }
  }

  lemma {:induction false} OrTermsShape(parts: seq<string>)
    requires forall i :: 0 <= i < |parts| ==> '|' !in parts[i]
    ensures forall i :: 0 <= i < |OrTermsOf(parts)| ==> OrKwShape(OrTermsOf(parts)[i])
  {
    if parts != [] {
      OrTermsShape(parts[1..]);
      var p := Strip(parts[0]);
      var head: seq<string> := if p != [] then [Lower(p)] else [];
      if p != [] {
        OrTermShape(parts[0]);
      }
      var tail := OrTermsOf(parts[1..]);
      assert OrTermsOf(parts) == head + tail;
      OrShapesAppend(head, tail);
    }
  }

  lemma OrShapesAppend(a: seq<string>, b: seq<string>)
    requires forall i :: 0 <= i < |a| ==> OrKwShape(a[i])
    requires forall i :: 0 <= i < |b| ==> OrKwShape(b[i])
    ensures forall i :: 0 <= i < |a + b| ==> OrKwShape((a + b)[i])
  {
    forall i | 0 <= i < |a + b| ensures OrKwShape((a + b)[i]) {
      if i >= |a| {
        assert (a + b)[i] == b[i - |a|];
      } else {
        assert (a + b)[i] == a[i];
      }
    }
  }

  lemma OrKwsShape(rest: string)
    ensures forall i :: 0 <= i < |OrKwsOf(rest)| ==> OrKwShape(OrKwsOf(rest)[i])
  {
    if '|' in rest {
      OrTermsShape(SplitOn(rest, '|'));
    }
  }

  lemma AndKwsShape(rest: string)
    ensures forall i :: 0 <= i < |AndKwsOf(rest)| ==> AndKwShape(AndKwsOf(rest)[i])
  {
    if '|' !in rest {
      var ws := SplitWs(rest);
      forall i | 0 <= i < |ws| ensures IsLower(Lower(ws[i])) && NoSpace(Lower(ws[i])) {
        LowerIsLower(ws[i]);
        LowerKeepsSpaces(ws[i]);
      }
    }
  }

  /**
   * Every `!`-token goes to exactly one of the two exclusion lists: the
   * lowercased tokens are split between `notKws` and `notExts` with none
   * lost and none added.
   */
  lemma {:induction false} BangsPartitioned(ts: seq<string>)
    ensures multiset(NotKwsOf(ts)) + multiset(NotExtsOf(ts)) == multiset(LowerAll(ts))
  {
    if ts != [] {
      BangsPartitioned(ts[1..]);
      assert LowerAll(ts) == [Lower(ts[0])] + LowerAll(ts[1..]);
    }
  }

  /**
   * Where each `!`-token goes: a lowercased token is an excluded extension
   * exactly when some `!`-token starting with `.` lowercases to it, and an
   * exclusion keyword exactly when some other `!`-token does.
   */
  lemma {:induction false} BangRouting(ts: seq<string>, x: string)
    ensures x in NotExtsOf(ts) <==> exists i :: 0 <= i < |ts| && DotLed(ts[i]) && x == Lower(ts[i])
    ensures x in NotKwsOf(ts) <==> exists i :: 0 <= i < |ts| && !DotLed(ts[i]) && x == Lower(ts[i])
  {
    if ts != [] {
      BangRouting(ts[1..], x);
      assert forall i :: 1 <= i < |ts| ==> ts[i] == ts[1..][i - 1];
      if exists i :: 0 <= i < |ts[1..]| && DotLed(ts[1..][i]) && x == Lower(ts[1..][i]) {
        var i :| 0 <= i < |ts[1..]| && DotLed(ts[1..][i]) && x == Lower(ts[1..][i]);
        assert ts[i + 1] == ts[1..][i];
      }
      if exists i :: 0 <= i < |ts[1..]| && !DotLed(ts[1..][i]) && x == Lower(ts[1..][i]) {
        var i :| 0 <= i < |ts[1..]| && !DotLed(ts[1..][i]) && x == Lower(ts[1..][i]);
        assert ts[i + 1] == ts[1..][i];
      }
    }
  }

  /** Blank text, however long, leaves all five lists empty; any other text is parsed once normalized. */
  lemma BlankTextGivesEmptyQuery(text: string)
    ensures Blank(text) ==> SetQuery(text) == EmptyQuery
    ensures !Blank(text) ==> SetQuery(text) == Parse(Normalize(text))
  {
    StripEmptyIffBlank(text);
  }

  /** Normalization only touches the two full-width characters, so it preserves blankness. */
  lemma NormalizeKeepsBlank(s: string)
    ensures Blank(Normalize(s)) <==> Blank(s)
  {
  }

  lemma NormalizeIdempotent(s: string)
    ensures Normalize(Normalize(s)) == Normalize(s)
  {
    var t := Normalize(s);
    var u := Normalize(t);
    forall i | 0 <= i < |t| ensures u[i] == t[i] {
      assert t[i] == NormalizeChar(s[i]);
    }
  }

  /** Full-width `！` and `｜` parse exactly like `!` and `|`. */
  lemma SetQueryIgnoresFullWidth(text: string)
    ensures SetQuery(Normalize(text)) == SetQuery(text)
  {
    var t := Normalize(text);
    StripEmptyIffBlank(text);
    StripEmptyIffBlank(t);
    NormalizeKeepsBlank(text);
    NormalizeIdempotent(text);
  }

  // ---------------------------------------------------------------------------
  // The matcher
  // ---------------------------------------------------------------------------

  /** `any(kw in fn for kw in kws)`. */
  function AnyContained(kws: seq<string>, fn: string): (b: bool)
    ensures b <==> exists i :: 0 <= i < |kws| && Contains(fn, kws[i])
  {
    if kws == [] then false
    else Contains(fn, kws[0]) || AnyContained(kws[1..], fn)
  }

  /** `all(kw in fn for kw in kws)`. */
  function AllContained(kws: seq<string>, fn: string): (b: bool)
    ensures b <==> forall i :: 0 <= i < |kws| ==> Contains(fn, kws[i])
  {
    if kws == [] then true
    else Contains(fn, kws[0]) && AllContained(kws[1..], fn)
  }

  /** `any(fn.endswith(ext) for ext in exts)`. */
  function AnySuffix(exts: seq<string>, fn: string): (b: bool)
    ensures b <==> exists i :: 0 <= i < |exts| && EndsWith(fn, exts[i])
  {
    if exts == [] then false
    else EndsWith(fn, exts[0]) || AnySuffix(exts[1..], fn)
  }

  /**
   * What a name must satisfy, stated with quantifiers over the lists:
   * non-empty; no exclusion keyword inside and no excluded suffix on the
   * lowercased name; one of the required suffixes when there are any; one
   * of the OR terms when there are any; every AND term.
   */
  ghost predicate Satisfies(q: Query, name: string) {
    var fn := Lower(name);
    && name != []
    && (forall k :: k in q.notKws ==> !Contains(fn, k))
    && (forall e :: e in q.notExts ==> !EndsWith(fn, e))
    && (q.exactExts == [] || exists e :: e in q.exactExts && EndsWith(fn, e))
    && (q.orKws == [] || exists k :: k in q.orKws && Contains(fn, k))
    && (forall k :: k in q.andKws ==> Contains(fn, k))
  }

  /** `SearchManager.is_match`: the exclusion checks first, then the OR gate and the AND gate. */
  function IsMatch(q: Query, filename: string): (b: bool)
    ensures b <==> Satisfies(q, filename)
    ensures q == EmptyQuery ==> (b <==> filename != [])
  {
    if filename == [] then false
    else
      var fn := Lower(filename);
      if AnyContained(q.notKws, fn) then false
      else if AnySuffix(q.notExts, fn) then false
      else if q.exactExts != [] && !AnySuffix(q.exactExts, fn) then false
      else
        var orPassed := q.orKws == [] || AnyContained(q.orKws, fn);
        var andPassed := q.andKws == [] || AllContained(q.andKws, fn);
        orPassed && andPassed
  }

  /** A name containing an exclusion keyword is never matched. */
  lemma ExcludedNeverMatches(q: Query, name: string, k: string)
    requires k in q.notKws && Contains(Lower(name), k)
    ensures !IsMatch(q, name)
  {
  }
}

=== FILE: seqs.dfy ===
/**
 * Sequence tools shared by the index store, the orchestrator and the live
 * scanner: cutting a stream into fixed-size batches, sorting by a numeric
 * key in descending order (the way Python's stable `sorted` does), and
 * distinctness of a projected key.
 */
module Seqs {

  function Flatten<T>(ss: seq<seq<T>>): seq<T> {
    if ss == [] then [] else ss[0] + Flatten(ss[1..])
  }

  lemma FlattenAppend<T>(a: seq<seq<T>>, b: seq<seq<T>>)
    ensures Flatten(a + b) == Flatten(a) + Flatten(b)
  {
    if a != [] {
      assert (a + b)[0] == a[0];
      assert (a + b)[1..] == a[1..] + b;
      FlattenAppend(a[1..], b);
    } else {
      assert a + b == b;
    }
  }

  /** A batching of `s` into pieces of `n`: full pieces, then at most one shorter, never an empty one. */
  ghost predicate IsBatching<T>(cs: seq<seq<T>>, s: seq<T>, n: nat) {
    && Flatten(cs) == s
    && (forall i :: 0 <= i < |cs| ==> 0 < |cs[i]| <= n)
    && (forall i :: 0 <= i < |cs| - 1 ==> |cs[i]| == n)
  }

  /** Consecutive pieces of `n` elements, the last one shorter when `n` does not divide `|s|`. */
  function Chunks<T>(s: seq<T>, n: nat): (r: seq<seq<T>>)
    requires n >= 1
    ensures IsBatching(r, s, n)
    decreases |s|
  {
    if s == [] then []
    else if |s| <= n then [s]
    else
      var rest := Chunks(s[n..], n);
      assert s == s[..n] + s[n..];
      [s[..n]] + rest
  }

  /** There is only one batching: any stream cut the way `IsBatching` says is `Chunks`. */
  lemma {:induction false} BatchingIsChunks<T>(cs: seq<seq<T>>, s: seq<T>, n: nat)
    requires n >= 1
    requires IsBatching(cs, s, n)
    ensures cs == Chunks(s, n)
    decreases |cs|
  {
    if cs != [] {
      var tail := cs[1..];
      assert Flatten(cs) == cs[0] + Flatten(tail);
      if |cs| == 1 {
        assert Flatten(tail) == [];
        assert s == cs[0];
      } else {
        assert |cs[0]| == n;
        assert |Flatten(tail)| > 0 by { assert tail[0] == cs[1]; FlattenNonEmpty(tail); }
        assert s[n..] == Flatten(tail);
        assert s[..n] == cs[0];
        assert IsBatching(tail, s[n..], n) by {
          forall i | 0 <= i < |tail| ensures 0 < |tail[i]| <= n { assert tail[i] == cs[i + 1]; }
          forall i | 0 <= i < |tail| - 1 ensures |tail[i]| == n { assert tail[i] == cs[i + 1]; }
        }
        BatchingIsChunks(tail, s[n..], n);
      }
    }
  }

  lemma FlattenNonEmpty<T>(cs: seq<seq<T>>)
    requires cs != [] && cs[0] != []
    ensures |Flatten(cs)| > 0
  {
  }

  /** `Chunks` peels off one full piece when more than a piece remains. */
  lemma ChunksStep<T>(s: seq<T>, n: nat)
    requires n >= 1 && |s| > n
    ensures Chunks(s, n) == [s[..n]] + Chunks(s[n..], n)
  {
  }

  lemma MulStep(k: nat, n: nat)
    requires k >= 1 && n >= 1
    ensures k * n == (k - 1) * n + n && k * n >= n
  {
  }

  /** Cutting a prefix of `k` whole pieces commutes with concatenation. */
  lemma {:induction false} ChunksAppend<T>(a: seq<T>, b: seq<T>, n: nat, k: nat)
    requires n >= 1
    requires |a| == k * n
    ensures Chunks(a + b, n) == Chunks(a, n) + Chunks(b, n)
    decreases k
  {
    if k == 0 {
      assert a + b == b;
    } else if b == [] {
      assert a + b == a;
    } else {
      MulStep(k, n);
      var a' := a[n..];
      assert |a'| == (k - 1) * n;
      ChunksStep(a + b, n);
      assert (a + b)[..n] == a[..n];
      assert (a + b)[n..] == a' + b;
      ChunksAppend(a', b, n, k - 1);
      ChunksOfFirst(a, n);
    }
  }

  /** The pieces of a stream of at least one piece: the first piece, then the pieces of the rest. */
  lemma ChunksOfFirst<T>(a: seq<T>, n: nat)
    requires n >= 1 && |a| >= n
    ensures Chunks(a, n) == [a[..n]] + Chunks(a[n..], n)
  {
    if |a| == n {
      assert a[..n] == a;
      assert a[n..] == [];
    }
  }

  /** Every element is at least as large, by `key`, as every later one. */
  ghost predicate SortedDesc<T>(s: seq<T>, key: T -> int) {
    forall i, j :: 0 <= i < j < |s| ==> key(s[i]) >= key(s[j])
  }

  /** Puts `x` in front of the first element whose key is not larger, so it stays ahead of equal keys. */
  function Insert<T>(x: T, s: seq<T>, key: T -> int): (r: seq<T>)
    requires SortedDesc(s, key)
    ensures SortedDesc(r, key)
    ensures multiset(r) == multiset{x} + multiset(s)
    decreases |s|, 1
  {
    if s == [] || key(x) >= key(s[0]) then [x] + s
    else
      var rest := Insert(x, s[1..], key);
      assert s == [s[0]] + s[1..];
      InsertBelowHead(x, s, key);
      ConsSorted(s[0], rest, key);
      [s[0]] + rest
  }

  /** Inserting an element smaller than the head into the tail keeps everything at most the head. */
  lemma InsertBelowHead<T>(x: T, s: seq<T>, key: T -> int)
    requires SortedDesc(s, key) && s != [] && key(x) < key(s[0])
    ensures SortedDesc(s[1..], key)
    ensures forall j :: 0 <= j < |Insert(x, s[1..], key)| ==> key(s[0]) >= key(Insert(x, s[1..], key)[j])
    decreases |s|, 0
  {
    var rest := Insert(x, s[1..], key);
    forall j | 0 <= j < |rest| ensures key(s[0]) >= key(rest[j]) {
      assert rest[j] in multiset(rest);
      if rest[j] != x {
        assert rest[j] in multiset(s[1..]);
        assert rest[j] in s[1..];
        var k :| 0 <= k < |s[1..]| && s[1..][k] == rest[j];
        assert key(s[0]) >= key(s[k + 1]);
      }
    }
  }

  /** A head no smaller than any element of a sorted tail gives a sorted sequence. */
  lemma ConsSorted<T>(h: T, rest: seq<T>, key: T -> int)
    requires SortedDesc(rest, key)
    requires forall j :: 0 <= j < |rest| ==> key(h) >= key(rest[j])
    ensures SortedDesc([h] + rest, key)
  {
    var r := [h] + rest;
    forall i, j | 0 <= i < j < |r| ensures key(r[i]) >= key(r[j]) {
      assert r[j] == rest[j - 1];
      if i > 0 {
        assert r[i] == rest[i - 1];
      }
    }
  }

  /** Sorting by `key`, largest first: Python's `sorted(xs, key=lambda e: -key(e))`. */
  function SortDesc<T>(s: seq<T>, key: T -> int): (r: seq<T>)
    ensures SortedDesc(r, key)
    ensures multiset(r) == multiset(s)
    ensures |r| == |s|
  {
    if s == [] then []
    else
      assert s == [s[0]] + s[1..];
      var r := Insert(s[0], SortDesc(s[1..], key), key);
      assert |r| == |multiset(r)|;
      r
  }

  /** The elements of `s` whose key is `k`, in their order in `s`. */
  function WithKey<T>(s: seq<T>, key: T -> int, k: int): seq<T> {
    if s == [] then []
    else (if key(s[0]) == k then [s[0]] else []) + WithKey(s[1..], key, k)
  }

  lemma {:induction false} InsertStable<T>(x: T, s: seq<T>, key: T -> int, k: int)
    requires SortedDesc(s, key)
    ensures WithKey(Insert(x, s, key), key, k)
         == (if key(x) == k then [x] else []) + WithKey(s, key, k)
    decreases |s|
  {
    if s == [] || key(x) >= key(s[0]) {
      WithKeyCons(x, s, key, k);
    } else {
      var rest := Insert(x, s[1..], key);
      assert Insert(x, s, key) == [s[0]] + rest;
      WithKeyCons(s[0], rest, key, k);
      WithKeyCons(s[0], s[1..], key, k);
      assert [s[0]] + s[1..] == s;
      InsertStable(x, s[1..], key, k);
    }
  }

  lemma WithKeyCons<T>(y: T, t: seq<T>, key: T -> int, k: int)
    ensures WithKey([y] + t, key, k) == (if key(y) == k then [y] else []) + WithKey(t, key, k)
  {
    assert ([y] + t)[0] == y;
    assert ([y] + t)[1..] == t;
  }

  /** `SortDesc` is stable: elements with equal keys keep their relative order. */
  lemma {:induction false} SortDescStable<T>(s: seq<T>, key: T -> int, k: int)
    ensures WithKey(SortDesc(s, key), key, k) == WithKey(s, key, k)
    decreases |s|
  {
    if s != [] {
      SortDescStable(s[1..], key, k);
      InsertStable(s[0], SortDesc(s[1..], key), key, k);
    }
  }

  /** No two positions of `s` share the same `f`-value. */
  ghost predicate DistinctBy<T, K>(s: seq<T>, f: T -> K) {
    forall i, j :: 0 <= i < j < |s| ==> f(s[i]) != f(s[j])
  }

  /** An element that occurs twice in `s` sits at two distinct positions. */
  lemma {:induction false} TwiceMeansTwoPositions<T>(s: seq<T>, x: T)
    requires multiset(s)[x] >= 2
    ensures exists i, j :: 0 <= i < j < |s| && s[i] == x && s[j] == x
    decreases |s|
  {
    assert s == [s[0]] + s[1..];
    if s[0] == x {
      assert x in multiset(s[1..]);
      var j :| 0 <= j < |s[1..]| && s[1..][j] == x;
      assert s[j + 1] == x;
    } else {
      TwiceMeansTwoPositions(s[1..], x);
      var i, j :| 0 <= i < j < |s[1..]| && s[1..][i] == x && s[1..][j] == x;
      assert s[i + 1] == x && s[j + 1] == x;
    }
  }

  /** Reordering keeps distinctness: a permutation of a key-distinct sequence is key-distinct. */
  lemma PermutationKeepsDistinct<T, K>(a: seq<T>, b: seq<T>, f: T -> K)
    requires multiset(a) == multiset(b)
    requires DistinctBy(a, f)
    ensures DistinctBy(b, f)
  {
    forall i, j | 0 <= i < j < |b| ensures f(b[i]) != f(b[j]) {
      assert b[i] in multiset(a) && b[j] in multiset(a);
      var i' :| 0 <= i' < |a| && a[i'] == b[i];
      var j' :| 0 <= j' < |a| && a[j'] == b[j];
      if b[i] == b[j] {
        assert multiset(b)[b[i]] >= 2 by {
          assert b == b[..i] + [b[i]] + b[i + 1..j] + [b[j]] + b[j + 1..];
        }
        TwiceMeansTwoPositions(a, b[i]);
        assert false;
      } else {
        assert i' != j';
      }
    }
  }

  /** Sorting piece by piece distributes over concatenation. */
  lemma SortEachAppend<T>(a: seq<seq<T>>, b: seq<seq<T>>, key: T -> int)
    ensures SortEach(a + b, key) == SortEach(a, key) + SortEach(b, key)
  {
    var l := SortEach(a + b, key);
    var r := SortEach(a, key) + SortEach(b, key);
    forall i | 0 <= i < |l| ensures l[i] == r[i] {
      if i < |a| {
        assert (a + b)[i] == a[i];
        assert r[i] == SortEach(a, key)[i];
      } else {
        assert (a + b)[i] == b[i - |a|];
        assert r[i] == SortEach(b, key)[i - |a|];
      }
    }
  }

  /** Sorts every piece of a batching on its own. */
  function SortEach<T>(cs: seq<seq<T>>, key: T -> int): (r: seq<seq<T>>)
    ensures |r| == |cs|
    ensures forall i :: 0 <= i < |cs| ==> r[i] == SortDesc(cs[i], key)
  {
    seq(|cs|, i requires 0 <= i < |cs| => SortDesc(cs[i], key))
  }

  /** Sorting each piece of a batching permutes the flattened stream. */
  lemma {:induction false} SortEachPermutes<T>(cs: seq<seq<T>>, key: T -> int)
    ensures multiset(Flatten(SortEach(cs, key))) == multiset(Flatten(cs))
    decreases |cs|
  {
    if cs != [] {
      var r := SortEach(cs, key);
      SortEachPermutes(cs[1..], key);
      assert r[1..] == SortEach(cs[1..], key);
      assert Flatten(r) == r[0] + Flatten(r[1..]);
    }
  }
}

=== FILE: strings.dfy ===
/**
 * The Python `str` operations the search core is built from, on the ASCII
 * range: whitespace and `\w` classes, `lower()`, `startswith`/`endswith`,
 * the `in` substring test, `strip()`, `split()`, `split(sep)` and
 * `replace(old, "")`.
 */
module Strings {

  /** `str.isspace` on ASCII: space, \t \n \v \f \r and the separators \x1c-\x1f. */
  predicate IsSpace(c: char) {
    c == ' ' || ('\t' <= c <= '\r') || ('\U{1C}' <= c <= '\U{1F}')
  }

  /** The regular-expression class `\w` on ASCII. */
  predicate IsWordChar(c: char) {
    ('a' <= c <= 'z') || ('A' <= c <= 'Z') || ('0' <= c <= '9') || c == '_'
  }

  predicate IsUpper(c: char) {
    'A' <= c <= 'Z'
  }

  function LowerChar(c: char): char {
    if IsUpper(c) then (c as int + 32) as char else c
  }

  /** `str.lower()` on ASCII letters; every other character is kept. */
  function Lower(s: string): (r: string)
    ensures |r| == |s|
    ensures forall i :: 0 <= i < |s| ==> r[i] == LowerChar(s[i])
  {
    if s == [] then [] else [LowerChar(s[0])] + Lower(s[1..])
  }

  predicate IsLower(s: string) {
    forall i :: 0 <= i < |s| ==> !IsUpper(s[i])
  }

  predicate NoSpace(s: string) {
    forall i :: 0 <= i < |s| ==> !IsSpace(s[i])
  }

  predicate Blank(s: string) {
    forall i :: 0 <= i < |s| ==> IsSpace(s[i])
  }

  lemma LowerIsLower(s: string)
    ensures IsLower(Lower(s))
  {
  }

  lemma LowerOfLower(s: string)
    requires IsLower(s)
    ensures Lower(s) == s
  {
  }

  lemma LowerAppend(a: string, b: string)
    ensures Lower(a + b) == Lower(a) + Lower(b)
  {
  }

  lemma LowerSlice(s: string, i: int, j: int)
    requires 0 <= i <= j <= |s|
    ensures Lower(s[i..j]) == Lower(s)[i..j]
  {
  }

  predicate StartsWith(s: string, p: string) {
    |p| <= |s| && s[..|p|] == p
  }

  predicate EndsWith(s: string, p: string) {
    |p| <= |s| && s[|s| - |p|..] == p
  }

  /** `sub` occurs in `s` starting at position `i`. */
  predicate OccursAt(s: string, sub: string, i: int) {
    0 <= i <= |s| - |sub| && s[i..i + |sub|] == sub
  }

  /** Python's `sub in s`: an unanchored substring test; the empty string is in every string. */
  function Contains(s: string, sub: string): (b: bool)
    ensures b <==> exists i :: OccursAt(s, sub, i)
    decreases |s|
  {
    if StartsWith(s, sub) then
      assert OccursAt(s, sub, 0);
      true
    else if s == [] then
      false
    else
      var b := Contains(s[1..], sub);
      assert forall i :: OccursAt(s[1..], sub, i) <==> OccursAt(s, sub, i + 1);
      assert !OccursAt(s, sub, 0);
      assert forall i :: OccursAt(s, sub, i) ==> OccursAt(s[1..], sub, i - 1);
      b
  }

  /** The length of the run of non-space characters `s` starts with. */
  function RunLength(s: string): (n: nat)
    ensures n <= |s|
    ensures NoSpace(s[..n])
    ensures n < |s| ==> IsSpace(s[n])
  {
    if s == [] || IsSpace(s[0]) then 0 else 1 + RunLength(s[1..])
  }

  /** `str.lstrip()`: drops the leading whitespace and nothing else. */
  function LStrip(s: string): (r: string)
    ensures |r| <= |s| && r == s[|s| - |r|..]
    ensures Blank(s[..|s| - |r|])
    ensures r != [] ==> !IsSpace(r[0])
  {
    if s != [] && IsSpace(s[0]) then LStrip(s[1..]) else s
  }

  /** `str.rstrip()`: drops the trailing whitespace and nothing else. */
  function RStrip(s: string): (r: string)
    ensures |r| <= |s| && r == s[..|r|]
    ensures Blank(s[|r|..])
    ensures r != [] ==> !IsSpace(r[|r| - 1])
  {
    if s != [] && IsSpace(s[|s| - 1]) then RStrip(s[..|s| - 1]) else s
  }

  /** `str.strip()`. */
  function Strip(s: string): string {
    RStrip(LStrip(s))
  }

  /** Stripping leaves the empty string exactly when the text is all whitespace. */
  lemma StripEmptyIffBlank(s: string)
    ensures Strip(s) == [] <==> Blank(s)
  {
    var l := LStrip(s);
    if Strip(s) == [] {
      assert l[|Strip(s)|..] == l;
      assert l == [];
      forall i | 0 <= i < |s| ensures IsSpace(s[i]) {
        assert s[..|s| - |l|][i] == s[i];
      }
    } else {
      var r := Strip(s);
      assert r[0] == l[0];
      assert s[|s| - |l|] == l[0];
    }
  }

  /** `str.split()` with no separator: the maximal runs of non-space characters, in order. */
  function SplitWs(s: string): (r: seq<string>)
    ensures forall i :: 0 <= i < |r| ==> r[i] != [] && NoSpace(r[i])
    decreases |s|
  {
    if s == [] then []
    else if IsSpace(s[0]) then SplitWs(s[1..])
    else
      var n := RunLength(s);
      [s[..n]] + SplitWs(s[n..])
  }

  /** Words joined back with single spaces, the inverse of `SplitWs` on well-formed words. */
  function JoinSpaced(ws: seq<string>): string {
    if ws == [] then [] else if |ws| == 1 then ws[0] else ws[0] + " " + JoinSpaced(ws[1..])
  }

  lemma {:induction false} SplitWsOfJoin(ws: seq<string>)
    requires forall i :: 0 <= i < |ws| ==> ws[i] != [] && NoSpace(ws[i])
    ensures SplitWs(JoinSpaced(ws)) == ws
    decreases |ws|
  {
    if ws == [] {
    } else {
      var w := ws[0];
      var s := JoinSpaced(ws);
      RunOfWord(w, if |ws| == 1 then [] else " " + JoinSpaced(ws[1..]));
      if |ws| == 1 {
        assert s == w + [];
      } else {
        var t := JoinSpaced(ws[1..]);
        assert s == w + (" " + t);
        assert s[|w|..] == " " + t;
        assert (" " + t)[1..] == t;
        SplitWsOfJoin(ws[1..]);
      }
    }
  }

  /** A word followed by nothing or by a space is read back as one run. */
  lemma RunOfWord(w: string, rest: string)
    requires w != [] && NoSpace(w)
    requires rest == [] || IsSpace(rest[0])
    ensures RunLength(w + rest) == |w|
    ensures SplitWs(w + rest) == [w] + SplitWs(rest)
    decreases |w|
  {
    if |w| > 1 {
      assert (w + rest)[1..] == w[1..] + rest;
      RunOfWord(w[1..], rest);
    } else {
      assert (w + rest)[1..] == rest;
    }
    assert (w + rest)[..|w|] == w;
    assert (w + rest)[|w|..] == rest;
  }

  /** `str.split(sep)` for a one-character separator: always one more piece than separators. */
  function SplitOn(s: string, sep: char): (r: seq<string>)
    ensures |r| >= 1
    ensures forall i :: 0 <= i < |r| ==> sep !in r[i]
    ensures JoinWith(r, sep) == s
    decreases |s|
  {
    if s == [] then [[]]
    else
      var rest := SplitOn(s[1..], sep);
      if s[0] == sep then [[]] + rest
      else [[s[0]] + rest[0]] + rest[1..]
  }

  /** `sep.join(parts)`. */
  function JoinWith(parts: seq<string>, sep: char): string {
    if parts == [] then []
    else if |parts| == 1 then parts[0]
    else parts[0] + [sep] + JoinWith(parts[1..], sep)
  }

  /** Joined separator-free parts begin with the first part, followed by the separator when more parts follow. */
  lemma JoinWithShape(parts: seq<string>, sep: char)
    requires |parts| >= 1
    ensures |JoinWith(parts, sep)| >= |parts[0]|
    ensures JoinWith(parts, sep)[..|parts[0]|] == parts[0]
    ensures |parts| == 1 ==> JoinWith(parts, sep) == parts[0]
    ensures |parts| > 1 ==> |JoinWith(parts, sep)| > |parts[0]| && JoinWith(parts, sep)[|parts[0]|] == sep
    ensures |parts| > 1 ==> JoinWith(parts, sep)[|parts[0]| + 1..] == JoinWith(parts[1..], sep)
  {
    if |parts| > 1 {
      var rest := JoinWith(parts[1..], sep);
      assert JoinWith(parts, sep) == parts[0] + [sep] + rest;
    }
  }

  /** Two lists of separator-free parts that join to the same string are the same list. */
  lemma {:induction false} JoinWithInjective(a: seq<string>, b: seq<string>, sep: char)
    requires |a| >= 1 && |b| >= 1
    requires forall i :: 0 <= i < |a| ==> sep !in a[i]
    requires forall i :: 0 <= i < |b| ==> sep !in b[i]
    requires JoinWith(a, sep) == JoinWith(b, sep)
    ensures a == b
    decreases |a|
  {
    var x := JoinWith(a, sep);
    JoinWithShape(a, sep);
    JoinWithShape(b, sep);
    if |a[0]| < |b[0]| {
      assert false;
    } else if |b[0]| < |a[0]| {
      assert false;
    }
    assert a[0] == b[0];
    if |a| > 1 && |b| > 1 {
      forall i | 0 <= i < |a| - 1 ensures sep !in a[1..][i] { assert a[1..][i] == a[i + 1]; }
      forall i | 0 <= i < |b| - 1 ensures sep !in b[1..][i] { assert b[1..][i] == b[i + 1]; }
      JoinWithInjective(a[1..], b[1..], sep);
      assert a == [a[0]] + a[1..] && b == [b[0]] + b[1..];
    }
  }

  /** `split(sep)` undoes `sep.join` for parts without the separator. */
  lemma SplitOnJoin(parts: seq<string>, sep: char)
    requires |parts| >= 1
    requires forall i :: 0 <= i < |parts| ==> sep !in parts[i]
    ensures SplitOn(JoinWith(parts, sep), sep) == parts
  {
    JoinWithInjective(SplitOn(JoinWith(parts, sep), sep), parts, sep);
  }

  /** `s.split(sep)` has more than one piece exactly when `sep` occurs in `s`. */
  lemma SplitOnPieces(s: string, sep: char)
    ensures |SplitOn(s, sep)| > 1 <==> sep in s
  {
    var r := SplitOn(s, sep);
    JoinWithShape(r, sep);
    if |r| > 1 {
      assert s[|r[0]|] == sep;
    }
  }

  /** `s.replace(pat, "")`: every leftmost, non-overlapping occurrence of `pat` removed. */
  function RemoveAll(s: string, pat: string): (r: string)
    ensures |r| <= |s|
    ensures !Contains(s, pat) ==> r == s
    decreases |s|
  {
    if pat == [] || s == [] then s
    else if StartsWith(s, pat) then RemoveAll(s[|pat|..], pat)
    else
      assert !Contains(s, pat) ==> !Contains(s[1..], pat);
      [s[0]] + RemoveAll(s[1..], pat)
  }

  /**
   * The scan of `replace`: text before the first occurrence of `pat` is
   * kept, that occurrence is dropped wherever it sits (inside a longer word
   * too), and the scan resumes right after it.
   */
  lemma {:induction false} RemoveAllFirst(a: string, pat: string, b: string)
    requires pat != []
    requires forall i :: 0 <= i < |a| ==> !OccursAt(a + pat + b, pat, i)
    ensures RemoveAll(a + pat + b, pat) == a + RemoveAll(b, pat)
    decreases |a|
  {
    if a == [] {
      RemoveAllAtStart(pat, b);
    } else {
      var s := a + pat + b;
      var t := a[1..] + pat + b;
      assert s[1..] == t;
      assert !OccursAt(s, pat, 0);
      RemoveAllSkip(s, pat);
      forall i | 0 <= i < |a[1..]| ensures !OccursAt(t, pat, i) {
        OccursShift(s, pat, i);
      }
      RemoveAllFirst(a[1..], pat, b);
      assert s[0] == a[0];
      ConsSplit(a, RemoveAll(b, pat));
    }
  }

  lemma ConsSplit(a: string, r: string)
    requires a != []
    ensures [a[0]] + (a[1..] + r) == a + r
  {
    assert a == [a[0]] + a[1..];
  }

  lemma RemoveAllAtStart(pat: string, b: string)
    requires pat != []
    ensures RemoveAll(pat + b, pat) == RemoveAll(b, pat)
  {
    var s := pat + b;
    assert s[..|pat|] == pat;
    assert s[|pat|..] == b;
  }

  lemma RemoveAllSkip(s: string, pat: string)
    requires pat != [] && s != [] && !OccursAt(s, pat, 0)
    ensures RemoveAll(s, pat) == [s[0]] + RemoveAll(s[1..], pat)
  {
  }

  /** An occurrence in the tail is an occurrence one position later in the whole. */
  lemma OccursShift(s: string, pat: string, i: int)
    requires s != [] && i >= 0
    ensures OccursAt(s[1..], pat, i) <==> OccursAt(s, pat, i + 1)
  {
    if 0 <= i <= |s| - 1 - |pat| {
      assert s[1..][i..i + |pat|] == s[i + 1..i + 1 + |pat|];
    }
  }
}
